=== FILE: README.md ===
# Grid robot: a verified model

This project models the algorithmic core of a small C program. In that
program, a robot collects markers on a rectangular arena of tiles and brings
them home. The arena is a row-major matrix of one-byte tiles: Empty (0x00),
Obstacle (0x01), Marker (0x02) and Void (0xFF, a removed cell). The robot
moves one cell at a time, facing Up, Right, Down or Left. It steps onto Empty
and Marker tiles only, and picks up a marker where it lands on one.

A maze is built from a settings record. The record gives the size, the
robot's home and start cells and its heading, and three coordinate lists:
markers, obstacles and removed cells. The maze is usable when the settings
are consistent, the robot stands on the arena, and every Empty or Marker
cell can reach every other one. A breadth-first search over a ring-buffer
queue checks that last condition.

To solve a maze, the robot repeatedly does three things:

1. picks the nearest remaining marker;
2. asks an A* search (over a binary min-heap of nodes kept in a growable
   array) for a path to it;
3. follows that path as a list of headings.

When it is done it goes home and drops its load.

The model follows the C files one module each:

- `Grids` (arena.c): a `Grid` value plus the `Arena` class over an `array`.
- `Queues` (queue.c): a ring-buffer class.
- `DynamicArrays` (dynamicarray.c): the node record and the growable array class.
- `HeapOrder` and `MinHeaps` (minheap.c): index arithmetic, heap-order lemmas and the heap class.
- `Robots` (robot.c): value functions and the `Robot` class they specify.
- `Pathfinder` (pathfinder.c): A* and the path-to-headings conversion.
- `MazeSettings`, `Connectivity`, `Steering` and `Mazes` (maze.c).
- `Loads`: the load as a count of the markers cleared (robot.c and maze.c).
- `Walks`: walks and connectivity, shared by the other modules.
- `Basics`: shared helpers.

References to `node_t` are indices into a node sequence (`NodePool`), and a
parent link is an `Option` of such an index. Each method that changes
state is proved against a value-level function or predicate. Lemmas then
state the program's promises about those functions: FIFO order, the heap
property, round trips of headings, paths found, and connectivity.

## Model

| member | source | states |
|---|---|---|
| Grids.Index | src/arena/arena.c:57 | an in-range cell's row-major position `y*width+x` lies inside the `width*height` buffer |
| Grids.IndexInjective | src/arena/arena.c:57 | two in-range cells with the same row-major position are the same cell |
| Grids.UpdateThenTile | src/arena/arena.c:60-68 | after `set_tile`, the written in-range cell reads the new tile and every other cell reads as before; an out-of-range write or a write on an invalid arena changes nothing |
| Grids.UpdateRestores | src/arena/arena.c:60-68 | writing a cell and then writing back its former tile restores the grid |
| Grids.Blank | src/arena/arena.c:21 | every in-range tile of a new arena reads Empty |
| Grids.Arena.constructor | src/arena/arena.c:5-29 | a fresh buffer of `width*height` tiles, all Empty |
| Grids.Arena.GetTile | src/arena/arena.c:50-58 | the tile at `grid[y*width+x]` for an in-range cell of a nonzero-sized arena, 0xFF otherwise |
| Grids.Arena.SetTile | src/arena/arena.c:60-68 | the new contents are the old ones updated at one in-range cell; out of range nothing changes |
| Grids.Arena.SetEmptyTile | src/arena/arena.c:70-73 | `set_tile` with 0x00 |
| Grids.Arena.SetObstacleTile | src/arena/arena.c:75-78 | `set_tile` with 0x01 |
| Grids.Arena.SetMarkerTile | src/arena/arena.c:80-83 | `set_tile` with 0x02 |
| Grids.Arena.DeleteTile | src/arena/arena.c:85-88 | `set_tile` with 0xFF |
| Grids.CreateArena | src/arena/arena.c:5-29 | null exactly when a dimension is 0; otherwise a fresh all-Empty arena |
| Grids.ValidateArena | src/arena/arena.c:40-48 | true exactly for an existing arena whose width and height are nonzero, the condition under which reads and writes reach the buffer; the buffer is then not empty (it is never missing here) |
| Walks.RulesAgree | src/pathfinder/pathfinder.c:64-68 | on an arena holding only the four tile codes, the search's test (in range, not Obstacle, not Void) accepts exactly the cells the robot's Empty-or-Marker test accepts |
| Walks.WalkRulesAgree | src/pathfinder/pathfinder.c:64-68 | on such an arena every walk the search may take is one the robot may take |
| Walks.ConnectedRulesAgree | src/pathfinder/pathfinder.c:64-68 | on such an arena every cell the robot can reach is one the search can reach |
| Queues.Queue.constructor | src/queue/queue.c:8-36 | an empty queue with size 0, front 0 and rear -1 that satisfies the ring-buffer invariant |
| Queues.Queue.Enqueue | src/queue/queue.c:54-66 | a full queue gives -1 and is unchanged; otherwise 0, the pair is stored at slot `(rear+1) mod capacity`, size grows by one and the contents gain the pair at the back; the invariant `0 <= size <= capacity`, `0 <= front < capacity`, `rear+1 = front+size (mod capacity)` is kept |
| Queues.Queue.Dequeue | src/queue/queue.c:68-80 | an empty queue gives `(UINT_MAX, UINT_MAX)` and is unchanged; otherwise the oldest pair is returned and leaves the contents, and front advances modulo the capacity |
| Queues.CreateQueue | src/queue/queue.c:8-36 | null exactly for capacity 0; otherwise an empty queue with front 0 and rear -1 |
| Queues.IsQueueEmpty | src/queue/queue.c:82-90 | true for a missing queue, and otherwise exactly when it holds no entries |
| DynamicArrays.CreateNode | src/dynamicarray/dynamicarray.c:4-19 | the node has the given coordinates, costs and parent, `f = g + h`, and no heap slot (-1) |
| DynamicArrays.NodePool.Relax | src/pathfinder/pathfinder.c:83-88 | only the relaxed node's g, h, f and parent change |
| DynamicArrays.DynamicArray.constructor | src/dynamicarray/dynamicarray.c:21-42 | empty, with the requested capacity |
| DynamicArrays.DynamicArray.Resize | src/dynamicarray/dynamicarray.c:56-70 | capacity doubles, or halves but not below 1; the elements are kept in order |
| DynamicArrays.DynamicArray.AddElement | src/dynamicarray/dynamicarray.c:72-85 | a null element changes nothing; otherwise it is appended after the old elements, and a full array doubles its capacity first |
| DynamicArrays.DynamicArray.GetElement | src/dynamicarray/dynamicarray.c:87-100 | element `index` when `index < size`, null otherwise |
| DynamicArrays.DynamicArray.SetElement | src/dynamicarray/dynamicarray.c:102-113 | replaces element `index` when it exists and the new element is non-null; otherwise nothing changes |
| DynamicArrays.DynamicArray.DeleteEnd | src/dynamicarray/dynamicarray.c:115-130 | an empty array is unchanged; otherwise the last element goes, the rest stay in order, and the capacity halves once size is at most a quarter of it |
| DynamicArrays.DynamicArray.DeleteMiddle | src/dynamicarray/dynamicarray.c:132-152 | for `index < size` the elements become `s[..index] + s[index+1..]`; otherwise nothing changes |
| DynamicArrays.DynamicArray.TrySwapElements | src/dynamicarray/dynamicarray.c:154-173 | success is 1 exactly when both indices are below size, and then exactly those two slots are exchanged; success is 0 otherwise, with the elements unchanged |
| DynamicArrays.CreateDynamicArray | src/dynamicarray/dynamicarray.c:21-42 | null exactly for capacity 0; otherwise empty with that capacity |
| HeapOrder.ParentIndex | src/minheap/minheap.c:4-7 | a non-root slot's parent comes before it |
| HeapOrder.LeftIndex | src/minheap/minheap.c:9-12 | the left child comes after its slot, and its parent is that slot |
| HeapOrder.RightIndex | src/minheap/minheap.c:14-17 | the right child follows the left child, and its parent is the slot |
| HeapOrder.Swap | src/minheap/minheap.c:26-28 | exactly the two slots are exchanged |
| HeapOrder.SwapKeepsMultiset | src/minheap/minheap.c:26-28 | exchanging two slots keeps the same multiset |
| HeapOrder.RootIsMin | src/minheap/minheap.c:118 | in a heap-ordered sequence slot 0 holds a smallest key |
| HeapOrder.SiftUpStep | src/minheap/minheap.c:104-108 | swapping a slot smaller than its parent moves the only possible violation up to the parent |
| HeapOrder.SiftDownStep | src/minheap/minheap.c:76-89 | swapping a slot with its smallest child moves the only possible violation down to that child |
| HeapOrder.MoveLastBreaksBelow | src/minheap/minheap.c:119-121 | moving the last key to the root leaves the heap ordered everywhere except below the root |
| MinHeaps.RemoveRoot | src/minheap/minheap.c:118-121 | after the root is replaced by the last slot, every slot's `heapIndex` is its position, the remaining nodes are the old ones minus the root, and none is below the root's key |
| MinHeaps.MinHeap.constructor | src/minheap/minheap.c:35-54 | an empty heap over a fresh array |
| MinHeaps.MinHeap.SwapNodes | src/minheap/minheap.c:19-33 | the two slots and their keys are exchanged, and each node's `heapIndex` still names its slot |
| MinHeaps.MinHeap.SiftUp | src/minheap/minheap.c:104-108 | from a heap broken only above one slot, the result is a heap of the same nodes |
| MinHeaps.MinHeap.MinHeapify | src/minheap/minheap.c:65-91 | from a heap broken only below slot i (both subtrees heaps), the result is a heap of the same nodes |
| MinHeaps.MinHeap.Insert | src/minheap/minheap.c:93-109 | size grows by one, the multiset gains the node, and the heap order and slot indices hold |
| MinHeaps.MinHeap.ExtractMin | src/minheap/minheap.c:111-126 | an empty heap gives null and is unchanged; otherwise it returns a node whose key is at most every old key and at most every key left, the remaining multiset is the old one minus that node, and the heap order holds, so repeated extraction gives non-decreasing keys |
| MinHeaps.MinHeap.DecreaseKey | src/minheap/minheap.c:128-143 | an index at or past size changes nothing; otherwise only that slot's node changes its f, to `new_f`, and the upward sift leaves a heap of the same nodes |
| MinHeaps.CreateMinHeap | src/minheap/minheap.c:35-54 | null exactly for capacity 0; otherwise an empty heap |
| Robots.IsValidRobot | src/robot/robot.c:37-44 | a valid robot stands in range and faces a heading from 0 to 3 |
| Robots.NewRobot | src/robot/robot.c:5-27 | a robot exists exactly when the arena is valid, the home tile is Empty and the heading is at most 3; it stands at home, carrying nothing |
| Robots.Left | src/robot/robot.c:46-52 | only the heading changes, and it does change, for a valid robot |
| Robots.Right | src/robot/robot.c:54-60 | only the heading changes, and it does change, for a valid robot |
| Robots.TurnsCancel | src/robot/robot.c:46-60 | a left turn then a right turn is the identity, and so is the reverse |
| Robots.FourRights | src/robot/robot.c:54-60 | four right turns are the identity |
| Robots.Ahead | src/robot/robot.c:107-128 | the cell ahead is one orthogonal step: Up is y-1, Right x+1, Down y+1, Left x-1 |
| Robots.CanMoveForward | src/robot/robot.c:107-128 | true exactly when the robot is valid and the cell ahead is in range and Empty or Marker |
| Robots.Forward | src/robot/robot.c:130-140 | the robot moves exactly one cell, to the cell ahead, when it can move, and stays otherwise; heading, load and home never change |
| Robots.AtMarker | src/robot/robot.c:62-70 | true exactly for a valid robot on a Marker tile |
| Robots.MarkerCount | src/robot/robot.c:72-80 | the load of a valid robot, 0 for an invalid one |
| Robots.PickUp | src/robot/robot.c:82-89 | on a Marker the load grows by one (modulo 256) and only that tile becomes Empty; otherwise nothing changes |
| Robots.Drop | src/robot/robot.c:91-105 | for a valid loaded robot on an Empty tile, at home the load becomes 0 with the grid unchanged, elsewhere the load drops by one and only that tile becomes a Marker; otherwise nothing changes |
| Robots.PickUpThenDrop | src/robot/robot.c:82-105 | away from home, a pick-up followed by a drop restores robot and grid |
| Robots.Robot.constructor | src/robot/robot.c:5-27 | the robot stands at home with the given heading, carrying nothing |
| Robots.Robot.TurnLeft | src/robot/robot.c:46-52 | the new state is `Left` of the old |
| Robots.Robot.TurnRight | src/robot/robot.c:54-60 | the new state is `Right` of the old |
| Robots.Robot.MoveForward | src/robot/robot.c:130-140 | the new state is `Forward` of the old |
| Robots.Robot.PickUpMarker | src/robot/robot.c:82-89 | robot and arena become `PickUp` of the old ones |
| Robots.Robot.DropMarker | src/robot/robot.c:91-105 | robot and arena become `Drop` of the old ones |
| Robots.CreateRobot | src/robot/robot.c:5-27 | null for a missing arena or when `NewRobot` refuses; otherwise a fresh robot in the state `NewRobot` gives |
| Pathfinder.Heuristic | src/pathfinder/pathfinder.c:6-9 | the Manhattan distance is 0 exactly between equal cells |
| Pathfinder.HeuristicConsistent | src/pathfinder/pathfinder.c:6-9 | one step changes the estimate to a goal by at most one |
| Pathfinder.HeuristicAdmissible | src/pathfinder/pathfinder.c:6-9 | no walk is shorter than the estimate between its ends |
| Pathfinder.Chain | src/pathfinder/pathfinder.c:70-88 | a node's parent chain has g + 1 cells and ends at the node's own cell, so the goal's g is the step count |
| Pathfinder.ChainIsWalk | src/pathfinder/pathfinder.c:58-88 | during the search every node's parent chain starts at the start cell and is a walk of orthogonal steps through open cells |
| Pathfinder.Exhausted | src/pathfinder/pathfinder.c:44-99 | when the open list is empty, the goal is not closed, and every open neighbour of an expanded cell has a node, then the goal cannot be reached |
| Pathfinder.Visit | src/pathfinder/pathfinder.c:58-68 | a neighbour off the arena, already closed, Obstacle or Void is skipped; otherwise it has a node afterwards; the search invariant (one node per tabled cell, h the estimate and f = g + h, every node's parent closed, adjacent and one step cheaper, the open list exactly the unclosed nodes) is kept |
| Pathfinder.Reach | src/pathfinder/pathfinder.c:70-91 | an open, unclosed neighbour of a closed node is in the node table afterwards, nothing else joins it, and the search invariant and heap order are kept |
| Pathfinder.AddNeighbour | src/pathfinder/pathfinder.c:74-80 | the neighbour gets a node whose parent is the expanded node, one step dearer, entered in the table and the open list with the search invariant and heap order kept |
| Pathfinder.RelaxNeighbour | src/pathfinder/pathfinder.c:81-91 | a tabled neighbour's g becomes the smaller of its old g and the new route's, and the heap order is restored |
| Pathfinder.ExpandNeighbours | src/pathfinder/pathfinder.c:58-92 | after the four neighbours, every open neighbour of the expanded cell has a node |
| Pathfinder.CloseNext | src/pathfinder/pathfinder.c:46-51 | the node taken from the open list is on the arena and not yet closed, and its cell becomes closed |
| Pathfinder.SearchLoop | src/pathfinder/pathfinder.c:44-99 | a node is found exactly when the goal is reachable, and then its chain is a walk from the start to the goal |
| Pathfinder.AStarSearch | src/pathfinder/pathfinder.c:11-131 | a node is returned exactly when the goal can be reached from the start avoiding Obstacle and Void tiles, and its parent chain is then a walk of orthogonal steps through such cells from the start to the goal |
| Pathfinder.GetDirection | src/pathfinder/pathfinder.c:149-171 | a heading 0..3 exactly for a unit shift, `(uint32_t)-1` for any other |
| Pathfinder.DirectionRoundTrip | src/pathfinder/pathfinder.c:149-171 | the heading of the shift a heading makes is that heading |
| Pathfinder.ShiftRoundTrip | src/pathfinder/pathfinder.c:149-171 | the step made by the heading of a unit shift is that shift |
| Pathfinder.LowByte | src/pathfinder/pathfinder.c:201 | storing a value below 256 in a `uint8_t` keeps it |
| Pathfinder.Heading | src/pathfinder/pathfinder.c:199-201 | for adjacent cells, the stored heading is 0..3 and steps from the first cell to the second |
| Pathfinder.WalkHeadings | src/pathfinder/pathfinder.c:196-203 | every heading of a walk is 0..3 |
| Pathfinder.ReplayWalk | src/pathfinder/pathfinder.c:173-206 | replaying a walk's headings from its first cell reaches its last cell |
| Pathfinder.CountLinks | src/pathfinder/pathfinder.c:181-187 | the count is the number of parent links |
| Pathfinder.FillDirections | src/pathfinder/pathfinder.c:196-203 | the array holds the headings of the chain, first step first |
| Pathfinder.PathToDirectionList | src/pathfinder/pathfinder.c:173-206 | no path gives null and size 0; otherwise a fresh array of one heading per parent link, in order from the start |
| Steering.ModularDistanceDiff | src/maze/maze.c:145-153 | with C's truncating `%` and `/`, for a and b on a cycle of n the result r satisfies `(a + r) mod n == b` and `-n < 2r <= n` |
| Steering.HeadingDiff | src/maze/maze.c:145-153 | for two headings the difference is -1, 0, 1 or 2, and 0 exactly when they agree |
| Steering.TurnCloser | src/maze/maze.c:164-182 | a right turn on a positive difference, or a left turn on a negative one, brings the difference one step closer to 0 |
| Steering.ManhattanDistance | src/maze/maze.c:196-199 | the same distance the search's heuristic uses, symmetric, and 0 exactly for the same cell |
| Steering.StepAlong | src/maze/maze.c:162-191 | one entry moves a valid robot to the next cell of a walk, keeps it valid, only clears markers, and leaves no marker on the cell it reaches |
| Steering.FollowWalk | src/maze/maze.c:155-193 | following a walk's headings brings a valid robot to the walk's last cell with its home unchanged, only clearing markers, and that cell holds no marker |
| Steering.TurnTowards | src/maze/maze.c:164-182 | the turning loop ends with the robot facing the heading after at most two turns, with nothing else changed |
| Steering.FollowValid | src/maze/maze.c:162-192 | a valid robot stays valid through any list of entries |
| Steering.FollowFaces | src/maze/maze.c:162-192 | after a non-empty list a valid robot faces the list's last heading |
| Steering.MoveRobotInDirections | src/maze/maze.c:155-193 | robot and arena end as following the first `size` headings says (nothing happens for `size <= 0`), and for `size > 0` the robot ends facing the last heading (by Steering.FollowFaces) |
| Connectivity.RoomForOneMore | src/maze/maze.c:373 | one more unmarked in-range cell still fits in a queue of `width*height` entries, so `enqueue` never fails |
| Connectivity.MarkOne | src/maze/maze.c:392-396 | marking a reachable unmarked neighbour keeps the marks equal to the cells in the visiting order |
| Connectivity.Visit | src/maze/maze.c:389-397 | the neighbour joins the marks and the queue when it is in range, unmarked and Empty or Marker, and nothing else does; the marks stay exactly the visited cells, all reachable from the start |
| Connectivity.Expand | src/maze/maze.c:384-398 | after the four neighbours every open neighbour of the dequeued cell is marked |
| Connectivity.Reached | src/maze/maze.c:378-399 | when every marked cell is expanded, a cell is marked exactly when it is reachable from the start |
| Connectivity.Bfs | src/maze/maze.c:366-402 | for an in-range start, a cell ends marked exactly when an Empty-or-Marker walk leads to it from the start; an out-of-range start marks nothing |
| Connectivity.ConnectedThroughSeed | src/maze/maze.c:413-423 | when an open seed reaches every open cell, every open cell reaches every other |
| Connectivity.CheckMarked | src/maze/maze.c:427-440 | the second scan answers true exactly when every open cell is connected to every other |
| Connectivity.AreAllSpacesConnected | src/maze/maze.c:404-441 | false for a missing arena; otherwise true exactly when every Empty or Marker cell can reach every other (vacuously true when there are none) |
| MazeSettings.ValidateCoords | src/maze/maze.c:18-31 | true exactly when the arrays are present for a nonzero count and every entry is on the arena and on neither home nor start |
| MazeSettings.ValidateMazeSettings | src/maze/maze.c:11-64 | true exactly when width, height and pixel size are nonzero, the heading is at most 3 and all three lists pass; home and start are not bounds-checked |
| MazeSettings.StampTile | src/maze/maze.c:90-93 | after writing tile t at a list's entries, a cell reads t when some entry names it and as before otherwise |
| MazeSettings.MazeTile | src/maze/maze.c:90-103 | on the built arena a removed cell is Void, else an obstacle is Obstacle, else a marker is Marker, else Empty: the later kind wins |
| MazeSettings.HomeEmpty | src/maze/maze.c:109-110 | with valid settings an in-range home cell is still Empty after stamping, so creating the robot succeeds |
| MazeSettings.NotOccurs | src/maze/maze.c:18-61 | no entry of a validated list names the home or the start cell |
| Mazes.StampList | src/maze/maze.c:90-93 | the arena afterwards is the old one stamped with the list's entries in order |
| Mazes.CreateMaze | src/maze/maze.c:66-127 | null exactly for settings that fail validation or a home cell off the arena; otherwise the stamped arena and a robot with home at the settings home, position at the settings start, the initial heading and no load |
| Mazes.ValidateMaze | src/maze/maze.c:129-132 | true exactly for an existing maze with valid settings, arena and robot whose open cells are all connected |
| Mazes.Nearest | src/maze/maze.c:208-223 | the scan result is UINT_MAX exactly when no listed Marker lies nearer than INT_MAX; otherwise the index of a Marker entry at the smallest distance, the first such entry (ties go to the lowest index) |
| Mazes.GetClosestMarkerIndex | src/maze/maze.c:201-226 | UINT_MAX for a maze that does not validate; otherwise the result of the nearest-marker scan from the robot's cell |
| Mazes.FewerMarkers | src/maze/maze.c:235-267 | when tiles only lose markers and one Marker is cleared, the set of Marker cells strictly shrinks, so the collecting loop ends |
| Mazes.PickUpCollects | src/robot/robot.c:82-89 | a pick-up only clears markers |
| Loads.CollectedMarkerCells | src/robot/robot.c:82-89 | when tiles only lose markers, the set of Marker cells can only shrink |
| Loads.PickUpLoads | src/robot/robot.c:82-89 | a pick-up only clears markers, and the load grows (modulo 256) by the number of Marker cells it cleared |
| Loads.StepLoads | src/maze/maze.c:162-191 | one entry of the direction list (turn, forward, pick up on a marker) only clears markers and counts each one in the load |
| Loads.FollowLoads | src/maze/maze.c:155-193 | a whole direction list only clears markers, and the load grows (modulo 256) by exactly the number of Marker cells that disappeared |
| Loads.LoadedTrans | src/maze/maze.c:235-267 | the load's count of cleared markers adds up over consecutive runs, wrapping at 256 as `uint8_t` does |
| Mazes.TravelPath | src/maze/maze.c:251-262 | following the headings of a found path brings the robot to its goal, which is an Empty or Marker tile when the robot started on one, only clearing markers, with the load raised by one (modulo 256) for each marker cleared, and a goal it moved to holds no marker; an empty list changes nothing |
| Mazes.CollectedConnected | src/maze/maze.c:235-267 | clearing markers keeps every connection between cells |
| Mazes.CollectedAllConnected | src/maze/maze.c:235-267 | clearing markers keeps every open cell connected to every other, so the maze stays valid while the robot collects |
| Mazes.CollectNearest | src/maze/maze.c:237-267 | a round that breaks changes nothing and breaks for a reason of the program's: the scan reports no marker, the search finds no path from the robot's cell to the nearest marker, or the robot already stands on it (an empty list); a round that goes on ends on the very entry the scan chose in the starting state, with no marker left there, and strictly shrinks the set of Marker cells; in both cases only markers are cleared, a robot that stood on an Empty or Marker tile still does, the load counts each one (plus one modulo 256), and the maze stays valid |
| Mazes.CollectMarkers | src/maze/maze.c:235-268 | the loop ends with the load at least the number of marker entries, or in a state where a round breaks; for a robot that started on an Empty tile (as create_maze places it) that means the load reached the count or the scan finds no marker left to go for; only markers are cleared, the load has grown (modulo 256) by exactly the number of markers cleared, a robot that started on an Empty or Marker tile still stands on one, one that did not start on a marker does not end on one, and the maze stays valid |
| Mazes.StuckMeansNoMarker | src/maze/maze.c:237-258 | in a connected arena of the four tile kinds, a robot on an Empty tile is stuck exactly when the scan finds no marker to go for |
| Mazes.ReturnHome | src/maze/maze.c:270-282 | when a path leads home the robot ends there, and on an Empty home tile it carries nothing; when none does, robot and arena are unchanged |
| Mazes.SolveMaze | src/maze/maze.c:228-283 | for a valid maze there is a state `exit` between the start and the end, reached by clearing markers only, in which the robot is valid in a connected arena, its load equals the starting load plus the markers cleared so far (modulo 256), it stands on an Empty or Marker tile if it started on one and on no marker if it did not start on one, and either the load has reached the number of marker entries or a round breaks, which for a robot that started on an Empty tile means no marker is left to go for; from `exit` the robot reaches home when a path leads there, and otherwise robot and arena stay as in `exit`; at an Empty home the load ends at 0; an invalid maze is untouched |
| Mazes.TwiceValid | src/maze/maze.c:11-64 | the settings of the counterexample pass validation |
| Mazes.TwiceGrid | src/maze/maze.c:90-93 | two marker entries at the same cell leave a single Marker tile |
| Mazes.StepOntoMarker | src/maze/maze.c:184-191 | a step onto a Marker picks it up |
| Mazes.TwiceStep | src/maze/maze.c:184-191 | in the counterexample, one step collects the only marker, giving a load of 1 |
| Mazes.OutOfRangeMarkerRead | src/maze/maze.c:235-245 | in the counterexample the loop goes on (1 < 2), the scan reports UINT_MAX, the guard as written does not fire, and the next read indexes past the two-entry marker arrays |

## Left out

- Memory management is not modelled: allocation failure, `dispose_*`, `free_path` and the node-freeing scan (src/pathfinder/pathfinder.c:101-128). Allocation always succeeds, and nodes live in a sequence that only grows.
- Drawing (`draw_arena`, `draw_robot`, `update_robot`), `sleep` and `printf` are left out; they do not change the modelled state.
- Random maze generation (`generate_random_number`, `set_settings_parameters`, `set_random_robot`, `set_random_markers`, `set_random_obstacles`, `generate_random_maze`) is left out: it depends on `rand`, the clock and floating point.
- The settings' padding and colour fields only feed drawing and are dropped from `Settings`.
- Coordinates, costs and the arena size are unbounded integers. A uint32 coordinate or g cost that wraps is not modelled, and neither is a wrap of the uint32 product `width * height`, which sizes the tile buffer (src/arena/arena.c:21), the BFS queue and `visited` array (src/maze/maze.c:373, 411), and feeds the row-major index (src/arena/arena.c:57).
- The robot's load does wrap at 256, as the `uint8_t` field does.
- Pathfinder.AStarSearch: the node table is a map from cells to nodes rather than a `width*height` matrix of node addresses. The search reads a snapshot of the arena, which it never writes.
- Pathfinder.AStarSearch: it requires the start cell to be on the arena, because the program indexes its tables with it unchecked.
- Pathfinder.AStarSearch: a returned path is not proved to be a shortest one. The heuristic is proved consistent and admissible, but not the optimality of the search.
- Pathfinder.PathToDirectionList: a path of length 0 gives an empty array here. `malloc(0)` may give null in C, but the caller treats an empty list the same either way.
- MinHeaps.MinHeap.DecreaseKey: requires that the new key breaks the heap order only above its slot, that is a decrease; the program only sifts upward, and its one caller lowers keys.
- Steering.MoveRobotInDirections: requires every entry of the list to be a heading 0..3. `path_to_direction_list` stores only headings of unit links, which are 0..3, so no caller passes more. For a larger byte d the program would end up facing d mod 4, and the model does not cover that case.
- Steering.MoveRobotInDirections: also requires a valid robot when the list is not empty, and a list distinct from the arena buffer. A null robot or list is not modelled.
- Steering.ModularDistanceDiff: does not model int32 overflow of `b - a + n`. The program only calls it with headings and n = 4.
- Steering.ManhattanDistance: does not model the int32 casts of the uint32 coordinates or the overflow of `abs`; coordinates are unbounded here.
- Connectivity.Bfs: requires an all-clear `visited` array of `width*height` entries and a non-null arena, as `are_all_spaces_connected` provides. The wrap of `arena->width - 1` for a zero-width arena is not modelled; no valid arena has one.
- Mazes.SolveMaze: requires an arena that holds only the four tile codes. On other byte values the search and the robot disagree about which cells are open, and the loop need not end.
- Mazes.SolveMaze: it breaks out of the collecting loop when no marker is left to go for, which the program intends but does not do (see Findings).
- Mazes.SolveMaze: the comparison of the `uint8_t` load with the `uint32_t` marker count is kept as the program writes it.

## Findings

| source | as written | input that shows it | evidently intended | confidence | as-written member | corrected member |
|---|---|---|---|---|---|---|
| src/maze/maze.c:238 | `if (index < 0)` on a `uint32_t` index never holds, so when no Marker tile remains the loop reads `markersX[UINT_MAX]` | a 3 x 1 arena, two marker entries both at (2, 0), home (0, 0), start (1, 0), facing right: one step collects the only marker, the load 1 is below the count 2, and the scan reports UINT_MAX | break out of the loop when the scan reports `(uint32_t)-1` | not executed | Mazes.OutOfRangeMarkerRead | Mazes.SolveMaze |

=== FILE: arena.dfy ===
/**
 * The arena: a width x height matrix of one-byte tiles stored row by row,
 * with reads and writes that are checked against the bounds.
 *
 * `Grid` is the arena's contents as a value (used by every specification
 * in the project); `Arena` is the object the program mutates in place.
 */
module Grids {
  import opened Basics

  const EMPTY: Byte := 0x00
  const OBSTACLE: Byte := 0x01
  const MARKER: Byte := 0x02
  /** A removed cell; also the value an out-of-range read reports. */
  const VOID: Byte := 0xFF

  /** A coordinate pair. Coordinates are unsigned in the program; they are
      integers here so that a step off the left or top edge can be written
      down (it lands out of range, as the unsigned wrap-around does). */
  datatype Cell = Cell(x: int, y: int)

  datatype RawGrid = RawGrid(width: nat, height: nat, cells: seq<Byte>)

  /** The contents of an arena: `cells` holds `width * height` tiles, row after row. */
  type Grid = g: RawGrid | |g.cells| == g.width * g.height witness RawGrid(0, 0, [])

  /** validate_arena, for an arena whose tile buffer is allocated. */
  predicate IsValid(g: Grid)
  {
    g.width != 0 && g.height != 0
  }

  predicate InBounds(g: Grid, x: int, y: int)
  {
    0 <= x < g.width && 0 <= y < g.height
  }

  lemma MulMonotone(a: nat, b: nat, c: nat)
    requires a <= b
    ensures a * c <= b * c
  {
  }

  /** Row-major position of an in-range cell. */
  function Index(w: nat, h: nat, x: nat, y: nat): (i: nat)
    requires x < w && y < h
    ensures i < w * h
  {
    MulMonotone(y + 1, h, w);
    y * w + x
  }

  /** Distinct in-range cells occupy distinct positions. */
  lemma {:induction false} IndexInjective(w: nat, h: nat, x: nat, y: nat, x': nat, y': nat)
    requires x < w && y < h && x' < w && y' < h
    requires Index(w, h, x, y) == Index(w, h, x', y')
    ensures x == x' && y == y'
  {
    if y < y' {
      MulMonotone(y + 1, y', w);
      assert false;
    } else if y' < y {
      MulMonotone(y' + 1, y, w);
      assert false;
    }
  }

  /** get_tile: the stored tile, or VOID when the arena is invalid or the cell is out of range. */
  function Tile(g: Grid, x: int, y: int): Byte
  {
    if IsValid(g) && InBounds(g, x, y) then g.cells[Index(g.width, g.height, x, y)] else VOID
  }

  /** set_tile: overwrite one in-range cell; anything else leaves the grid as it is. */
  function Update(g: Grid, x: int, y: int, t: Byte): Grid
  {
    if IsValid(g) && InBounds(g, x, y) then g.(cells := g.cells[Index(g.width, g.height, x, y) := t]) else g
  }

  /** After a write, reading the written cell gives the written tile and every other
      read is unchanged; an out-of-range write changes nothing. */
  lemma {:induction false} UpdateThenTile(g: Grid, x: int, y: int, t: Byte, x': int, y': int)
    ensures Update(g, x, y, t).width == g.width && Update(g, x, y, t).height == g.height
    ensures Tile(Update(g, x, y, t), x', y') ==
              if IsValid(g) && InBounds(g, x, y) && x' == x && y' == y then t else Tile(g, x', y')
  {
    if IsValid(g) && InBounds(g, x, y) && InBounds(g, x', y') && (x' != x || y' != y) {
      if Index(g.width, g.height, x, y) == Index(g.width, g.height, x', y') {
        IndexInjective(g.width, g.height, x, y, x', y');
      }
    }
  }

  /** Writing a cell and then writing back its former tile restores the grid. */
  lemma UpdateRestores(g: Grid, x: int, y: int, t: Byte)
    ensures Update(Update(g, x, y, t), x, y, Tile(g, x, y)) == g
  {
    if IsValid(g) && InBounds(g, x, y) {
      var i := Index(g.width, g.height, x, y);
      assert g.cells[i := t][i := g.cells[i]] == g.cells;
    }
  }

  /** A freshly created arena: every tile Empty. */
  function Blank(w: nat, h: nat): (g: Grid)
    ensures g.width == w && g.height == h
    ensures forall x, y :: InBounds(g, x, y) ==> Tile(g, x, y) == EMPTY
  {
    RawGrid(w, h, seq(w * h, _ => EMPTY))
  }

  class Arena {
    const width: nat
    const height: nat
    const grid: array<Byte>

    /** The buffer holds exactly `width * height` tiles. */
    ghost predicate Wf()
    {
      grid.Length == width * height
    }

    function View(): (g: Grid)
      reads grid
      requires Wf()
      ensures g.width == width && g.height == height
    {
      RawGrid(width, height, grid[..])
    }

    /** create_arena for nonzero dimensions: a zero-filled buffer. */
    constructor (w: nat, h: nat)
      ensures Wf() && fresh(grid)
      ensures View() == Blank(w, h)
    {
      width, height := w, h;
      grid := new Byte[w * h](_ => EMPTY);
    }

    function GetTile(x: nat, y: nat): (t: Byte)
      reads grid
      requires Wf()
      ensures width != 0 && height != 0 && x < width && y < height ==> t == grid[Index(width, height, x, y)]
      ensures !(width != 0 && height != 0 && x < width && y < height) ==> t == VOID
    {
      Tile(View(), x, y)
    }

    method SetTile(x: nat, y: nat, t: Byte)
      requires Wf()
      modifies grid
      ensures View() == Update(old(View()), x, y, t)
    {
      if width == 0 || height == 0 || x >= width || y >= height {
        return;
      }
      grid[Index(width, height, x, y)] := t;
    }

    method SetEmptyTile(x: nat, y: nat)
      requires Wf()
      modifies grid
      ensures View() == Update(old(View()), x, y, EMPTY)
    {
      SetTile(x, y, EMPTY);
    }

    method SetObstacleTile(x: nat, y: nat)
      requires Wf()
      modifies grid
      ensures View() == Update(old(View()), x, y, OBSTACLE)
    {
      SetTile(x, y, OBSTACLE);
    }

    method SetMarkerTile(x: nat, y: nat)
      requires Wf()
      modifies grid
      ensures View() == Update(old(View()), x, y, MARKER)
    {
      SetTile(x, y, MARKER);
    }

    method DeleteTile(x: nat, y: nat)
      requires Wf()
      modifies grid
      ensures View() == Update(old(View()), x, y, VOID)
    {
      SetTile(x, y, VOID);
    }
  }

  /** create_arena: no arena for a zero dimension, otherwise an all-Empty one. */
  method CreateArena(w: nat, h: nat) returns (a: Arena?)
    ensures a == null <==> w == 0 || h == 0
    ensures a != null ==> fresh(a) && fresh(a.grid) && a.Wf() && a.View() == Blank(w, h)
  {
    if w == 0 || h == 0 {
      return null;
    }
    a := new Arena(w, h);
  }

  /** validate_arena: an arena exists and both its dimensions are nonzero, so
      its tile buffer is not empty (the buffer itself is never missing here). */
  predicate ValidateArena(a: Arena?): (b: bool)
    reads if a == null then {} else {a.grid}
    requires a != null ==> a.Wf()
    ensures b <==> a != null && IsValid(a.View())
    ensures b ==> a.grid.Length > 0
  {
    a != null && a.width != 0 && a.height != 0
  }
}

=== FILE: basics.dfy ===
/** Small shared vocabulary: optional values, unsigned bytes and C integer limits. */
module Basics {

  /** A value that may be absent: the model's stand-in for a reference that may be null. */
  datatype Option<+T> = None | Some(value: T)

  /** C's uint8_t. */
  newtype Byte = x: int | 0 <= x < 256

  /** UINT_MAX for a 32-bit unsigned int: what `(uint32_t)-1` becomes. */
  const UINT32_MAX: nat := 0xFFFF_FFFF

  /** C's uint32_t. */
  type Uint32 = n: int | 0 <= n <= UINT32_MAX

  /** INT_MAX for a 32-bit int. */
  const INT32_MAX: nat := 0x7FFF_FFFF

  function Abs(n: int): nat
  {
    if n < 0 then -n else n
  }

  /** C's `%` agrees with Dafny's on non-negative operands; below twice the
      modulus it subtracts the modulus at most once. */
  lemma ModSmall(k: int, n: int)
    requires 0 < n && 0 <= k < 2 * n
    ensures k % n == if k < n then k else k - n
  {
    if k < n {
      assert k == 0 * n + k;
    } else {
      assert k == 1 * n + (k - n);
    }
  }
}

=== FILE: connectivity.dfy ===
/**
 * The connectivity check of a maze: a breadth-first search from one open
 * cell marks every cell the robot can reach from it, and the maze is
 * connected when no open cell is left unmarked. "Open" here is the robot's
 * rule: an Empty or a Marker tile.
 *
 * `visited` is indexed like the arena, `x + y * width`.
 */
module Connectivity {
  import opened Basics
  import opened Grids
  import opened Walks
  import opened Queues

  /** Every open cell can reach every other one. */
  ghost predicate AllConnected(g: Grid)
  {
    forall a, b :: Open(g, a, Traversal) && Open(g, b, Traversal) ==> Connected(g, Traversal, a, b)
  }

  /** The cells of a sequence, as a set. */
  function Members(s: seq<Cell>): set<Cell>
  {
    set c | c in s
  }

  predicate Distinct(s: seq<Cell>)
  {
    forall i, j :: 0 <= i < j < |s| ==> s[i] != s[j]
  }

  lemma {:induction false} DistinctSize(s: seq<Cell>)
    requires Distinct(s)
    ensures |Members(s)| == |s|
  {
    if s != [] {
      var s' := s[..|s| - 1];
      DistinctSize(s');
      assert Members(s) == Members(s') + {s[|s| - 1]};
      assert s[|s| - 1] !in Members(s');
    }
  }

  /** A cell not yet marked still fits: distinct in-range cells plus one more never exceed the arena. */
  lemma RoomForOneMore(g: Grid, order: seq<Cell>, c: Cell)
    requires Distinct(order) && c !in order && InBounds(g, c.x, c.y)
    requires forall i :: 0 <= i < |order| ==> InBounds(g, order[i].x, order[i].y)
    ensures |order| + 1 <= g.width * g.height
  {
    DistinctSize(order);
    assert Members(order) + {c} <= AllCells(g.width, g.height);
    SubsetSize(Members(order) + {c}, AllCells(g.width, g.height));
    AllCellsSize(g.width, g.height);
  }

  /** The search state: `order` lists the marked cells in the order they were
      marked; exactly they are set in `vis`, each is in range and reachable
      from the start, and none is listed twice. */
  ghost predicate Marked(g: Grid, start: Cell, vis: seq<bool>, order: seq<Cell>)
  {
    && |vis| == g.width * g.height
    && |order| <= g.width * g.height
    && Distinct(order)
    && (forall i :: 0 <= i < |order| ==> InBounds(g, order[i].x, order[i].y))
    && (forall i :: 0 <= i < |order| ==> Connected(g, Traversal, start, order[i]))
    && forall x, y :: InBounds(g, x, y) ==> (vis[Index(g.width, g.height, x, y)] <==> Cell(x, y) in order)
  }

  function CellOfNode(n: QueueNode): Cell
  {
    Cell(n.x, n.y)
  }

  /** The queue holds the marked cells from position k on: the ones not yet expanded. */
  ghost predicate Pending(contents: seq<QueueNode>, order: seq<Cell>, k: nat)
  {
    && k <= |order|
    && |contents| == |order| - k
    && forall i :: 0 <= i < |contents| ==> CellOfNode(contents[i]) == order[k + i]
  }

  /** The neighbour offsets bfs tries, in its order: left, right, up, down. */
  const DX: seq<int> := [-1, 1, 0, 0]
  const DY: seq<int> := [0, 0, -1, 1]

  function Around(c: Cell, i: nat): Cell
    requires i < 4
  {
    Cell(c.x + DX[i], c.y + DY[i])
  }

  /** The first i neighbours of c are marked when open. */
  ghost predicate Tried(g: Grid, c: Cell, order: seq<Cell>, i: nat)
    requires i <= 4
  {
    forall j :: 0 <= j < i ==> Open(g, Around(c, j), Traversal) ==> Around(c, j) in order
  }

  /** Marking one more reachable cell keeps the search state. */
  lemma MarkOne(g: Grid, start: Cell, vis: seq<bool>, order: seq<Cell>, cur: Cell, n: Cell)
    requires Marked(g, start, vis, order) && cur in order
    requires InBounds(g, n.x, n.y) && n !in order && Adjacent(cur, n) && Open(g, n, Traversal)
    ensures Marked(g, start, vis[Index(g.width, g.height, n.x, n.y) := true], order + [n])
  {
    var order', idx := order + [n], Index(g.width, g.height, n.x, n.y);
    RoomForOneMore(g, order, n);
    var j :| 0 <= j < |order| && order[j] == cur;
    ConnectedStep(g, Traversal, start, cur, n);
    forall x, y | InBounds(g, x, y)
      ensures vis[idx := true][Index(g.width, g.height, x, y)] <==> Cell(x, y) in order'
    {
      if Index(g.width, g.height, x, y) == idx {
        IndexInjective(g.width, g.height, x, y, n.x, n.y);
      }
    }
  }

  /** Enqueueing the newly marked cell keeps the queue equal to the unexpanded suffix. */
  lemma PendingAppend(contents: seq<QueueNode>, order: seq<Cell>, k: nat, v: QueueNode)
    requires Pending(contents, order, k)
    ensures Pending(contents + [v], order + [CellOfNode(v)], k)
  {
  }

  /** One more neighbour tried. */
  lemma TriedOne(g: Grid, c: Cell, order: seq<Cell>, order': seq<Cell>, i: nat)
    requires i < 4 && Tried(g, c, order, i) && Members(order) <= Members(order')
    requires Open(g, Around(c, i), Traversal) ==> Around(c, i) in order'
    ensures Tried(g, c, order', i + 1)
  {
    forall j | 0 <= j < i + 1 && Open(g, Around(c, j), Traversal)
      ensures Around(c, j) in order'
    {
      if j < i {
        assert Around(c, j) in Members(order);
      }
    }
  }

  /** One neighbour of the cell being expanded: mark and enqueue it when it
      is in range, unmarked, and Empty or Marker. */
  method Visit(g: Grid, visited: array<bool>, q: Queue, cur: Cell, i: nat,
               ghost start: Cell, ghost order: seq<Cell>, ghost k: nat)
    returns (ghost order': seq<Cell>)
    requires i < 4 && cur in order && 0 <= cur.x && 0 <= cur.y
    requires Marked(g, start, visited[..], order)
    requires q.Valid() && q.capacity == g.width * g.height && Pending(q.Contents, order, k)
    requires Tried(g, cur, order, i)
    modifies visited, q, q.nodes
    ensures q.Valid() && q.capacity == g.width * g.height
    ensures Marked(g, start, visited[..], order') && Pending(q.Contents, order', k)
    ensures Tried(g, cur, order', i + 1)
    ensures order' == order || order' == order + [Around(cur, i)]
  {
    var nx, ny := cur.x + DX[i], cur.y + DY[i];
    order' := order;
    if 0 <= nx < g.width && 0 <= ny < g.height {
      var idx := Index(g.width, g.height, nx, ny);
      if !visited[idx] && (Tile(g, nx, ny) == MARKER || Tile(g, nx, ny) == EMPTY) {
        ghost var vis := visited[..];
        MarkOne(g, start, vis, order, cur, Cell(nx, ny));
        visited[idx] := true;
        assert visited[..] == vis[idx := true];
        PendingAppend(q.Contents, order, k, QueueNode(nx, ny));
        var _ := q.Enqueue(nx, ny);
        order' := order + [Cell(nx, ny)];
      }
    }
    TriedOne(g, cur, order, order', i);
  }

  /** Trying all four neighbours covers every adjacent cell. */
  lemma AroundCovers(c: Cell, n: Cell)
    requires Adjacent(c, n)
    ensures exists j :: 0 <= j < 4 && Around(c, j) == n
  {
    AdjacentCases(c, n);
    if n == Cell(c.x - 1, c.y) {
      assert Around(c, 0) == n;
    } else if n == Cell(c.x + 1, c.y) {
      assert Around(c, 1) == n;
    } else if n == Cell(c.x, c.y - 1) {
      assert Around(c, 2) == n;
    } else {
      assert Around(c, 3) == n;
    }
  }

  /** Once all four neighbours of order[k] are tried, the first k + 1 cells are expanded. */
  lemma ExpandedOne(g: Grid, order: seq<Cell>, k: nat)
    requires k < |order|
    requires ClosedUnder(Members(order), Members(order[..k]), g, Traversal)
    requires Tried(g, order[k], order, 4)
    ensures ClosedUnder(Members(order), Members(order[..k + 1]), g, Traversal)
  {
    forall c, n | c in Members(order[..k + 1]) && Adjacent(c, n) && Open(g, n, Traversal)
      ensures n in Members(order)
    {
      if c !in Members(order[..k]) {
        assert c == order[k];
        AroundCovers(c, n);
      }
    }
  }

  /** The marks the search starts from: the start cell alone. */
  lemma MarkStart(g: Grid, start: Cell, vis: seq<bool>)
    requires |vis| == g.width * g.height && InBounds(g, start.x, start.y)
    requires forall i :: 0 <= i < |vis| ==> !vis[i]
    ensures Marked(g, start, vis[Index(g.width, g.height, start.x, start.y) := true], [start])
  {
    var idx := Index(g.width, g.height, start.x, start.y);
    ConnectedRefl(g, Traversal, start);
    forall x, y | InBounds(g, x, y)
      ensures vis[idx := true][Index(g.width, g.height, x, y)] <==> Cell(x, y) in [start]
    {
      if Index(g.width, g.height, x, y) == idx {
        IndexInjective(g.width, g.height, x, y, start.x, start.y);
      }
    }
  }

  /** Growing the marked set keeps every expanded cell's neighbours inside it. */
  lemma ClosedGrows(S: set<Cell>, S': set<Cell>, P: set<Cell>, g: Grid)
    requires ClosedUnder(S, P, g, Traversal) && S <= S'
    ensures ClosedUnder(S', P, g, Traversal)
  {
  }

  /** Expand the dequeued cell order[k]: try its four neighbours in bfs's order. */
  method Expand(g: Grid, visited: array<bool>, q: Queue, cur: Cell,
                ghost start: Cell, ghost order: seq<Cell>, ghost k: nat)
    returns (ghost order': seq<Cell>)
    requires k < |order| && cur == order[k] && 0 <= cur.x && 0 <= cur.y
    requires Marked(g, start, visited[..], order)
    requires q.Valid() && q.capacity == g.width * g.height && Pending(q.Contents, order, k + 1)
    requires ClosedUnder(Members(order), Members(order[..k]), g, Traversal)
    modifies visited, q, q.nodes
    ensures q.Valid() && q.capacity == g.width * g.height
    ensures Marked(g, start, visited[..], order') && Pending(q.Contents, order', k + 1)
    ensures ClosedUnder(Members(order'), Members(order'[..k + 1]), g, Traversal)
    ensures order <= order'
  {
    order' := order;
    for i := 0 to 4
      invariant q.Valid() && q.capacity == g.width * g.height
      invariant Marked(g, start, visited[..], order') && Pending(q.Contents, order', k + 1)
      invariant Tried(g, cur, order', i) && order <= order'
      invariant ClosedUnder(Members(order'), Members(order[..k]), g, Traversal)
    {
      ghost var before := order';
      order' := Visit(g, visited, q, cur, i, start, order', k + 1);
      ClosedGrows(Members(before), Members(order'), Members(order[..k]), g);
    }
    assert order'[..k] == order[..k] && order'[k] == cur;
    ExpandedOne(g, order', k);
  }

  /** When every marked cell is expanded, the marked cells are exactly those reachable from the start. */
  lemma Reached(g: Grid, start: Cell, vis: seq<bool>, order: seq<Cell>)
    requires Marked(g, start, vis, order) && start in order
    requires ClosedUnder(Members(order), Members(order), g, Traversal)
    ensures forall x, y :: InBounds(g, x, y) ==>
              (vis[Index(g.width, g.height, x, y)] <==> Connected(g, Traversal, start, Cell(x, y)))
  {
    forall x, y | InBounds(g, x, y)
      ensures vis[Index(g.width, g.height, x, y)] <==> Connected(g, Traversal, start, Cell(x, y))
    {
      if Connected(g, Traversal, start, Cell(x, y)) {
        ConnectedStaysIn(Members(order), g, Traversal, start, Cell(x, y));
      }
      if Cell(x, y) in order {
        var i :| 0 <= i < |order| && order[i] == Cell(x, y);
      }
    }
  }

  /** bfs from an in-range start, on an arena whose `visited` marks are all clear:
      afterwards exactly the cells reachable from the start are marked. */
  method Bfs(arena: Arena, visited: array<bool>, startX: nat, startY: nat)
    requires arena.Wf() && visited.Length == arena.width * arena.height
    requires forall i :: 0 <= i < visited.Length ==> !visited[i]
    modifies visited
    ensures startX < arena.width && startY < arena.height ==>
              forall x, y :: InBounds(arena.View(), x, y) ==>
                (visited[Index(arena.width, arena.height, x, y)] <==>
                 Connected(arena.View(), Traversal, Cell(startX, startY), Cell(x, y)))
    ensures !(startX < arena.width && startY < arena.height) ==> visited[..] == old(visited[..])
  {
    if startX >= arena.width || startY >= arena.height {
      return;
    }
    var g := arena.View();
    var start := Cell(startX, startY);
    var q := CreateQueue(arena.width * arena.height);
    var _ := q.Enqueue(startX, startY);
    ghost var vis := visited[..];
    MarkStart(g, start, vis);
    visited[Index(arena.width, arena.height, startX, startY)] := true;
    assert visited[..] == vis[Index(g.width, g.height, start.x, start.y) := true];
    ghost var order := [start];
    ghost var k := 0;
    while !IsQueueEmpty(q)
      invariant fresh(q) && fresh(q.nodes)
      invariant q.Valid() && q.capacity == g.width * g.height
      invariant Marked(g, start, visited[..], order) && Pending(q.Contents, order, k)
      invariant ClosedUnder(Members(order), Members(order[..k]), g, Traversal)
      invariant 0 < |order| && order[0] == start
      decreases g.width * g.height - k
    {
      var node := q.Dequeue();
      order := Expand(g, visited, q, Cell(node.x, node.y), start, order, k);
      k := k + 1;
    }
    assert order[..k] == order;
    Reached(g, start, visited[..], order);
  }

  /** are_all_spaces_connected: false for a missing arena; otherwise true exactly
      when every open cell can reach every other one. */
  method AreAllSpacesConnected(arena: Arena?) returns (r: bool)
    requires arena != null ==> arena.Wf()
    ensures arena == null ==> !r
    ensures arena != null ==> (r <==> AllConnected(arena.View()))
  {
    if arena == null {
      return false;
    }
    ghost var g := arena.View();
    var w, h := arena.width, arena.height;
    var visited := new bool[w * h](_ => false);
    ghost var seed: Option<Cell> := None;
    var x := 0;
    label scan:
    while x < w
      invariant x <= w && seed.None?
      invariant forall x', y' :: 0 <= x' < x && 0 <= y' < h ==> !Open(g, Cell(x', y'), Traversal)
      invariant forall i :: 0 <= i < visited.Length ==> !visited[i]
    {
      var y := 0;
      while y < h
        invariant y <= h && seed.None?
        invariant forall y' :: 0 <= y' < y ==> !Open(g, Cell(x, y'), Traversal)
        invariant forall i :: 0 <= i < visited.Length ==> !visited[i]
      {
        var t := arena.GetTile(x, y);
        if t == MARKER || t == EMPTY {
          Bfs(arena, visited, x, y);
          seed := Some(Cell(x, y));
          break scan;
        }
        y := y + 1;
      }
      x := x + 1;
    }
    assert seed.None? ==> forall c :: !Open(g, c, Traversal);
    assert seed.Some? ==> (Open(g, seed.value, Traversal) &&
      forall x', y' :: InBounds(g, x', y') ==>
        (visited[Index(w, h, x', y')] <==> Connected(g, Traversal, seed.value, Cell(x', y'))));
    r := CheckMarked(arena, visited, seed);
  }

  /** Every open cell before (x, y) in the column-by-column scan is marked. */
  ghost predicate Covers(g: Grid, vis: seq<bool>, x: int, y: int)
    requires |vis| == g.width * g.height
  {
    forall x', y' :: InBounds(g, x', y') && (x' < x || (x' == x && y' < y)) && Open(g, Cell(x', y'), Traversal) ==>
      vis[Index(g.width, g.height, x', y')]
  }

  /** When the seed is open and reaches every open cell, every open cell reaches every other one. */
  lemma ConnectedThroughSeed(g: Grid, seed: Cell)
    requires Open(g, seed, Traversal)
    requires forall c :: Open(g, c, Traversal) ==> Connected(g, Traversal, seed, c)
    ensures AllConnected(g)
  {
    forall a, b | Open(g, a, Traversal) && Open(g, b, Traversal)
      ensures Connected(g, Traversal, a, b)
    {
      ConnectedSymmetric(g, Traversal, seed, a);
      ConnectedTrans(g, Traversal, a, seed, b);
    }
  }

  /** The second scan of are_all_spaces_connected: every open cell must be marked. */
  method CheckMarked(arena: Arena, visited: array<bool>, ghost seed: Option<Cell>) returns (r: bool)
    requires arena.Wf() && visited.Length == arena.width * arena.height
    requires seed.None? ==> forall c :: !Open(arena.View(), c, Traversal)
    requires seed.Some? ==> (Open(arena.View(), seed.value, Traversal) &&
      forall x, y :: InBounds(arena.View(), x, y) ==>
        (visited[Index(arena.width, arena.height, x, y)] <==>
         Connected(arena.View(), Traversal, seed.value, Cell(x, y))))
    ensures r <==> AllConnected(arena.View())
  {
    ghost var g, vis := arena.View(), visited[..];
    var w, h := arena.width, arena.height;
    for x := 0 to w
      invariant Covers(g, vis, x, 0)
    {
      for y := 0 to h
        invariant Covers(g, vis, x, y)
      {
        var t := arena.GetTile(x, y);
        if (t == MARKER || t == EMPTY) && !visited[Index(w, h, x, y)] {
          assert Open(g, Cell(x, y), Traversal);
          return false;
        }
      }
    }
    if seed.Some? {
      forall c | Open(g, c, Traversal)
        ensures Connected(g, Traversal, seed.value, c)
      {
        assert vis[Index(w, h, c.x, c.y)];
      }
      ConnectedThroughSeed(g, seed.value);
    }
    return true;
  }
}

=== FILE: dynamicarray.dfy ===
/**
 * Search nodes and the growable array of node references that backs the
 * priority queue.
 *
 * A node reference (`node_t *`) is an index into a `NodePool`, the store
 * of every node one search allocates; a parent link is such an index, or
 * None for the start node.
 */
module DynamicArrays {
  import opened Basics

  type NodeId = nat

  /** node_t: a cell, its costs g (from the start), h (estimate to the goal)
      and f, its slot in the open heap, and its predecessor on the best known path. */
  datatype Node = Node(x: nat, y: nat, g: nat, h: nat, f: nat, heapIndex: nat, parent: Option<NodeId>)

  /** The heap slot of a node that was never placed: -1 stored in an unsigned field. */
  const UNPLACED: nat := UINT32_MAX

  /** create_node: a node whose total cost is g + h and which is not yet in a heap. */
  function CreateNode(x: nat, y: nat, g: nat, h: nat, parent: Option<NodeId>): (n: Node)
    ensures n.x == x && n.y == y && n.g == g && n.h == h && n.parent == parent
    ensures n.f == n.g + n.h && n.heapIndex == UNPLACED
  {
    Node(x, y, g, h, g + h, UNPLACED, parent)
  }

  /** The nodes allocated by one search; a NodeId is a position in `nodes`. */
  class NodePool {
    var nodes: seq<Node>

    constructor ()
      ensures nodes == []
    {
      nodes := [];
    }

    /** Allocation of a node (malloc in create_node). */
    method Add(n: Node) returns (id: NodeId)
      modifies this
      ensures nodes == old(nodes) + [n] && id == |old(nodes)|
    {
      id := |nodes|;
      nodes := nodes + [n];
    }

    /** node->heapIndex = k */
    method SetHeapIndex(id: NodeId, k: nat)
      requires id < |nodes|
      modifies this
      ensures nodes == old(nodes)[id := old(nodes)[id].(heapIndex := k)]
    {
      nodes := nodes[id := nodes[id].(heapIndex := k)];
    }

    /** node->f = f */
    method SetF(id: NodeId, f: nat)
      requires id < |nodes|
      modifies this
      ensures nodes == old(nodes)[id := old(nodes)[id].(f := f)]
    {
      nodes := nodes[id := nodes[id].(f := f)];
    }

    /** The relaxation of a node: new costs and a new predecessor. */
    method Relax(id: NodeId, g: nat, h: nat, f: nat, parent: Option<NodeId>)
      requires id < |nodes|
      modifies this
      ensures nodes == old(nodes)[id := old(nodes)[id].(g := g, h := h, f := f, parent := parent)]
    {
      nodes := nodes[id := nodes[id].(g := g, h := h, f := f, parent := parent)];
    }
  }

  function Max(a: nat, b: nat): nat
  {
    if a < b then b else a
  }

  /** dynamic_array_t: `size` references in the first slots of a buffer of `capacity` slots. */
  class DynamicArray {
    var buf: array<NodeId>
    var size: nat
    var capacity: nat

    ghost predicate Valid()
      reads this
    {
      buf.Length == capacity && 1 <= capacity && size <= capacity
    }

    /** The stored references, in order. */
    function Elements(): (s: seq<NodeId>)
      reads this, buf
      requires Valid()
      ensures |s| == size
    {
      buf[..size]
    }

    /** create_dynamic_array for a nonzero initial capacity. */
    constructor (initialCapacity: nat)
      requires initialCapacity > 0
      ensures Valid() && fresh(buf)
      ensures Elements() == [] && capacity == initialCapacity
    {
      buf := new NodeId[initialCapacity](_ => 0);
      size := 0;
      capacity := initialCapacity;
    }

    /** resize_dynamic_array: double, or halve (never below 1), keeping the stored references.
        The buffer is reallocated: the kept prefix is copied into a new one. */
    method Resize(isShrink: bool)
      requires Valid()
      requires isShrink ==> size <= Max(1, capacity / 2)
      modifies this
      ensures Valid() && fresh(buf) && size == old(size)
      ensures capacity == if isShrink then Max(1, old(capacity) / 2) else old(capacity) * 2
      ensures Elements() == old(Elements())
    {
      var newCapacity := if isShrink then capacity / 2 else capacity * 2;
      if newCapacity < 1 {
        newCapacity := 1;
      }
      var newArray := new NodeId[newCapacity](_ => 0);
      var keep := if newCapacity < capacity then newCapacity else capacity;
      var i := 0;
      while i < keep
        invariant 0 <= i <= keep
        invariant buf == old(buf) && capacity == old(capacity) && size == old(size)
        invariant newArray[..i] == buf[..i]
      {
        newArray[i] := buf[i];
        i := i + 1;
      }
      assert newArray[..size] == newArray[..keep][..size];
      buf := newArray;
      capacity := newCapacity;
    }

    /** da_add_element: a null element is ignored; otherwise it is appended,
        after doubling the capacity when the buffer is full. */
    method AddElement(element: Option<NodeId>)
      requires Valid()
      modifies this, buf
      ensures Valid()
      ensures buf == old(buf) || fresh(buf)
      ensures element.None? ==> unchanged(this) && Elements() == old(Elements())
      ensures element.Some? ==>
                && Elements() == old(Elements()) + [element.value]
                && capacity == if old(size) == old(capacity) then 2 * old(capacity) else old(capacity)
    {
      if element.None? {
        return;
      }
      if size == capacity {
        Resize(false);
      }
      buf[size] := element.value;
      size := size + 1;
    }

    /** da_get_element: the reference at `index`, or null past the end. */
    function GetElement(index: nat): (r: Option<NodeId>)
      reads this, buf
      requires Valid()
      ensures index < size ==> r == Some(Elements()[index])
      ensures index >= size ==> r == None
    {
      if index >= size then None else Some(buf[index])
    }

    /** da_set_element: overwrite an in-range slot with a non-null reference; otherwise no change. */
    method SetElement(index: nat, element: Option<NodeId>)
      requires Valid()
      modifies buf
      ensures Valid()
      ensures Elements() == if element.Some? && index < size then old(Elements())[index := element.value]
                            else old(Elements())
    {
      if element.None? {
        return;
      }
      if index < size {
        buf[index] := element.value;
      }
    }

    /** da_delete_end: drop the last reference; halve the capacity once the
        array is at most a quarter full. */
    method DeleteEnd()
      requires Valid()
      modifies this
      ensures Valid()
      ensures old(size) == 0 ==> unchanged(this)
      ensures old(size) > 0 ==>
                && Elements() == old(Elements())[..old(size) - 1]
                && capacity == if size <= old(capacity) / 4 then Max(1, old(capacity) / 2) else old(capacity)
    {
      if size > 0 {
        size := size - 1;
        if size <= capacity / 4 {
          Resize(true);
        }
      }
    }

    /** da_delete_middle: remove the reference at `index`, shifting the later
        ones down by one slot; shrink as da_delete_end does. Out of range: no change. */
    method DeleteMiddle(index: nat)
      requires Valid()
      modifies this, buf
      ensures Valid()
      ensures index >= old(size) ==> unchanged(this) && Elements() == old(Elements())
      ensures index < old(size) ==>
                && Elements() == old(Elements())[..index] + old(Elements())[index + 1..]
                && capacity == if size <= old(capacity) / 4 then Max(1, old(capacity) / 2) else old(capacity)
    {
      if index < size {
        ghost var before := buf[..size];
        var i := index;
        while i < size - 1
          invariant index <= i <= size - 1
          invariant buf == old(buf) && capacity == old(capacity) && size == old(size) == |before|
          invariant forall k :: 0 <= k < index ==> buf[k] == before[k]
          invariant forall k :: index <= k < i ==> buf[k] == before[k + 1]
          invariant forall k :: i <= k < size ==> buf[k] == before[k]
        {
          buf[i] := buf[i + 1];
          i := i + 1;
        }
        size := size - 1;
        ghost var after := before[..index] + before[index + 1..];
        assert |after| == size;
        forall k | 0 <= k < size
          ensures buf[k] == after[k]
        {
          if k < index {
            assert after[k] == before[k];
          } else {
            assert after[k] == before[k + 1];
          }
        }
        assert buf[..size] == after;
        if size <= capacity / 4 {
          Resize(true);
        }
      }
    }

    /** da_try_swap_elements: exchange two in-range slots and report 1; otherwise report 0 and change nothing. */
    method TrySwapElements(index1: nat, index2: nat) returns (success: nat)
      requires Valid()
      modifies buf
      ensures Valid()
      ensures success == 1 <==> index1 < size && index2 < size
      ensures success == 0 <==> !(index1 < size && index2 < size)
      ensures success == 1 ==>
                Elements() == old(Elements())[index1 := old(Elements())[index2]][index2 := old(Elements())[index1]]
      ensures success == 0 ==> Elements() == old(Elements())
    {
      if index1 < size && index2 < size {
        var temp := buf[index1];
        buf[index1] := buf[index2];
        buf[index2] := temp;
        success := 1;
      } else {
        success := 0;
      }
    }
  }

  /** create_dynamic_array: no array for capacity 0. */
  method CreateDynamicArray(initialCapacity: nat) returns (d: DynamicArray?)
    ensures d == null <==> initialCapacity == 0
    ensures d != null ==> fresh(d) && fresh(d.buf) && d.Valid() && d.Elements() == [] && d.capacity == initialCapacity
  {
    if initialCapacity == 0 {
      return null;
    }
    d := new DynamicArray(initialCapacity);
  }
}

=== FILE: heaporder.dfy ===
/**
 * The binary-heap order on a sequence of keys laid out as a complete binary
 * tree (children of slot i at 2i+1 and 2i+2), and the facts that the
 * sift-up and sift-down steps of the priority queue rest on.
 */
module HeapOrder {
  import opened Basics

  /** mh_parent_index: (i - 1) / 2 computed on unsigned ints; for the root the
      subtraction wraps around, giving a slot far beyond any heap. */
  function ParentIndex(i: nat): (p: nat)
    ensures 0 < i ==> p < i
  {
    if i == 0 then UINT32_MAX / 2 else (i - 1) / 2
  }

  /** mh_left_index: the left child is a slot whose parent is i. */
  function LeftIndex(i: nat): (l: nat)
    ensures i < l && ParentIndex(l) == i
  {
    2 * i + 1
  }

  /** mh_right_index: the right child is a slot whose parent is i. */
  function RightIndex(i: nat): (r: nat)
    ensures i < r && ParentIndex(r) == i && r == LeftIndex(i) + 1
  {
    2 * i + 2
  }

  /** Every slot other than the root holds a key no smaller than its parent's. */
  ghost predicate HeapOrdered(s: seq<nat>)
  {
    forall k :: 0 < k < |s| ==> s[ParentIndex(k)] <= s[k]
  }

  /** The order may fail only between slot i and its parent, and i's parent is
      no larger than i's children (the state during a sift-up). */
  ghost predicate OrderedExceptAbove(s: seq<nat>, i: nat)
  {
    && i < |s|
    && (forall k :: 0 < k < |s| && k != i ==> s[ParentIndex(k)] <= s[k])
    && (0 < i ==> forall k :: 0 < k < |s| && ParentIndex(k) == i ==> s[ParentIndex(i)] <= s[k])
  }

  /** The order may fail only between slot i and its children, and i's parent is
      no larger than i's children (the state during a sift-down). */
  ghost predicate OrderedExceptBelow(s: seq<nat>, i: nat)
  {
    && (forall k :: 0 < k < |s| && ParentIndex(k) != i ==> s[ParentIndex(k)] <= s[k])
    && (0 < i < |s| ==> forall k :: 0 < k < |s| && ParentIndex(k) == i ==> s[ParentIndex(i)] <= s[k])
  }

  function Swap<T>(s: seq<T>, i: nat, j: nat): (r: seq<T>)
    requires i < |s| && j < |s|
    ensures |r| == |s| && r[i] == s[j] && r[j] == s[i]
    ensures forall k :: 0 <= k < |s| && k != i && k != j ==> r[k] == s[k]
  {
    s[i := s[j]][j := s[i]]
  }

  lemma SwapKeepsMultiset<T>(s: seq<T>, i: nat, j: nat)
    requires i < |s| && j < |s|
    ensures multiset(Swap(s, i, j)) == multiset(s)
  {
  }

  /** Moving the last entry to the front and dropping the last slot removes the first entry. */
  lemma MoveLastKeepsOthers(s: seq<nat>)
    requires 0 < |s|
    ensures multiset(s[0 := s[|s| - 1]][..|s| - 1]) + multiset{s[0]} == multiset(s)
  {
    var n := |s|;
    if 1 < n {
      var mid := s[1..n - 1];
      var tail := s[1..];
      var rest := s[0 := s[n - 1]][..n - 1];
      assert s == [s[0]] + tail;
      assert multiset(s) == multiset{s[0]} + multiset(tail);
      assert tail == mid + [s[n - 1]];
      assert multiset(tail) == multiset(mid) + multiset{s[n - 1]};
      assert rest == [s[n - 1]] + mid;
      assert multiset(rest) == multiset{s[n - 1]} + multiset(mid);
    }
  }

  /** The root of a heap-ordered sequence holds its least key. */
  lemma {:induction false} RootIsMin(s: seq<nat>, k: nat)
    requires HeapOrdered(s) && k < |s|
    ensures s[0] <= s[k]
    decreases k
  {
    if k > 0 {
      RootIsMin(s, ParentIndex(k));
    }
  }

  /** Appending a key leaves the order broken at most above the new slot. */
  lemma AppendBreaksAbove(s: seq<nat>, v: nat)
    requires HeapOrdered(s)
    ensures OrderedExceptAbove(s + [v], |s|)
  {
    var t := s + [v];
    forall k | 0 < k < |t| && ParentIndex(k) == |s|
      ensures false
    {
    }
  }

  /** Lowering one key leaves the order broken at most above that slot. */
  lemma {:induction false} LowerBreaksAbove(s: seq<nat>, i: nat, v: nat)
    requires HeapOrdered(s) && i < |s| && v <= s[i]
    ensures OrderedExceptAbove(s[i := v], i)
  {
    var t := s[i := v];
    forall k | 0 < k < |t| && k != i
      ensures t[ParentIndex(k)] <= t[k]
    {
      assert s[ParentIndex(k)] <= s[k];
    }
    if 0 < i {
      forall k | 0 < k < |t| && ParentIndex(k) == i
        ensures t[ParentIndex(i)] <= t[k]
      {
        assert s[ParentIndex(i)] <= s[i] <= s[k];
      }
    }
  }

  /** One sift-up step: swapping slot i with a larger parent moves the fault up to the parent. */
  lemma {:induction false} SiftUpStep(s: seq<nat>, i: nat)
    requires OrderedExceptAbove(s, i) && 0 < i && s[ParentIndex(i)] > s[i]
    ensures OrderedExceptAbove(Swap(s, i, ParentIndex(i)), ParentIndex(i))
  {
    var p := ParentIndex(i);
    var t := Swap(s, i, p);
    forall k | 0 < k < |t| && k != p
      ensures t[ParentIndex(k)] <= t[k]
    {
      if k == i {
      } else if ParentIndex(k) == i {
        assert s[ParentIndex(i)] <= s[k];
      } else if ParentIndex(k) == p {
        assert s[p] <= s[k];
      } else {
        assert s[ParentIndex(k)] <= s[k];
      }
    }
    if 0 < p {
      forall k | 0 < k < |t| && ParentIndex(k) == p
        ensures t[ParentIndex(p)] <= t[k]
      {
        assert s[ParentIndex(p)] <= s[p];
        if k != i {
          assert s[p] <= s[k];
        }
      }
    }
  }

  /** A sift-up ends once the fault is at the root or the parent is no larger. */
  lemma SiftUpDone(s: seq<nat>, i: nat)
    requires OrderedExceptAbove(s, i) && (i == 0 || s[ParentIndex(i)] <= s[i])
    ensures HeapOrdered(s)
  {
  }

  /** Moving the last key to the root and dropping the last slot leaves the
      order broken at most below the root. */
  lemma {:induction false} MoveLastBreaksBelow(s: seq<nat>)
    requires HeapOrdered(s) && 0 < |s|
    ensures OrderedExceptBelow(s[0 := s[|s| - 1]][..|s| - 1], 0)
  {
    var t := s[0 := s[|s| - 1]][..|s| - 1];
    forall k | 0 < k < |t| && ParentIndex(k) != 0
      ensures t[ParentIndex(k)] <= t[k]
    {
      assert s[ParentIndex(k)] <= s[k];
    }
  }

  /** One sift-down step: swapping slot i with its smaller child m, when that
      child is smaller than i, moves the fault down to m. */
  lemma {:induction false} SiftDownStep(s: seq<nat>, i: nat, m: nat)
    requires OrderedExceptBelow(s, i) && 0 < m < |s| && ParentIndex(m) == i && s[m] < s[i]
    requires forall k :: 0 < k < |s| && ParentIndex(k) == i ==> s[m] <= s[k]
    ensures OrderedExceptBelow(Swap(s, i, m), m)
  {
    var t := Swap(s, i, m);
    forall k | 0 < k < |t| && ParentIndex(k) != m
      ensures t[ParentIndex(k)] <= t[k]
    {
      var p := ParentIndex(k);
      if k == i {
        assert t[p] == s[p] && t[k] == s[m];
        assert s[p] <= s[m];
      } else if k == m {
        assert t[p] == s[m] && t[k] == s[i];
      } else if p == i {
        assert t[p] == s[m] && t[k] == s[k];
      } else {
        assert t[p] == s[p] && t[k] == s[k];
        assert s[p] <= s[k];
      }
    }
    forall k | 0 < k < |t| && ParentIndex(k) == m
      ensures t[ParentIndex(m)] <= t[k]
    {
      assert t[ParentIndex(m)] == s[m] && t[k] == s[k];
      assert s[m] <= s[k];
    }
  }

  /** A sift-down ends once no child is smaller than slot i. */
  lemma SiftDownDone(s: seq<nat>, i: nat)
    requires OrderedExceptBelow(s, i)
    requires forall k :: 0 < k < |s| && ParentIndex(k) == i ==> s[i] <= s[k]
    ensures HeapOrdered(s)
  {
  }

  /** The two children of a slot are its left and right index. */
  lemma ChildrenOf(i: nat, k: nat)
    requires 0 < k && ParentIndex(k) == i
    ensures k == LeftIndex(i) || k == RightIndex(i)
  {
  }
}

=== FILE: loads.dfy ===
/**
 * The robot's load as a count of the markers it cleared: every pick-up turns
 * one Marker tile Empty and raises the uint8_t load by one, so along any run
 * of the robot the load grows, modulo 256, by the number of Marker tiles that
 * disappeared.
 */
module Loads {
  import opened Basics
  import opened Grids
  import opened Walks
  import opened Robots
  import opened Steering

  /** The cells that still hold a marker. */
  ghost function MarkerCells(g: Grid): set<Cell>
  {
    set c | c in AllCells(g.width, g.height) && Tile(g, c.x, c.y) == MARKER
  }

  lemma CollectedMarkerCells(g: Grid, g': Grid)
    requires Collected(g, g')
    ensures MarkerCells(g') <= MarkerCells(g)
  {
    forall c | c in MarkerCells(g')
      ensures c in MarkerCells(g)
    {
      assert Tile(g', c.x, c.y) == Tile(g, c.x, c.y) || Tile(g, c.x, c.y) == MARKER;
    }
  }

  /** The load keeps count of the markers cleared: from (r0, g0) to (r, g) it
      rose by one, wrapping at 256 as uint8_t does, for every cell of g0 that
      held a marker and no longer does in g. */
  ghost predicate Loaded(r0: RobotState, g0: Grid, r: RobotState, g: Grid)
  {
    r.markerCount as int == (r0.markerCount as int + |MarkerCells(g0) - MarkerCells(g)|) % 256
  }

  lemma LoadedRefl(r: RobotState, g: Grid)
    ensures Loaded(r, g, r, g)
  {
    assert MarkerCells(g) - MarkerCells(g) == {};
  }

  /** Counts of cleared markers add up along a run that only clears markers. */
  lemma LoadedTrans(r0: RobotState, g0: Grid, r1: RobotState, g1: Grid, r2: RobotState, g2: Grid)
    requires Loaded(r0, g0, r1, g1) && Loaded(r1, g1, r2, g2)
    requires MarkerCells(g2) <= MarkerCells(g1) <= MarkerCells(g0)
    ensures Loaded(r0, g0, r2, g2)
  {
    CountsAdd(r0.markerCount as int, r1.markerCount as int, r2.markerCount as int,
              MarkerCells(g0), MarkerCells(g1), MarkerCells(g2));
  }

  /** A count that wraps at 256 and grows by the cells dropped from a set
      grows, over two steps, by the cells dropped in both. */
  lemma CountsAdd(l0: int, l1: int, l2: int, a: set<Cell>, b: set<Cell>, c: set<Cell>)
    requires c <= b <= a
    requires l1 == (l0 + |a - b|) % 256 && l2 == (l1 + |b - c|) % 256
    ensures l2 == (l0 + |a - c|) % 256
  {
    assert a - c == (a - b) + (b - c);
    assert (a - b) * (b - c) == {};
    var q := (l0 + |a - b|) / 256;
    assert l0 + |a - b| == q * 256 + l1;
  }

  /** A pick-up clears one marker and counts it. */
  lemma PickUpLoads(r: RobotState, g: Grid)
    ensures Loaded(r, g, PickUp(r, g).0, PickUp(r, g).1) && Collected(g, PickUp(r, g).1)
  {
    var p := PickUp(r, g);
    if AtMarker(r, g) {
      var c := Cell(r.x, r.y);
      assert c in MarkerCells(g);
      forall d
        ensures d in MarkerCells(p.1) <==> d in MarkerCells(g) && d != c
      {
        assert Tile(p.1, d.x, d.y) == if d.x == r.x && d.y == r.y then EMPTY else Tile(g, d.x, d.y);
      }
      assert MarkerCells(g) - MarkerCells(p.1) == {c};
    } else {
      LoadedRefl(r, g);
    }
  }

  /** One entry of the list only clears markers, and counts each one it clears. */
  lemma StepLoads(p: (RobotState, Grid), d: Byte)
    ensures Loaded(p.0, p.1, Step(p, d).0, Step(p, d).1) && Collected(p.1, Step(p, d).1)
  {
    var r := Forward(Face(p.0, p.1, d), p.1);
    LoadedRefl(r, p.1);
    if AtMarker(r, p.1) {
      PickUpLoads(r, p.1);
    }
  }

  /** A whole list only clears markers and the load counts every one. */
  lemma {:induction false} FollowLoads(r: RobotState, g: Grid, ds: seq<Byte>)
    ensures Loaded(r, g, Follow(r, g, ds).0, Follow(r, g, ds).1) && Collected(g, Follow(r, g, ds).1)
    decreases |ds|
  {
    if ds == [] {
      LoadedRefl(r, g);
    } else {
      var p := Follow(r, g, ds[..|ds| - 1]);
      FollowLoads(r, g, ds[..|ds| - 1]);
      StepLoads(p, ds[|ds| - 1]);
      CollectedMarkerCells(g, p.1);
      CollectedMarkerCells(p.1, Step(p, ds[|ds| - 1]).1);
      LoadedTrans(r, g, p.0, p.1, Step(p, ds[|ds| - 1]).0, Step(p, ds[|ds| - 1]).1);
    }
  }
}

=== FILE: maze.dfy ===
/**
 * The maze: settings, the arena built from them and the robot standing in
 * it; the checks that a maze is usable; the choice of the nearest marker;
 * and the routine that sends the robot to collect markers one after another
 * and then brings it home.
 */
module Mazes {
  import opened Basics
  import opened Grids
  import opened Walks
  import opened Robots
  import opened Pathfinder
  import opened DynamicArrays
  import opened MazeSettings
  import opened Connectivity
  import opened Steering
  import opened Loads

  /** maze_t without its drawing parameters. */
  class Maze {
    const settings: Settings
    const arena: Arena
    const robot: Robot

    ghost predicate Wf()
    {
      AllReadable(settings) && arena.Wf() && robot.arena == arena
    }

    constructor (s: Settings, a: Arena, r: Robot)
      ensures settings == s && arena == a && robot == r
    {
      settings, arena, robot := s, a, r;
    }
  }

  /** validate_maze for a maze that exists: valid settings, a valid arena, a
      valid robot, and every open cell reachable from every other. */
  ghost predicate MazeValid(m: Maze)
    reads m.robot, m.arena.grid
    requires m.Wf()
  {
    && SettingsValid(m.settings)
    && ValidateArena(m.arena)
    && IsValidRobot(m.robot.State(), m.arena.View())
    && AllConnected(m.arena.View())
  }

  /** Writes tile t at every entry of the list, in order (one of create_maze's three loops). */
  method StampList(arena: Arena, c: Coords, t: Byte)
    requires arena.Wf() && Readable(c) && (c.count != 0 ==> Present(c))
    modifies arena.grid
    ensures arena.View() == Stamp(old(arena.View()), c, t, c.count)
  {
    ghost var g0 := arena.View();
    for i := 0 to c.count
      invariant arena.View() == Stamp(g0, c, t, i)
    {
      arena.SetTile(c.xs.value[i], c.ys.value[i], t);
    }
  }

  /** create_maze: no maze for invalid settings or for a home cell off the
      arena; otherwise the arena of `MazeGrid` and a robot with an empty load
      standing on the start cell, facing the initial heading. */
  method CreateMaze(s: Settings) returns (m: Maze?)
    requires AllReadable(s)
    ensures m == null <==> !SettingsValid(s) || !(s.homeX < s.width && s.homeY < s.height)
    ensures m != null ==> && fresh(m) && fresh(m.arena) && fresh(m.arena.grid) && fresh(m.robot)
                          && m.Wf() && m.settings == s && m.arena.View() == MazeGrid(s)
                          && m.robot.State() == RobotState(s.startX, s.startY, s.homeX, s.homeY, s.direction as Byte, 0)
  {
    var ok := ValidateMazeSettings(s);
    if !ok {
      return null;
    }
    var arena := CreateArena(s.width, s.height);
    StampList(arena, s.markers, MARKER);
    StampList(arena, s.obstacles, OBSTACLE);
    StampList(arena, s.voids, VOID);
    assert arena.View() == MazeGrid(s);
    if s.homeX < s.width && s.homeY < s.height {
      HomeEmpty(s);
    }
    var robot := CreateRobot(arena, s.homeX, s.homeY, s.direction as Byte);
    if robot == null {
      return null;
    }
    robot.x, robot.y := s.startX, s.startY;
    m := new Maze(s, arena, robot);
  }

  /** validate_maze: false for a missing maze; otherwise each check in turn. */
  method ValidateMaze(m: Maze?) returns (ok: bool)
    requires m != null ==> m.Wf()
    ensures ok <==> m != null && MazeValid(m)
  {
    if m == null {
      return false;
    }
    ok := ValidateMazeSettings(m.settings);
    ok := ok && ValidateArena(m.arena) && IsValidRobot(m.robot.State(), m.arena.View());
    if ok {
      ok := AreAllSpacesConnected(m.arena);
    }
  }

  /** What get_closest_marker_index reports when there is no marker to go for: UINT_MAX. */
  const NO_MARKER: nat := UINT32_MAX

  /** The scan of get_closest_marker_index over the first n entries, as the
      pair (index, shortest distance): the first entry standing on a Marker
      tile whose distance from (x, y) is the smallest and below INT_MAX. */
  function Nearest(c: Coords, g: Grid, x: int, y: int, n: nat): (p: (nat, nat))
    requires Readable(c) && n <= c.count && (n > 0 ==> Present(c))
    ensures p.0 == NO_MARKER <==> p.1 == INT32_MAX
    ensures p.0 == NO_MARKER ==>
              forall i :: 0 <= i < n ==> Tile(g, At(c, i).x, At(c, i).y) == MARKER ==>
                INT32_MAX <= ManhattanDistance(x, y, At(c, i).x, At(c, i).y)
    ensures p.0 != NO_MARKER ==>
              && p.0 < n && Tile(g, At(c, p.0).x, At(c, p.0).y) == MARKER
              && p.1 == ManhattanDistance(x, y, At(c, p.0).x, At(c, p.0).y) < INT32_MAX
              && (forall i :: 0 <= i < n && Tile(g, At(c, i).x, At(c, i).y) == MARKER ==>
                    p.1 <= ManhattanDistance(x, y, At(c, i).x, At(c, i).y))
              && (forall i :: 0 <= i < p.0 && Tile(g, At(c, i).x, At(c, i).y) == MARKER ==>
                    p.1 < ManhattanDistance(x, y, At(c, i).x, At(c, i).y))
    decreases n
  {
    if n == 0 then (NO_MARKER, INT32_MAX)
    else
      var p := Nearest(c, g, x, y, n - 1);
      var q := At(c, n - 1);
      if Tile(g, q.x, q.y) != MARKER then p
      else
        var d := ManhattanDistance(x, y, q.x, q.y);
        if d < p.1 then (n - 1, d) else p
  }

  /** get_closest_marker_index: UINT_MAX for a maze that does not validate;
      otherwise the result of scanning every marker entry from the robot's cell. */
  method GetClosestMarkerIndex(m: Maze?) returns (index: nat)
    requires m != null ==> m.Wf()
    ensures !(m != null && MazeValid(m)) ==> index == NO_MARKER
    ensures m != null && MazeValid(m) ==>
              index == Nearest(m.settings.markers, m.arena.View(), m.robot.x, m.robot.y, m.settings.markers.count).0
  {
    var ok := ValidateMaze(m);
    if !ok {
      return NO_MARKER;
    }
    var c := m.settings.markers;
    index := NO_MARKER;
    var minDistance: nat := INT32_MAX;
    for i := 0 to c.count
      invariant (index, minDistance) == Nearest(c, m.arena.View(), m.robot.x, m.robot.y, i)
    {
      var x, y := c.xs.value[i], c.ys.value[i];
      if m.arena.GetTile(x, y) != MARKER {
        continue;
      }
      var distance := ManhattanDistance(m.robot.x, m.robot.y, x, y);
      if distance < minDistance {
        minDistance := distance;
        index := i;
      }
    }
  }

  /** Clearing markers never adds one, and a cleared marker is gone. */
  lemma FewerMarkers(g: Grid, g': Grid, c: Cell)
    requires Collected(g, g') && Tile(g, c.x, c.y) == MARKER && Tile(g', c.x, c.y) != MARKER
    ensures MarkerCells(g') < MarkerCells(g)
  {
    forall d | d in MarkerCells(g')
      ensures d in MarkerCells(g)
    {
      assert Tile(g', d.x, d.y) == Tile(g, d.x, d.y) || Tile(g, d.x, d.y) == MARKER;
    }
    assert c in MarkerCells(g);
  }

  /** Picking up a marker only clears one. */
  lemma PickUpCollects(r: RobotState, g: Grid)
    ensures Collected(g, PickUp(r, g).1)
  {
  }

  /** The robot's state in the maze, as the collecting loop keeps it. */
  ghost predicate Roaming(m: Maze)
    reads m.robot, m.arena.grid
  {
    && m.Wf()
    && IsValidRobot(m.robot.State(), m.arena.View())
    && KnownTiles(m.arena.View())
  }

  /** The directions of a path the search found, followed from the robot's
      cell: the robot ends on the path's last cell. `moved` is false exactly
      when the direction list is empty (the robot already stands there), and
      then nothing changes. */
  method TravelPath(m: Maze, pool: NodePool, id: NodeId, ghost goal: Cell) returns (moved: bool)
    requires Roaming(m) && IsPath(pool.nodes, id, m.arena.View(), Cell(m.robot.x, m.robot.y), goal)
    modifies m.robot, m.arena.grid
    ensures Roaming(m) && Collected(old(m.arena.View()), m.arena.View())
    ensures Loaded(old(m.robot.State()), old(m.arena.View()), m.robot.State(), m.arena.View())
    ensures Cell(m.robot.x, m.robot.y) == goal
    ensures old(Open(m.arena.View(), Cell(m.robot.x, m.robot.y), Traversal)) ==> Open(m.arena.View(), goal, Traversal)
    ensures moved ==> Tile(m.arena.View(), goal.x, goal.y) != MARKER
    ensures !moved ==> m.robot.State() == old(m.robot.State()) && m.arena.View() == old(m.arena.View())
  {
    ghost var g, r := m.arena.View(), m.robot.State();
    ghost var w := Chain(pool.nodes, id);
    var directions, size := PathToDirectionList(pool, Some(id));
    if directions == null || size == 0 {
      LoadedRefl(r, g);
      return false;
    }
    WalkRulesAgree(g, w);
    WalkHeadings(g, Traversal, w);
    assert directions[..size] == DirectionsOf(w);
    MoveRobotInDirections(m.robot, directions, size);
    FollowWalk(r, g, w);
    FollowLoads(r, g, DirectionsOf(w));
    CollectedKnown(g, m.arena.View());
    assert Open(g, Last(w), Traversal);
    CollectedOpen(g, m.arena.View(), goal, Traversal);
    moved := true;
  }

  /** Clearing markers keeps every connection: a walk stays a walk. */
  lemma CollectedConnected(g: Grid, g': Grid, rule: Rule, a: Cell, b: Cell)
    requires Collected(g, g') && Connected(g, rule, a, b)
    ensures Connected(g', rule, a, b)
  {
    var w :| IsWalk(g, rule, w) && w[0] == a && Last(w) == b;
    forall i | 0 < i < |w|
      ensures Open(g', w[i], rule)
    {
      CollectedOpen(g, g', w[i], rule);
    }
    assert IsWalk(g', rule, w);
  }

  /** Clearing markers keeps the open cells connected, so a valid maze stays valid. */
  lemma CollectedAllConnected(g: Grid, g': Grid)
    requires Collected(g, g') && AllConnected(g)
    ensures AllConnected(g')
  {
    forall a, b | Open(g', a, Traversal) && Open(g', b, Traversal)
      ensures Connected(g', Traversal, a, b)
    {
      CollectedOpen(g, g', a, Traversal);
      CollectedOpen(g, g', b, Traversal);
      CollectedConnected(g, g', Traversal, a, b);
    }
  }

  /** Why a round of solve_maze's loop breaks, read in the state it starts
      from: no marker to go for, no path to the nearest one, or an empty
      direction list because the robot already stands on it. */
  ghost predicate Stuck(s: Settings, g: Grid, r: RobotState)
    requires AllReadable(s) && SettingsValid(s)
  {
    var i := Nearest(s.markers, g, r.x, r.y, s.markers.count).0;
    || i == NO_MARKER
    || !Connected(g, Search, Cell(r.x, r.y), At(s.markers, i))
    || At(s.markers, i) == Cell(r.x, r.y)
  }

  /** The state the collecting loop leaves: the robot carries as many markers
      as the settings list, or a round broke. */
  ghost predicate Finished(s: Settings, g: Grid, r: RobotState)
    requires AllReadable(s) && SettingsValid(s)
  {
    r.markerCount as int >= s.markers.count || Stuck(s, g, r)
  }

  /** In a connected arena of the four tile kinds, a robot on an Empty cell
      reaches every Marker tile, so a round breaks exactly when the scan finds
      no marker to go for. */
  lemma StuckMeansNoMarker(s: Settings, g: Grid, r: RobotState)
    requires AllReadable(s) && SettingsValid(s)
    requires KnownTiles(g) && AllConnected(g) && Tile(g, r.x, r.y) == EMPTY
    ensures Stuck(s, g, r) <==> Nearest(s.markers, g, r.x, r.y, s.markers.count).0 == NO_MARKER
  {
    var i := Nearest(s.markers, g, r.x, r.y, s.markers.count).0;
    if i != NO_MARKER {
      var here, there := Cell(r.x, r.y), At(s.markers, i);
      assert Open(g, here, Traversal) && Open(g, there, Traversal);
      ConnectedRulesAgree(g, here, there);
      assert here != there;
    }
  }

  /** One round of solve_maze's loop: go to the nearest marker along the path
      the search finds and pick it up. `stop` is set where the loop breaks,
      and then one of the reasons of `Stuck` holds and nothing has changed. A
      round that does not stop ends on the entry the scan chose, with its
      marker cleared. Either way the load counts every marker cleared. */
  method CollectNearest(m: Maze) returns (stop: bool)
    requires Roaming(m) && MazeValid(m)
    modifies m.robot, m.arena.grid
    ensures Roaming(m) && MazeValid(m) && Collected(old(m.arena.View()), m.arena.View())
    ensures Loaded(old(m.robot.State()), old(m.arena.View()), m.robot.State(), m.arena.View())
    ensures !stop ==> MarkerCells(m.arena.View()) < MarkerCells(old(m.arena.View()))
    ensures old(Open(m.arena.View(), Cell(m.robot.x, m.robot.y), Traversal)) ==> Open(m.arena.View(), Cell(m.robot.x, m.robot.y), Traversal)
    ensures !stop ==>
              var i := old(Nearest(m.settings.markers, m.arena.View(), m.robot.x, m.robot.y, m.settings.markers.count).0);
              && i != NO_MARKER
              && Cell(m.robot.x, m.robot.y) == At(m.settings.markers, i)
              && Tile(m.arena.View(), m.robot.x, m.robot.y) != MARKER
    ensures stop ==> m.robot.State() == old(m.robot.State()) && m.arena.View() == old(m.arena.View())
    ensures stop ==> Stuck(m.settings, m.arena.View(), m.robot.State())
  {
    LoadedRefl(m.robot.State(), m.arena.View());
    var index := GetClosestMarkerIndex(m);
    if index == NO_MARKER {
      return true;
    }
    var c := m.settings.markers;
    var goal := At(c, index);
    ghost var g := m.arena.View();
    var path, pool := AStarSearch(m.arena, m.robot.x, m.robot.y, c.xs.value[index], c.ys.value[index]);
    if path.None? {
      return true;
    }
    var moved := TravelPath(m, pool, path.value, goal);
    if !moved {
      return true;
    }
    ghost var g1 := m.arena.View();
    PickUpCollects(m.robot.State(), g1);
    m.robot.PickUpMarker();
    assert m.arena.View() == g1;
    CollectedTrans(g, g1, m.arena.View());
    CollectedKnown(g, m.arena.View());
    CollectedAllConnected(g, m.arena.View());
    FewerMarkers(g, m.arena.View(), goal);
    stop := false;
  }

  /** The collecting loop of solve_maze: rounds run while the robot carries
      fewer markers than the settings list, until one breaks. The load counts
      every marker cleared, and a robot that did not start on a marker does
      not end on one. */
  method CollectMarkers(m: Maze)
    requires Roaming(m) && MazeValid(m)
    modifies m.robot, m.arena.grid
    ensures Roaming(m) && MazeValid(m) && Collected(old(m.arena.View()), m.arena.View())
    ensures Loaded(old(m.robot.State()), old(m.arena.View()), m.robot.State(), m.arena.View())
    ensures old(Tile(m.arena.View(), m.robot.x, m.robot.y)) != MARKER ==> Tile(m.arena.View(), m.robot.x, m.robot.y) != MARKER
    ensures old(Open(m.arena.View(), Cell(m.robot.x, m.robot.y), Traversal)) ==> Open(m.arena.View(), Cell(m.robot.x, m.robot.y), Traversal)
    ensures Finished(m.settings, m.arena.View(), m.robot.State())
    ensures old(Tile(m.arena.View(), m.robot.x, m.robot.y)) == EMPTY ==>
              || m.robot.markerCount as int >= m.settings.markers.count
              || Nearest(m.settings.markers, m.arena.View(), m.robot.x, m.robot.y, m.settings.markers.count).0 == NO_MARKER
  {
    ghost var g0, r0 := m.arena.View(), m.robot.State();
    LoadedRefl(r0, g0);
    while (m.robot.markerCount as int) < m.settings.markers.count
      invariant Roaming(m) && MazeValid(m) && Collected(g0, m.arena.View())
      invariant Loaded(r0, g0, m.robot.State(), m.arena.View())
      invariant Tile(g0, r0.x, r0.y) != MARKER ==> Tile(m.arena.View(), m.robot.x, m.robot.y) != MARKER
      invariant Open(g0, Cell(r0.x, r0.y), Traversal) ==> Open(m.arena.View(), Cell(m.robot.x, m.robot.y), Traversal)
      decreases MarkerCells(m.arena.View())
    {
      ghost var g, r := m.arena.View(), m.robot.State();
      var stop := CollectNearest(m);
      if stop {
        break;
      }
      CollectedMarkerCells(g0, g);
      CollectedMarkerCells(g, m.arena.View());
      CollectedTrans(g0, g, m.arena.View());
      LoadedTrans(r0, g0, r, g, m.robot.State(), m.arena.View());
    }
    if Tile(g0, r0.x, r0.y) == EMPTY {
      StuckMeansNoMarker(m.settings, m.arena.View(), m.robot.State());
    }
  }

  /** The end of solve_maze: when the search finds a path home the robot
      follows it and drops its load, which at home empties it; when there is
      no path nothing changes. */
  method ReturnHome(m: Maze)
    requires Roaming(m)
    modifies m.robot, m.arena.grid
    ensures Roaming(m) && Collected(old(m.arena.View()), m.arena.View())
    ensures Home(m) || !Connected(m.arena.View(), Search, Cell(m.robot.x, m.robot.y), Cell(m.robot.homeX, m.robot.homeY))
    ensures Home(m) && Tile(m.arena.View(), m.robot.homeX, m.robot.homeY) == EMPTY ==> m.robot.markerCount == 0
    ensures old(Connected(m.arena.View(), Search, Cell(m.robot.x, m.robot.y), Cell(m.robot.homeX, m.robot.homeY))) ==> Home(m)
    ensures !old(Connected(m.arena.View(), Search, Cell(m.robot.x, m.robot.y), Cell(m.robot.homeX, m.robot.homeY))) ==>
              m.robot.State() == old(m.robot.State()) && m.arena.View() == old(m.arena.View())
  {
    var path, pool := AStarSearch(m.arena, m.robot.x, m.robot.y, m.robot.homeX, m.robot.homeY);
    if path.None? {
      if Home(m) {
        ConnectedRefl(m.arena.View(), Search, Cell(m.robot.x, m.robot.y));
      }
      return;
    }
    var _ := TravelPath(m, pool, path.value, Cell(m.robot.homeX, m.robot.homeY));
    ghost var g1 := m.arena.View();
    m.robot.DropMarker();
    assert m.arena.View() == g1;
  }

  /** The robot stands on its home cell. */
  predicate Home(m: Maze)
    reads m.robot
  {
    m.robot.x == m.robot.homeX && m.robot.y == m.robot.homeY
  }

  /** solve_maze, with the missing-marker check made effective (see
      `OutOfRangeMarkerRead`): for a maze that validates and holds only the
      four tile kinds, the robot collects markers while it carries fewer than
      the settings list and a marker can be reached, then heads home. `exit`
      is the state the collecting loop leaves: the loop has finished there,
      the robot is valid in an arena that stays connected, its load counts
      every marker cleared since the start, and it stands on no marker when
      it did not start on one. From there the robot reaches home when a path
      leads there and otherwise stays. The robot only ever clears markers; it ends at home
      with nothing carried, or where no path leads home. A maze that does not
      validate is left as it is. */
  method SolveMaze(m: Maze?) returns (ghost exit: (RobotState, Grid))
    requires m != null ==> m.Wf() && KnownTiles(m.arena.View())
    modifies if m == null then {} else {m.robot as object, m.arena.grid as object}
    ensures m != null && old(MazeValid(m)) ==>
              && IsValidRobot(m.robot.State(), m.arena.View())
              && Collected(old(m.arena.View()), m.arena.View())
              && (Home(m) || !Connected(m.arena.View(), Search, Cell(m.robot.x, m.robot.y), Cell(m.robot.homeX, m.robot.homeY)))
              && (Home(m) && Tile(m.arena.View(), m.robot.homeX, m.robot.homeY) == EMPTY ==> m.robot.markerCount == 0)
    ensures m != null && old(MazeValid(m)) ==>
              && SettingsValid(m.settings)
              && Finished(m.settings, exit.1, exit.0)
              && IsValidRobot(exit.0, exit.1) && KnownTiles(exit.1) && AllConnected(exit.1)
              && Loaded(old(m.robot.State()), old(m.arena.View()), exit.0, exit.1)
              && (old(Tile(m.arena.View(), m.robot.x, m.robot.y)) != MARKER ==> Tile(exit.1, exit.0.x, exit.0.y) != MARKER)
              && (old(Open(m.arena.View(), Cell(m.robot.x, m.robot.y), Traversal)) ==> Open(exit.1, Cell(exit.0.x, exit.0.y), Traversal))
              && (old(Tile(m.arena.View(), m.robot.x, m.robot.y)) == EMPTY ==>
                    || exit.0.markerCount as int >= m.settings.markers.count
                    || Nearest(m.settings.markers, exit.1, exit.0.x, exit.0.y, m.settings.markers.count).0 == NO_MARKER)
              && Collected(old(m.arena.View()), exit.1) && Collected(exit.1, m.arena.View())
              && exit.0.homeX == m.robot.homeX && exit.0.homeY == m.robot.homeY
              && (if Connected(exit.1, Search, Cell(exit.0.x, exit.0.y), Cell(exit.0.homeX, exit.0.homeY))
                  then Home(m)
                  else m.robot.State() == exit.0 && m.arena.View() == exit.1)
    ensures m != null && !old(MazeValid(m)) ==>
              m.robot.State() == old(m.robot.State()) && m.arena.View() == old(m.arena.View())
  {
    exit := if m == null then (RobotState(0, 0, 0, 0, 0, 0), Blank(0, 0)) else (m.robot.State(), m.arena.View());
    var ok := ValidateMaze(m);
    if !ok {
      return;
    }
    ghost var g0 := m.arena.View();
    CollectMarkers(m);
    exit := (m.robot.State(), m.arena.View());
    ReturnHome(m);
    CollectedTrans(g0, exit.1, m.arena.View());
  }

  /** The check solve_maze makes on the index, as written: an unsigned index
      is never below zero, so it never fires. */
  predicate NoMarkerGuardAsWritten(index: nat)
  {
    index < 0
  }

  /** The settings of the counterexample below: a 3 x 1 arena, two marker
      entries both at (2, 0), home (0, 0), start (1, 0), facing right. */
  const Twice: Settings := Settings(3, 1, 1, Coords(2, Some([2, 2]), Some([0, 0])),
                                    Coords(0, None, None), Coords(0, None, None), 0, 0, 1, 0, RIGHT as nat)

  lemma TwiceValid()
    ensures AllReadable(Twice) && SettingsValid(Twice)
  {
    assert Placeable(Twice, At(Twice.markers, 0)) && Placeable(Twice, At(Twice.markers, 1));
  }

  /** Both entries stamp the same cell, so the built arena holds one Marker tile. */
  lemma TwiceGrid()
    ensures AllReadable(Twice) && SettingsValid(Twice)
    ensures MazeGrid(Twice) == RawGrid(3, 1, [EMPTY, EMPTY, MARKER])
  {
    TwiceValid();
    var c := Twice.markers;
    assert Blank(3, 1).cells == [EMPTY, EMPTY, EMPTY];
    var g1 := RawGrid(3, 1, [EMPTY, EMPTY, MARKER]);
    assert Stamp(Blank(3, 1), c, MARKER, 1) == g1 by {
      assert Stamp(Blank(3, 1), c, MARKER, 0) == Blank(3, 1);
      assert At(c, 0) == Cell(2, 0);
    }
    assert Stamp(Blank(3, 1), c, MARKER, 2) == g1 by {
      assert At(c, 1) == Cell(2, 0);
    }
  }

  /** The robot and the arena after one step right from the start. */
  function TwiceAfter(): (RobotState, Grid)
    requires AllReadable(Twice) && SettingsValid(Twice)
  {
    Step((RobotState(1, 0, 0, 0, RIGHT, 0), MazeGrid(Twice)), RIGHT)
  }

  /** One step right from an Empty (1, 0) lands on a Marker at (2, 0) and picks it up. */
  lemma StepOntoMarker(g: Grid)
    requires Tile(g, 1, 0) == EMPTY && Tile(g, 2, 0) == MARKER
    ensures AtMarker(RobotState(2, 0, 0, 0, RIGHT, 0), g)
    ensures Step((RobotState(1, 0, 0, 0, RIGHT, 0), g), RIGHT) == PickUp(RobotState(2, 0, 0, 0, RIGHT, 0), g)
  {
    var r := RobotState(1, 0, 0, 0, RIGHT, 0);
    var r2 := RobotState(2, 0, 0, 0, RIGHT, 0);
    assert Forward(Face(r, g, RIGHT), g) == r2 by {
      assert Face(r, g, RIGHT) == r;
    }
    assert AtMarker(r2, g);
  }

  /** The built arena reads Empty at the start (1, 0) and Marker at (2, 0). */
  lemma TwiceTiles()
    ensures Tile(RawGrid(3, 1, [EMPTY, EMPTY, MARKER]), 1, 0) == EMPTY
    ensures Tile(RawGrid(3, 1, [EMPTY, EMPTY, MARKER]), 2, 0) == MARKER
  {
    assert Index(3, 1, 1, 0) == 1 && Index(3, 1, 2, 0) == 2;
  }

  /** One step right from the start collects that marker and leaves no Marker tile. */
  lemma TwiceStep()
    ensures AllReadable(Twice) && SettingsValid(Twice)
    ensures TwiceAfter().0.x == 2 && TwiceAfter().0.y == 0 && TwiceAfter().0.markerCount == 1
    ensures Tile(TwiceAfter().1, 2, 0) == EMPTY
  {
    TwiceGrid();
    var g: Grid := RawGrid(3, 1, [EMPTY, EMPTY, MARKER]);
    TwiceTiles();
    StepOntoMarker(g);
    var p := PickUp(RobotState(2, 0, 0, 0, RIGHT, 0), g);
    assert TwiceAfter() == p;
    ModSmall(1, 256);
    assert p.0.markerCount == 1 && Tile(p.1, 2, 0) == EMPTY;
  }

  /** The loop goes on while the robot carries fewer markers than the
      settings list, but a listed cell can be stamped twice (or overwritten
      by an obstacle), so the Marker tiles can run out first. With the
      settings above, one step right collects the only marker; the robot then
      carries 1 < 2, the nearest-marker scan finds nothing and reports
      UINT_MAX, the guard as written lets it through, and the next line reads
      entry UINT_MAX of a two-entry array. */
  lemma OutOfRangeMarkerRead()
    ensures AllReadable(Twice) && SettingsValid(Twice)
    ensures var p := TwiceAfter();
            && p.0.markerCount as int < Twice.markers.count
            && Nearest(Twice.markers, p.1, p.0.x, p.0.y, Twice.markers.count).0 == NO_MARKER
            && !NoMarkerGuardAsWritten(NO_MARKER)
            && NO_MARKER >= |Twice.markers.xs.value|
  {
    TwiceStep();
    var p := TwiceAfter();
    assert At(Twice.markers, 0) == Cell(2, 0) && At(Twice.markers, 1) == Cell(2, 0);
    assert Nearest(Twice.markers, p.1, 2, 0, 1).0 == NO_MARKER;
  }
}

=== FILE: minheap.dfy ===
/**
 * The open list of the path search: a binary min-heap of node references
 * ordered by the nodes' f cost, stored in a growable array. Every stored
 * node records its own slot in `heapIndex`, so a node can be found again
 * without a search when its cost drops.
 *
 * The nodes live in a `NodePool`; the heap holds only references to them and
 * writes their `heapIndex` (and, for a decrease, their `f`) fields.
 */
module MinHeaps {
  import opened Basics
  import opened DynamicArrays
  import opened HeapOrder

  /** Every stored reference names an allocated node. */
  ghost predicate InPool(ids: seq<NodeId>, nodes: seq<Node>)
  {
    forall k :: 0 <= k < |ids| ==> ids[k] < |nodes|
  }

  /** The f costs of the stored nodes, slot by slot. */
  ghost function Keys(ids: seq<NodeId>, nodes: seq<Node>): (s: seq<nat>)
    requires InPool(ids, nodes)
    ensures |s| == |ids| && forall k :: 0 <= k < |ids| ==> s[k] == nodes[ids[k]].f
  {
    seq(|ids|, k requires 0 <= k < |ids| => nodes[ids[k]].f)
  }

  /** Each stored node records the slot that holds it. */
  ghost predicate Placed(ids: seq<NodeId>, nodes: seq<Node>)
    requires InPool(ids, nodes)
  {
    forall k :: 0 <= k < |ids| ==> nodes[ids[k]].heapIndex == k
  }

  /** A well-formed open list over `nodes`. */
  ghost predicate IsHeap(ids: seq<NodeId>, nodes: seq<Node>)
  {
    InPool(ids, nodes) && HeapOrdered(Keys(ids, nodes)) && Placed(ids, nodes)
  }

  /** Between the two pool states only `heapIndex` fields changed. */
  ghost predicate SlotsOnlyChanged(before: seq<Node>, after: seq<Node>)
  {
    |after| == |before| &&
    forall id :: 0 <= id < |before| ==> after[id] == before[id].(heapIndex := after[id].heapIndex)
  }

  lemma SlotsOnlyChangedTrans(a: seq<Node>, b: seq<Node>, c: seq<Node>)
    requires SlotsOnlyChanged(a, b) && SlotsOnlyChanged(b, c)
    ensures SlotsOnlyChanged(a, c)
  {
    forall id | 0 <= id < |a|
      ensures c[id] == a[id].(heapIndex := c[id].heapIndex)
    {
      assert b[id] == a[id].(heapIndex := b[id].heapIndex);
      assert c[id] == b[id].(heapIndex := c[id].heapIndex);
    }
  }

  /** Since slots record their positions, a node is stored at most once. */
  lemma PlacedDistinct(ids: seq<NodeId>, nodes: seq<Node>, i: nat, j: nat)
    requires InPool(ids, nodes) && Placed(ids, nodes)
    requires i < |ids| && j < |ids| && i != j
    ensures ids[i] != ids[j]
  {
  }

  /** Every stored node has f at least m. */
  ghost predicate AtLeast(ids: seq<NodeId>, nodes: seq<Node>, m: nat)
    requires InPool(ids, nodes)
  {
    forall k :: 0 <= k < |ids| ==> m <= nodes[ids[k]].f
  }

  /** mh_extract_min's first half: the root holds a least f; with the last
      entry moved to the root and the last slot dropped, the remaining entries
      are the others, placed, and ordered except below the root. */
  lemma RemoveRoot(ids: seq<NodeId>, nodes: seq<Node>, rest: seq<NodeId>, nodes': seq<Node>)
    requires IsHeap(ids, nodes) && 0 < |ids|
    requires rest == ids[0 := ids[|ids| - 1]][..|ids| - 1]
    requires nodes' == nodes[ids[|ids| - 1] := nodes[ids[|ids| - 1]].(heapIndex := 0)]
    ensures InPool(rest, nodes') && Placed(rest, nodes') && OrderedExceptBelow(Keys(rest, nodes'), 0)
    ensures SlotsOnlyChanged(nodes, nodes')
    ensures multiset(rest) + multiset{ids[0]} == multiset(ids) && ids[0] !in rest
    ensures AtLeast(ids, nodes, nodes[ids[0]].f) && AtLeast(rest, nodes', nodes[ids[0]].f)
  {
    RemoveRootPlaced(ids, nodes, rest, nodes');
    RemoveRootContents(ids, nodes, rest);
    RemoveRootOrder(ids, nodes, rest, nodes');
  }

  lemma {:induction false} RemoveRootPlaced(ids: seq<NodeId>, nodes: seq<Node>, rest: seq<NodeId>, nodes': seq<Node>)
    requires InPool(ids, nodes) && Placed(ids, nodes) && 0 < |ids|
    requires rest == ids[0 := ids[|ids| - 1]][..|ids| - 1]
    requires nodes' == nodes[ids[|ids| - 1] := nodes[ids[|ids| - 1]].(heapIndex := 0)]
    ensures InPool(rest, nodes') && Placed(rest, nodes') && SlotsOnlyChanged(nodes, nodes')
  {
    var n := |ids|;
    forall k | 0 <= k < n - 1
      ensures nodes'[rest[k]].heapIndex == k
    {
      if 0 < k {
        PlacedDistinct(ids, nodes, k, n - 1);
      }
    }
  }

  lemma {:induction false} RemoveRootContents(ids: seq<NodeId>, nodes: seq<Node>, rest: seq<NodeId>)
    requires InPool(ids, nodes) && Placed(ids, nodes) && 0 < |ids|
    requires rest == ids[0 := ids[|ids| - 1]][..|ids| - 1]
    ensures multiset(rest) + multiset{ids[0]} == multiset(ids) && ids[0] !in rest
  {
    var n := |ids|;
    MoveLastKeepsOthers(ids);
    forall k | 0 <= k < n - 1
      ensures rest[k] != ids[0]
    {
      PlacedDistinct(ids, nodes, 0, if k == 0 then n - 1 else k);
    }
  }

  lemma {:induction false} RemoveRootOrder(ids: seq<NodeId>, nodes: seq<Node>, rest: seq<NodeId>, nodes': seq<Node>)
    requires InPool(ids, nodes) && HeapOrdered(Keys(ids, nodes)) && 0 < |ids|
    requires rest == ids[0 := ids[|ids| - 1]][..|ids| - 1]
    requires nodes' == nodes[ids[|ids| - 1] := nodes[ids[|ids| - 1]].(heapIndex := 0)]
    ensures InPool(rest, nodes') && OrderedExceptBelow(Keys(rest, nodes'), 0)
    ensures AtLeast(ids, nodes, nodes[ids[0]].f) && AtLeast(rest, nodes', nodes[ids[0]].f)
  {
    var n := |ids|;
    var ks := Keys(ids, nodes);
    forall k | 0 <= k < n
      ensures ks[0] <= ks[k]
    {
      RootIsMin(ks, k);
    }
    assert Keys(rest, nodes') == ks[0 := ks[n - 1]][..n - 1];
    MoveLastBreaksBelow(ks);
  }

  /** mh_insert's first half: the appended node, recording the new last slot,
      leaves the entries placed and ordered except above that slot. */
  lemma {:induction false} AppendPlaced(ids: seq<NodeId>, nodes: seq<Node>, value: NodeId, nodes': seq<Node>)
    requires IsHeap(ids, nodes) && value < |nodes| && value !in ids
    requires nodes' == nodes[value := nodes[value].(heapIndex := |ids|)]
    ensures InPool(ids + [value], nodes') && Placed(ids + [value], nodes')
    ensures OrderedExceptAbove(Keys(ids + [value], nodes'), |ids|)
    ensures SlotsOnlyChanged(nodes, nodes')
  {
    var ks := Keys(ids, nodes);
    assert Keys(ids + [value], nodes') == ks + [nodes[value].f];
    AppendBreaksAbove(ks, nodes[value].f);
  }

  /** A lower bound on the f of every entry survives a reordering that changes only slots. */
  lemma LowerBoundKept(rest: seq<NodeId>, fin: seq<NodeId>, nodes: seq<Node>, nodes': seq<Node>, m: nat)
    requires InPool(rest, nodes) && SlotsOnlyChanged(nodes, nodes') && multiset(fin) == multiset(rest)
    requires AtLeast(rest, nodes, m)
    ensures InPool(fin, nodes') && AtLeast(fin, nodes', m)
  {
    forall k | 0 <= k < |fin|
      ensures fin[k] < |nodes| && m <= nodes'[fin[k]].f
    {
      assert fin[k] in multiset(rest);
      var j :| 0 <= j < |rest| && rest[j] == fin[k];
    }
  }

  class MinHeap {
    const data: DynamicArray

    ghost predicate Valid()
      reads this, data
    {
      data.Valid()
    }

    /** The stored references, slot by slot. */
    function Elements(): (s: seq<NodeId>)
      reads this, data, data.buf
      requires Valid()
      ensures |s| == data.size
    {
      data.Elements()
    }

    /** create_min_heap for a nonzero initial capacity. */
    constructor (initialCapacity: nat)
      requires initialCapacity > 0
      ensures Valid() && fresh(data) && fresh(data.buf) && Elements() == []
    {
      data := new DynamicArray(initialCapacity);
    }

    /** swap_nodes on slots i and j: the references trade places and each
        node's heapIndex follows it to its new slot. */
    method SwapNodes(pool: NodePool, i: nat, j: nat)
      requires Valid() && i < data.size && j < data.size && i != j
      requires InPool(Elements(), pool.nodes) && Placed(Elements(), pool.nodes)
      modifies data.buf, pool
      ensures Valid() && data.size == old(data.size)
      ensures Elements() == Swap(old(Elements()), i, j)
      ensures InPool(Elements(), pool.nodes) && Placed(Elements(), pool.nodes)
      ensures SlotsOnlyChanged(old(pool.nodes), pool.nodes)
      ensures Keys(Elements(), pool.nodes) == Swap(old(Keys(Elements(), pool.nodes)), i, j)
    {
      ghost var ids := Elements();
      PlacedDistinct(ids, pool.nodes, i, j);
      var x := data.buf[i];
      var y := data.buf[j];
      data.buf[i] := y;
      data.buf[j] := x;
      var tempIndex := pool.nodes[y].heapIndex;
      pool.SetHeapIndex(y, pool.nodes[x].heapIndex);
      pool.SetHeapIndex(x, tempIndex);
      assert Elements() == Swap(ids, i, j);
      forall k | 0 <= k < |ids| && k != i && k != j
        ensures pool.nodes[Elements()[k]].heapIndex == k
      {
        PlacedDistinct(ids, old(pool.nodes), k, i);
        PlacedDistinct(ids, old(pool.nodes), k, j);
      }
    }

    /** The sift-up loop of mh_insert and mh_decrease_key: while slot i holds a
        smaller f than its parent, swap the two and continue from the parent. */
    method SiftUp(pool: NodePool, start: nat)
      requires Valid() && InPool(Elements(), pool.nodes) && Placed(Elements(), pool.nodes)
      requires OrderedExceptAbove(Keys(Elements(), pool.nodes), start)
      modifies data.buf, pool
      ensures Valid() && data.size == old(data.size) && IsHeap(Elements(), pool.nodes)
      ensures multiset(Elements()) == old(multiset(Elements()))
      ensures SlotsOnlyChanged(old(pool.nodes), pool.nodes)
    {
      var i := start;
      while i != 0 && pool.nodes[data.buf[ParentIndex(i)]].f > pool.nodes[data.buf[i]].f
        invariant Valid() && data.size == old(data.size)
        invariant InPool(Elements(), pool.nodes) && Placed(Elements(), pool.nodes)
        invariant OrderedExceptAbove(Keys(Elements(), pool.nodes), i)
        invariant multiset(Elements()) == old(multiset(Elements()))
        invariant SlotsOnlyChanged(old(pool.nodes), pool.nodes)
        decreases i
      {
        ghost var ids := Elements();
        ghost var ks := Keys(ids, pool.nodes);
        ghost var before := pool.nodes;
        var p := ParentIndex(i);
        assert ks[p] > ks[i];
        SiftUpStep(ks, i);
        SwapKeepsMultiset(ids, i, p);
        SwapNodes(pool, i, p);
        SlotsOnlyChangedTrans(old(pool.nodes), before, pool.nodes);
        i := p;
      }
      ghost var ks := Keys(Elements(), pool.nodes);
      assert i == 0 || ks[ParentIndex(i)] <= ks[i];
      SiftUpDone(ks, i);
    }

    /** min_heapify: sift the entry at slot i down below any smaller child,
        given that the order holds everywhere else. */
    method MinHeapify(pool: NodePool, i: nat)
      requires Valid() && InPool(Elements(), pool.nodes) && Placed(Elements(), pool.nodes)
      requires OrderedExceptBelow(Keys(Elements(), pool.nodes), i)
      modifies data.buf, pool
      ensures Valid() && data.size == old(data.size) && IsHeap(Elements(), pool.nodes)
      ensures multiset(Elements()) == old(multiset(Elements()))
      ensures SlotsOnlyChanged(old(pool.nodes), pool.nodes)
      decreases data.size - i
    {
      var smallest := i;
      var l := LeftIndex(i);
      var r := RightIndex(i);
      if l < data.size && pool.nodes[data.buf[l]].f < pool.nodes[data.buf[smallest]].f {
        smallest := l;
      }
      if r < data.size && pool.nodes[data.buf[r]].f < pool.nodes[data.buf[smallest]].f {
        smallest := r;
      }
      ghost var ks := Keys(Elements(), pool.nodes);
      if smallest != i {
        forall k | 0 < k < |ks| && ParentIndex(k) == i
          ensures ks[smallest] <= ks[k]
        {
          ChildrenOf(i, k);
        }
        SiftDownStep(ks, i, smallest);
        SwapKeepsMultiset(Elements(), i, smallest);
        ghost var before := pool.nodes;
        SwapNodes(pool, i, smallest);
        MinHeapify(pool, smallest);
        SlotsOnlyChangedTrans(old(pool.nodes), before, pool.nodes);
      } else {
        forall k | 0 < k < |ks| && ParentIndex(k) == i
          ensures ks[i] <= ks[k]
        {
          ChildrenOf(i, k);
        }
        SiftDownDone(ks, i);
      }
    }

    /** mh_insert: append the node, record its slot, and sift it up. */
    method Insert(pool: NodePool, value: NodeId)
      requires Valid() && IsHeap(Elements(), pool.nodes)
      requires value < |pool.nodes| && value !in Elements()
      modifies data, data.buf, pool
      ensures Valid() && IsHeap(Elements(), pool.nodes)
      ensures data.buf == old(data.buf) || fresh(data.buf)
      ensures data.size == old(data.size) + 1
      ensures multiset(Elements()) == old(multiset(Elements())) + multiset{value}
      ensures SlotsOnlyChanged(old(pool.nodes), pool.nodes)
    {
      ghost var ids := Elements();
      data.AddElement(Some(value));
      var i := data.size - 1;
      pool.SetHeapIndex(value, i);
      AppendPlaced(ids, old(pool.nodes), value, pool.nodes);
      ghost var before := pool.nodes;
      SiftUp(pool, i);
      SlotsOnlyChangedTrans(old(pool.nodes), before, pool.nodes);
    }

    /** mh_extract_min: None on an empty heap; otherwise the root, a node of
        least f, which leaves the heap; the last entry takes its place and
        sifts down. */
    method ExtractMin(pool: NodePool) returns (root: Option<NodeId>)
      requires Valid() && IsHeap(Elements(), pool.nodes)
      modifies data, data.buf, pool
      ensures Valid() && IsHeap(Elements(), pool.nodes)
      ensures data.buf == old(data.buf)
      ensures SlotsOnlyChanged(old(pool.nodes), pool.nodes)
      ensures old(data.size) == 0 ==> root == None && Elements() == old(Elements())
      ensures old(data.size) > 0 ==>
                && root == Some(old(Elements())[0])
                && data.size == old(data.size) - 1
                && multiset(Elements()) + multiset{root.value} == old(multiset(Elements()))
      ensures root.Some? ==> root.value < |pool.nodes| && root.value !in Elements()
      ensures root.Some? ==> AtLeast(old(Elements()), old(pool.nodes), pool.nodes[root.value].f)
      ensures root.Some? ==> AtLeast(Elements(), pool.nodes, pool.nodes[root.value].f)
    {
      if data.size <= 0 {
        return None;
      }
      ghost var ids := Elements();
      ghost var n := data.size;
      root := Some(data.buf[0]);
      var last := data.buf[data.size - 1];
      data.buf[0] := last;
      pool.SetHeapIndex(last, 0);
      data.size := data.size - 1;
      assert Elements() == ids[0 := ids[n - 1]][..n - 1];
      RemoveRoot(ids, old(pool.nodes), Elements(), pool.nodes);
      ghost var before := pool.nodes;
      ghost var remaining := Elements();
      MinHeapify(pool, 0);
      SlotsOnlyChangedTrans(old(pool.nodes), before, pool.nodes);
      LowerBoundKept(remaining, Elements(), before, pool.nodes, old(pool.nodes)[root.value].f);
      assert root.value !in multiset(remaining);
      assert root.value !in multiset(Elements());
    }

    /** mh_decrease_key: no change for an index past the end; otherwise the
        node at `index` gets cost newF and sifts up. The caller may already have
        written newF into the node (the search does), so what is required is
        that the order holds once slot `index` carries newF, except above it. */
    method DecreaseKey(pool: NodePool, index: nat, newF: nat)
      requires Valid() && InPool(Elements(), pool.nodes) && Placed(Elements(), pool.nodes)
      requires index >= data.size ==> HeapOrdered(Keys(Elements(), pool.nodes))
      requires index < data.size ==> OrderedExceptAbove(Keys(Elements(), pool.nodes)[index := newF], index)
      modifies data.buf, pool
      ensures Valid() && data.size == old(data.size) && IsHeap(Elements(), pool.nodes)
      ensures multiset(Elements()) == old(multiset(Elements()))
      ensures index >= data.size ==> pool.nodes == old(pool.nodes) && Elements() == old(Elements())
      ensures index < data.size ==>
                SlotsOnlyChanged(old(pool.nodes)[old(Elements()[index]) := old(pool.nodes[Elements()[index]]).(f := newF)],
                                 pool.nodes)
    {
      if index >= data.size {
        return;
      }
      ghost var ks := Keys(Elements(), pool.nodes);
      pool.SetF(data.buf[index], newF);
      assert Keys(Elements(), pool.nodes) == ks[index := newF];
      SiftUp(pool, index);
    }
  }

  /** create_min_heap: no heap for capacity 0. */
  method CreateMinHeap(initialCapacity: nat) returns (heap: MinHeap?)
    ensures heap == null <==> initialCapacity == 0
    ensures heap != null ==> fresh(heap) && fresh(heap.data) && fresh(heap.data.buf) && heap.Valid() && heap.Elements() == []
  {
    if initialCapacity == 0 {
      return null;
    }
    heap := new MinHeap(initialCapacity);
  }
}

=== FILE: pathfinder.dfy ===
/**
 * A* search over the arena, and the conversion of a found path into the
 * headings the robot follows.
 *
 * The search keeps a table from cells to their nodes (a map here, a
 * width x height matrix of node addresses in the program), a closed set of
 * expanded cells, and the open list as a `MinHeap` ordered by f = g + h.
 * Nodes live in a `NodePool`; a node's parent is the node it was reached
 * from, so the path found is read back by following parent links.
 */
module Pathfinder {
  import opened Basics
  import opened Grids
  import opened Walks
  import opened DynamicArrays
  import opened HeapOrder
  import opened MinHeaps

  /** heuristic: the Manhattan distance between (x1, y1) and (x2, y2). */
  function Heuristic(x1: int, y1: int, x2: int, y2: int): (d: nat)
    ensures d == 0 <==> x1 == x2 && y1 == y2
  {
    Abs(x1 - x2) + Abs(y1 - y2)
  }

  /** One step changes the estimate by at most one (the heuristic is consistent). */
  lemma HeuristicConsistent(a: Cell, b: Cell, goal: Cell)
    requires Adjacent(a, b)
    ensures Heuristic(a.x, a.y, goal.x, goal.y) <= Heuristic(b.x, b.y, goal.x, goal.y) + 1
  {
  }

  /** No walk is shorter than the estimate between its ends (the heuristic is admissible). */
  lemma {:induction false} HeuristicAdmissible(g: Grid, rule: Rule, w: seq<Cell>)
    requires IsWalk(g, rule, w)
    ensures Heuristic(w[0].x, w[0].y, Last(w).x, Last(w).y) <= |w| - 1
    decreases |w|
  {
    if 1 < |w| {
      var w' := w[..|w| - 1];
      assert IsWalk(g, rule, w');
      HeuristicAdmissible(g, rule, w');
      HeuristicConsistent(Last(w), Last(w'), w[0]);
    }
  }

  function CellOf(n: Node): Cell
  {
    Cell(n.x, n.y)
  }

  /** Parent links end at a node without a parent, and each link lowers g by one. */
  ghost predicate ChainWf(nodes: seq<Node>)
  {
    forall id :: 0 <= id < |nodes| ==> LinkWf(nodes, id)
  }

  /** The parent link of one node: absent at g = 0, otherwise to a node one lower in g. */
  ghost predicate LinkWf(nodes: seq<Node>, id: NodeId)
    requires id < |nodes|
  {
    match nodes[id].parent
    case None => nodes[id].g == 0
    case Some(p) => p < |nodes| && nodes[p].g + 1 == nodes[id].g
  }

  /** The cells on the parent chain of a node, from the chain's first node to the node itself. */
  ghost function Chain(nodes: seq<Node>, id: NodeId): (w: seq<Cell>)
    requires ChainWf(nodes) && id < |nodes|
    ensures |w| == nodes[id].g + 1 && Last(w) == CellOf(nodes[id])
    decreases nodes[id].g
  {
    assert LinkWf(nodes, id);
    match nodes[id].parent
    case None => [CellOf(nodes[id])]
    case Some(p) => Chain(nodes, p) + [CellOf(nodes[id])]
  }

  /** The search's node table: each cell maps to the one node for it. */
  ghost predicate Tabled(nodes: seq<Node>, table: map<Cell, NodeId>)
  {
    && (forall c :: c in table ==> table[c] < |nodes| && CellOf(nodes[table[c]]) == c)
    && (forall id :: 0 <= id < |nodes| ==> CellOf(nodes[id]) in table && table[CellOf(nodes[id])] == id)
  }

  /** Every node's h is the estimate to the goal and its f is g + h. */
  ghost predicate Costed(nodes: seq<Node>, goal: Cell)
  {
    forall id :: 0 <= id < |nodes| ==>
      nodes[id].h == Heuristic(nodes[id].x, nodes[id].y, goal.x, goal.y) && nodes[id].f == nodes[id].g + nodes[id].h
  }

  /** Every node is on the grid; the start node has no parent and g = 0; any
      other node is an open cell next to its parent, which is expanded, and
      has g one more than its parent. */
  ghost predicate Linked(nodes: seq<Node>, grid: Grid, start: Cell, closed: set<Cell>)
  {
    forall id :: 0 <= id < |nodes| ==> LinkedAt(nodes, grid, start, closed, id)
  }

  ghost predicate LinkedAt(nodes: seq<Node>, grid: Grid, start: Cell, closed: set<Cell>, id: NodeId)
    requires id < |nodes|
  {
    && InBounds(grid, nodes[id].x, nodes[id].y)
    && match nodes[id].parent
       case None => CellOf(nodes[id]) == start && nodes[id].g == 0
       case Some(p) =>
         && p < |nodes| && nodes[p].g + 1 == nodes[id].g
         && CellOf(nodes[p]) in closed
         && Adjacent(CellOf(nodes[p]), CellOf(nodes[id]))
         && Open(grid, CellOf(nodes[id]), Search)
  }

  /** The open list holds exactly the nodes whose cells are not yet expanded. */
  ghost predicate Listed(nodes: seq<Node>, open: multiset<NodeId>, closed: set<Cell>)
  {
    && (forall id :: id in open ==> id < |nodes|)
    && (forall id :: 0 <= id < |nodes| ==> (id in open <==> CellOf(nodes[id]) !in closed))
  }

  /** The search's invariant, apart from the heap order and the neighbour closure. */
  ghost predicate SearchCore(grid: Grid, start: Cell, goal: Cell, nodes: seq<Node>, open: multiset<NodeId>,
                             table: map<Cell, NodeId>, closed: set<Cell>)
  {
    && Tabled(nodes, table) && Costed(nodes, goal) && Linked(nodes, grid, start, closed)
    && Listed(nodes, open, closed) && closed <= table.Keys && start in table
  }

  /** Linked nodes form well-founded chains. */
  lemma LinkedChains(nodes: seq<Node>, grid: Grid, start: Cell, closed: set<Cell>)
    requires Linked(nodes, grid, start, closed)
    ensures ChainWf(nodes)
  {
    forall id | 0 <= id < |nodes|
      ensures LinkWf(nodes, id)
    {
      assert LinkedAt(nodes, grid, start, closed, id);
    }
  }

  /** The chain of every linked node is a walk from the start to that node. */
  lemma {:induction false} ChainIsWalk(nodes: seq<Node>, grid: Grid, start: Cell, closed: set<Cell>, id: NodeId)
    requires Linked(nodes, grid, start, closed) && id < |nodes|
    ensures ChainWf(nodes)
    ensures IsWalk(grid, Search, Chain(nodes, id)) && Chain(nodes, id)[0] == start
    decreases nodes[id].g
  {
    LinkedChains(nodes, grid, start, closed);
    assert LinkedAt(nodes, grid, start, closed, id);
    match nodes[id].parent
    case None =>
    case Some(p) =>
      ChainIsWalk(nodes, grid, start, closed, p);
      var u := Chain(nodes, p);
      var w := Chain(nodes, id);
      assert w == u + [CellOf(nodes[id])];
      forall i | 0 < i < |w|
        ensures Open(grid, w[i], Search) && Adjacent(w[i - 1], w[i])
      {
        if i < |u| {
          assert w[i] == u[i] && w[i - 1] == u[i - 1];
        } else {
          assert w[i - 1] == Last(u);
        }
      }
  }

  /** Only heap slots changed: the search invariant still holds. */
  lemma SlotsKeep(grid: Grid, start: Cell, goal: Cell, nodes: seq<Node>, nodes': seq<Node>,
                  open: multiset<NodeId>, table: map<Cell, NodeId>, closed: set<Cell>)
    requires SearchCore(grid, start, goal, nodes, open, table, closed)
    requires SlotsOnlyChanged(nodes, nodes')
    ensures SearchCore(grid, start, goal, nodes', open, table, closed)
  {
    forall id | 0 <= id < |nodes|
      ensures CellOf(nodes'[id]) == CellOf(nodes[id]) && nodes'[id].g == nodes[id].g
      ensures nodes'[id].h == nodes[id].h && nodes'[id].f == nodes[id].f && nodes'[id].parent == nodes[id].parent
    {
      assert nodes'[id] == nodes[id].(heapIndex := nodes'[id].heapIndex);
    }
    forall id | 0 <= id < |nodes|
      ensures LinkedAt(nodes', grid, start, closed, id)
    {
      assert LinkedAt(nodes, grid, start, closed, id);
    }
  }

  /** Expanding the node taken from the open list: it leaves the list and its cell becomes closed. */
  lemma ExtractKeeps(grid: Grid, start: Cell, goal: Cell, nodes: seq<Node>, open: multiset<NodeId>,
                     open': multiset<NodeId>, table: map<Cell, NodeId>, closed: set<Cell>, root: NodeId)
    requires SearchCore(grid, start, goal, nodes, open, table, closed)
    requires root in open && open' + multiset{root} == open && root !in open'
    ensures root < |nodes| && CellOf(nodes[root]) !in closed && InBounds(grid, nodes[root].x, nodes[root].y)
    ensures SearchCore(grid, start, goal, nodes, open', table, closed + {CellOf(nodes[root])})
  {
    var closed' := closed + {CellOf(nodes[root])};
    assert LinkedAt(nodes, grid, start, closed, root);
    assert Listed(nodes, open', closed') by {
      forall id | id in open'
        ensures id < |nodes|
      {
        assert open[id] == open'[id] + multiset{root}[id];
      }
      forall id | 0 <= id < |nodes|
        ensures id in open' <==> CellOf(nodes[id]) !in closed'
      {
        assert open[id] == open'[id] + multiset{root}[id];
        if id != root {
          assert table[CellOf(nodes[id])] == id && table[CellOf(nodes[root])] == root;
        }
      }
    }
    LinkedMono(nodes, grid, start, closed, closed');
  }

  /** Closing more cells keeps the links. */
  lemma LinkedMono(nodes: seq<Node>, grid: Grid, start: Cell, closed: set<Cell>, closed': set<Cell>)
    requires Linked(nodes, grid, start, closed) && closed <= closed'
    ensures Linked(nodes, grid, start, closed')
  {
    forall id | 0 <= id < |nodes|
      ensures LinkedAt(nodes, grid, start, closed', id)
    {
      assert LinkedAt(nodes, grid, start, closed, id);
    }
  }

  /** A new node for an open, unvisited neighbour of an expanded node keeps the invariant
      once it is in the open list and the table. */
  lemma AddKeeps(grid: Grid, start: Cell, goal: Cell, nodes: seq<Node>, open: multiset<NodeId>,
                 table: map<Cell, NodeId>, closed: set<Cell>, cur: NodeId, c: Cell, node: Node)
    requires SearchCore(grid, start, goal, nodes, open, table, closed)
    requires cur < |nodes| && CellOf(nodes[cur]) in closed
    requires Open(grid, c, Search) && Adjacent(CellOf(nodes[cur]), c) && c !in table
    requires node == CreateNode(c.x, c.y, nodes[cur].g + 1, Heuristic(c.x, c.y, goal.x, goal.y), Some(cur))
    ensures SearchCore(grid, start, goal, nodes + [node], open + multiset{|nodes|}, table[c := |nodes|], closed)
  {
    AddTabled(nodes, table, c, node);
    AddLinked(nodes, grid, start, closed, cur, c, node);
    AddListed(nodes, open, closed, c, node);
    assert Costed(nodes + [node], goal) by {
      forall id | 0 <= id < |nodes| + 1
        ensures (nodes + [node])[id] == if id < |nodes| then nodes[id] else node
      {
      }
    }
  }

  lemma AddTabled(nodes: seq<Node>, table: map<Cell, NodeId>, c: Cell, node: Node)
    requires Tabled(nodes, table) && c !in table && CellOf(node) == c
    ensures Tabled(nodes + [node], table[c := |nodes|])
  {
    var nodes' := nodes + [node];
    var table' := table[c := |nodes|];
    forall id | 0 <= id < |nodes'|
      ensures CellOf(nodes'[id]) in table' && table'[CellOf(nodes'[id])] == id
    {
      if id < |nodes| {
        assert nodes'[id] == nodes[id];
      }
    }
    forall d | d in table'
      ensures table'[d] < |nodes'| && CellOf(nodes'[table'[d]]) == d
    {
      if d != c {
        assert nodes'[table[d]] == nodes[table[d]];
      }
    }
  }

  lemma AddLinked(nodes: seq<Node>, grid: Grid, start: Cell, closed: set<Cell>, cur: NodeId, c: Cell, node: Node)
    requires Linked(nodes, grid, start, closed)
    requires cur < |nodes| && CellOf(nodes[cur]) in closed
    requires Open(grid, c, Search) && Adjacent(CellOf(nodes[cur]), c)
    requires CellOf(node) == c && node.parent == Some(cur) && node.g == nodes[cur].g + 1
    ensures Linked(nodes + [node], grid, start, closed)
  {
    var nodes' := nodes + [node];
    forall id | 0 <= id < |nodes'|
      ensures LinkedAt(nodes', grid, start, closed, id)
    {
      if id < |nodes| {
        assert LinkedAt(nodes, grid, start, closed, id);
        assert nodes'[id] == nodes[id];
        match nodes[id].parent
        case None =>
        case Some(p) => assert nodes'[p] == nodes[p];
      } else {
        assert nodes'[cur] == nodes[cur];
      }
    }
  }

  lemma AddListed(nodes: seq<Node>, open: multiset<NodeId>, closed: set<Cell>, c: Cell, node: Node)
    requires Listed(nodes, open, closed) && c !in closed && CellOf(node) == c
    ensures Listed(nodes + [node], open + multiset{|nodes|}, closed)
  {
    var nodes' := nodes + [node];
    var open' := open + multiset{|nodes|};
    forall id | id in open'
      ensures id < |nodes'|
    {
      assert open'[id] == open[id] + multiset{|nodes|}[id];
    }
    forall id | 0 <= id < |nodes'|
      ensures id in open' <==> CellOf(nodes'[id]) !in closed
    {
      assert open'[id] == open[id] + multiset{|nodes|}[id];
      if id < |nodes| {
        assert nodes'[id] == nodes[id];
      }
    }
  }

  /** A shorter route to a node that is still open: its new costs and parent keep the invariant. */
  lemma RelaxKeeps(grid: Grid, start: Cell, goal: Cell, nodes: seq<Node>, open: multiset<NodeId>,
                   table: map<Cell, NodeId>, closed: set<Cell>, cur: NodeId, id: NodeId, n: Node)
    requires SearchCore(grid, start, goal, nodes, open, table, closed)
    requires cur < |nodes| && CellOf(nodes[cur]) in closed
    requires id < |nodes| && CellOf(nodes[id]) !in closed
    requires Open(grid, CellOf(nodes[id]), Search) && Adjacent(CellOf(nodes[cur]), CellOf(nodes[id]))
    requires n == nodes[id].(g := n.g, h := n.h, f := n.f, parent := Some(cur))
    requires n.g == nodes[cur].g + 1 && n.h == Heuristic(n.x, n.y, goal.x, goal.y) && n.f == n.g + n.h
    requires n.g < nodes[id].g
    ensures id in open && n.f < nodes[id].f
    ensures SearchCore(grid, start, goal, nodes[id := n], open, table, closed)
  {
    RelaxLinked(nodes, grid, start, closed, cur, id, n);
    SameCells(nodes, id, n, table, open, closed);
    assert Costed(nodes[id := n], goal) by {
      forall k | 0 <= k < |nodes|
        ensures nodes[id := n][k] == if k == id then n else nodes[k]
      {
      }
    }
  }

  /** Re-parenting a node that is not closed onto a closed neighbour keeps the links:
      no node has it as its parent, since parents are closed. */
  lemma RelaxLinked(nodes: seq<Node>, grid: Grid, start: Cell, closed: set<Cell>, cur: NodeId, id: NodeId, n: Node)
    requires Linked(nodes, grid, start, closed)
    requires cur < |nodes| && CellOf(nodes[cur]) in closed
    requires id < |nodes| && CellOf(nodes[id]) !in closed && CellOf(n) == CellOf(nodes[id])
    requires Open(grid, CellOf(n), Search) && Adjacent(CellOf(nodes[cur]), CellOf(n))
    requires n.parent == Some(cur) && n.g == nodes[cur].g + 1
    ensures Linked(nodes[id := n], grid, start, closed)
  {
    var nodes' := nodes[id := n];
    forall k | 0 <= k < |nodes'|
      ensures LinkedAt(nodes', grid, start, closed, k)
    {
      if k != id {
        assert LinkedAt(nodes, grid, start, closed, k);
        assert nodes'[k] == nodes[k];
        match nodes[k].parent
        case None =>
        case Some(p) =>
          assert p != id by {
            assert CellOf(nodes[p]) in closed;
          }
          assert nodes'[p] == nodes[p];
      } else {
        assert cur != id;
        assert nodes'[cur] == nodes[cur];
      }
    }
  }

  /** Replacing a node by one for the same cell keeps the table and the open list. */
  lemma SameCells(nodes: seq<Node>, id: NodeId, n: Node, table: map<Cell, NodeId>, open: multiset<NodeId>, closed: set<Cell>)
    requires id < |nodes| && CellOf(n) == CellOf(nodes[id])
    requires Tabled(nodes, table) && Listed(nodes, open, closed)
    ensures Tabled(nodes[id := n], table) && Listed(nodes[id := n], open, closed)
  {
    var nodes' := nodes[id := n];
    forall k | 0 <= k < |nodes'|
      ensures CellOf(nodes'[k]) == CellOf(nodes[k])
    {
    }
  }

  /** When the open list runs dry before the goal is expanded, every cell
      reachable from the start is closed, so the goal is not reachable. */
  lemma Exhausted(grid: Grid, start: Cell, goal: Cell, nodes: seq<Node>, table: map<Cell, NodeId>, closed: set<Cell>)
    requires SearchCore(grid, start, goal, nodes, multiset{}, table, closed)
    requires ClosedUnder(table.Keys, closed, grid, Search) && goal !in closed
    ensures !Connected(grid, Search, start, goal)
  {
    forall c | c in table
      ensures c in closed
    {
      assert CellOf(nodes[table[c]]) == c;
    }
    assert table.Keys == closed;
    if Connected(grid, Search, start, goal) {
      ConnectedStaysIn(closed, grid, Search, start, goal);
    }
  }

  /** The four neighbour offsets, in the order the search tries them. */
  const NEIGHBOURS: seq<(int, int)> := [(0, 1), (1, 0), (0, -1), (-1, 0)]

  function Neighbour(c: Cell, i: nat): (n: Cell)
    requires i < 4
    ensures Adjacent(c, n)
  {
    Cell(c.x + NEIGHBOURS[i].0, c.y + NEIGHBOURS[i].1)
  }

  /** The open neighbours among the first i offsets of c are in the table. */
  ghost predicate Covered(table: map<Cell, NodeId>, grid: Grid, c: Cell, i: nat)
    requires i <= 4
  {
    forall j :: 0 <= j < i ==> Open(grid, Neighbour(c, j), Search) ==> Neighbour(c, j) in table
  }

  /** Covering one more offset, with a table that only grows. */
  lemma CoveredStep(table: map<Cell, NodeId>, table': map<Cell, NodeId>, grid: Grid, c: Cell, i: nat)
    requires i < 4 && Covered(table, grid, c, i) && table.Keys <= table'.Keys
    requires Open(grid, Neighbour(c, i), Search) ==> Neighbour(c, i) in table'
    ensures Covered(table', grid, c, i + 1)
  {
  }

  /** Once all four offsets are covered, every open neighbour is in the table. */
  lemma AllCovered(table: map<Cell, NodeId>, grid: Grid, c: Cell, closed: set<Cell>)
    requires Covered(table, grid, c, 4) && ClosedUnder(table.Keys, closed - {c}, grid, Search)
    ensures ClosedUnder(table.Keys, closed, grid, Search)
  {
    forall n | Adjacent(c, n) && Open(grid, n, Search)
      ensures n in table
    {
      AdjacentCases(c, n);
      assert n == Neighbour(c, 0) || n == Neighbour(c, 1) || n == Neighbour(c, 2) || n == Neighbour(c, 3);
    }
  }

  /** The loop body of astar_search for one neighbour of the expanded node `cur`:
      skip it when it is off the grid, closed, an obstacle or void; otherwise
      hand it to AddNeighbour or RelaxNeighbour. */
  method Visit(grid: Grid, heap: MinHeap, pool: NodePool, table: map<Cell, NodeId>, closed: set<Cell>,
               cur: NodeId, i: nat, goal: Cell, ghost start: Cell)
    returns (table': map<Cell, NodeId>)
    requires heap.Valid() && i < 4
    requires IsHeap(heap.Elements(), pool.nodes)
    requires SearchCore(grid, start, goal, pool.nodes, multiset(heap.Elements()), table, closed)
    requires cur < |pool.nodes| && CellOf(pool.nodes[cur]) in closed
    modifies heap.data, heap.data.buf, pool
    ensures heap.Valid() && IsHeap(heap.Elements(), pool.nodes)
    ensures heap.data.buf == old(heap.data.buf) || fresh(heap.data.buf)
    ensures SearchCore(grid, start, goal, pool.nodes, multiset(heap.Elements()), table', closed)
    ensures table.Keys <= table'.Keys
    ensures cur < |pool.nodes| && CellOf(pool.nodes[cur]) == old(CellOf(pool.nodes[cur]))
    ensures var n := Neighbour(old(CellOf(pool.nodes[cur])), i);
            Open(grid, n, Search) ==> n in table'
  {
    table' := table;
    var nx := pool.nodes[cur].x + NEIGHBOURS[i].0;
    var ny := pool.nodes[cur].y + NEIGHBOURS[i].1;
    var c := Cell(nx, ny);
    assert c == Neighbour(CellOf(pool.nodes[cur]), i);
    if 0 <= nx < grid.width && 0 <= ny < grid.height && c !in closed {
      var tile := Tile(grid, nx, ny);
      assert Open(grid, c, Search) <==> tile != OBSTACLE && tile != VOID;
      if tile != OBSTACLE && tile != VOID {
        table' := Reach(heap, pool, table, closed, cur, c, grid, goal, start);
      }
    } else {
      assert c in closed || !Open(grid, c, Search);
    }
  }

  /** An open neighbour of `cur` that is not closed: create its node, or
      relax the one it has, at cost one more than `cur`. */
  method Reach(heap: MinHeap, pool: NodePool, table: map<Cell, NodeId>, closed: set<Cell>,
               cur: NodeId, c: Cell, ghost grid: Grid, goal: Cell, ghost start: Cell)
    returns (table': map<Cell, NodeId>)
    requires heap.Valid() && IsHeap(heap.Elements(), pool.nodes)
    requires SearchCore(grid, start, goal, pool.nodes, multiset(heap.Elements()), table, closed)
    requires cur < |pool.nodes| && CellOf(pool.nodes[cur]) in closed
    requires Open(grid, c, Search) && Adjacent(CellOf(pool.nodes[cur]), c) && c !in closed
    modifies heap.data, heap.data.buf, pool
    ensures heap.Valid() && IsHeap(heap.Elements(), pool.nodes)
    ensures heap.data.buf == old(heap.data.buf) || fresh(heap.data.buf)
    ensures SearchCore(grid, start, goal, pool.nodes, multiset(heap.Elements()), table', closed)
    ensures table'.Keys == table.Keys + {c}
    ensures cur < |pool.nodes| && CellOf(pool.nodes[cur]) == old(CellOf(pool.nodes[cur]))
  {
    var g := pool.nodes[cur].g + 1;
    var h := Heuristic(c.x, c.y, goal.x, goal.y);
    if c !in table {
      table' := AddNeighbour(heap, pool, table, closed, cur, c, g, h, grid, goal, start);
    } else {
      RelaxNeighbour(heap, pool, table, closed, cur, c, g, h, grid, goal, start);
      table' := table;
    }
  }

  /** A neighbour without a node: create one, put it in the open list and the table. */
  method AddNeighbour(heap: MinHeap, pool: NodePool, table: map<Cell, NodeId>, closed: set<Cell>,
                      cur: NodeId, c: Cell, g: nat, h: nat, ghost grid: Grid, ghost goal: Cell, ghost start: Cell)
    returns (table': map<Cell, NodeId>)
    requires heap.Valid() && IsHeap(heap.Elements(), pool.nodes)
    requires SearchCore(grid, start, goal, pool.nodes, multiset(heap.Elements()), table, closed)
    requires cur < |pool.nodes| && CellOf(pool.nodes[cur]) in closed
    requires Open(grid, c, Search) && Adjacent(CellOf(pool.nodes[cur]), c) && c !in table
    requires g == pool.nodes[cur].g + 1 && h == Heuristic(c.x, c.y, goal.x, goal.y)
    modifies heap.data, heap.data.buf, pool
    ensures heap.Valid() && IsHeap(heap.Elements(), pool.nodes)
    ensures heap.data.buf == old(heap.data.buf) || fresh(heap.data.buf)
    ensures SearchCore(grid, start, goal, pool.nodes, multiset(heap.Elements()), table', closed)
    ensures table'.Keys == table.Keys + {c}
    ensures cur < |pool.nodes| && CellOf(pool.nodes[cur]) == old(CellOf(pool.nodes[cur]))
  {
    ghost var nodes0 := pool.nodes;
    ghost var open0 := multiset(heap.Elements());
    var node := CreateNode(c.x, c.y, g, h, Some(cur));
    AddKeeps(grid, start, goal, nodes0, open0, table, closed, cur, c, node);
    var id := pool.Add(node);
    table' := table[c := id];
    ghost var nodes1 := pool.nodes;
    assert IsHeap(heap.Elements(), nodes1) by {
      assert Keys(heap.Elements(), nodes1) == Keys(heap.Elements(), nodes0);
    }
    heap.Insert(pool, id);
    SlotsKeep(grid, start, goal, nodes1, pool.nodes, open0 + multiset{id}, table', closed);
    assert pool.nodes[cur] == nodes1[cur].(heapIndex := pool.nodes[cur].heapIndex);
  }

  /** A neighbour that already has a node: when this route is shorter, lower
      its costs, re-parent it to `cur` and restore the heap order. */
  method RelaxNeighbour(heap: MinHeap, pool: NodePool, table: map<Cell, NodeId>, closed: set<Cell>,
                        cur: NodeId, c: Cell, g: nat, h: nat, ghost grid: Grid, ghost goal: Cell, ghost start: Cell)
    requires heap.Valid() && IsHeap(heap.Elements(), pool.nodes)
    requires SearchCore(grid, start, goal, pool.nodes, multiset(heap.Elements()), table, closed)
    requires cur < |pool.nodes| && CellOf(pool.nodes[cur]) in closed
    requires Open(grid, c, Search) && Adjacent(CellOf(pool.nodes[cur]), c) && c in table && c !in closed
    requires g == pool.nodes[cur].g + 1 && h == Heuristic(c.x, c.y, goal.x, goal.y)
    modifies heap.data, heap.data.buf, pool
    ensures heap.Valid() && IsHeap(heap.Elements(), pool.nodes)
    ensures heap.data.buf == old(heap.data.buf) || fresh(heap.data.buf)
    ensures SearchCore(grid, start, goal, pool.nodes, multiset(heap.Elements()), table, closed)
    ensures cur < |pool.nodes| && CellOf(pool.nodes[cur]) == old(CellOf(pool.nodes[cur]))
    ensures table[c] < |pool.nodes| && pool.nodes[table[c]].g == if g < old(pool.nodes[table[c]].g) then g else old(pool.nodes[table[c]].g)
  {
    var id := table[c];
    if g < pool.nodes[id].g {
      var f := g + h;
      ghost var nodes0 := pool.nodes;
      ghost var elems := heap.Elements();
      RelaxKeeps(grid, start, goal, nodes0, multiset(elems), table, closed, cur, id,
                 nodes0[id].(g := g, h := h, f := f, parent := Some(cur)));
      pool.Relax(id, g, h, f, Some(cur));
      ghost var nodes1 := pool.nodes;
      var index := pool.nodes[id].heapIndex;
      RelaxHeap(elems, nodes0, id, g, h, f, Some(cur));
      heap.DecreaseKey(pool, index, pool.nodes[id].f);
      assert nodes1[elems[index] := nodes1[elems[index]].(f := f)] == nodes1;
      SlotsKeep(grid, start, goal, nodes1, pool.nodes, multiset(elems), table, closed);
      assert pool.nodes[cur] == nodes1[cur].(heapIndex := pool.nodes[cur].heapIndex);
      assert pool.nodes[id] == nodes1[id].(heapIndex := pool.nodes[id].heapIndex);
    }
  }

  /** Lowering the costs of a listed node: its slot is its heapIndex, and the
      heap stays ordered except above that slot. */
  lemma RelaxHeap(elems: seq<NodeId>, nodes: seq<Node>, id: NodeId, g: nat, h: nat, f: nat, parent: Option<NodeId>)
    requires IsHeap(elems, nodes) && id in elems && f <= nodes[id].f
    ensures var nodes' := nodes[id := nodes[id].(g := g, h := h, f := f, parent := parent)];
            var k := nodes[id].heapIndex;
            && k < |elems| && elems[k] == id
            && InPool(elems, nodes') && Placed(elems, nodes')
            && OrderedExceptAbove(Keys(elems, nodes')[k := f], k)
  {
    var nodes' := nodes[id := nodes[id].(g := g, h := h, f := f, parent := parent)];
    var k :| 0 <= k < |elems| && elems[k] == id;
    var ks := Keys(elems, nodes);
    forall j | 0 <= j < |elems|
      ensures Keys(elems, nodes')[j] == ks[k := f][j]
    {
      if j != k {
        PlacedDistinct(elems, nodes, j, k);
      }
    }
    assert Keys(elems, nodes') == ks[k := f];
    LowerBreaksAbove(ks, k, f);
  }

  /** The neighbour loop of astar_search for the expanded node `cur`: afterwards
      every open neighbour of its cell has a node. */
  method ExpandNeighbours(grid: Grid, heap: MinHeap, pool: NodePool, table: map<Cell, NodeId>,
                          closed: set<Cell>, cur: NodeId, goal: Cell, ghost start: Cell)
    returns (table': map<Cell, NodeId>)
    requires heap.Valid()
    requires IsHeap(heap.Elements(), pool.nodes)
    requires SearchCore(grid, start, goal, pool.nodes, multiset(heap.Elements()), table, closed)
    requires cur < |pool.nodes| && CellOf(pool.nodes[cur]) in closed
    requires ClosedUnder(table.Keys, closed - {CellOf(pool.nodes[cur])}, grid, Search)
    modifies heap.data, heap.data.buf, pool
    ensures heap.Valid() && IsHeap(heap.Elements(), pool.nodes)
    ensures heap.data.buf == old(heap.data.buf) || fresh(heap.data.buf)
    ensures SearchCore(grid, start, goal, pool.nodes, multiset(heap.Elements()), table', closed)
    ensures ClosedUnder(table'.Keys, closed, grid, Search)
    ensures cur < |pool.nodes| && CellOf(pool.nodes[cur]) == old(CellOf(pool.nodes[cur]))
  {
    ghost var c := CellOf(pool.nodes[cur]);
    table' := table;
    for i := 0 to 4
      invariant heap.Valid() && IsHeap(heap.Elements(), pool.nodes)
      invariant heap.data.buf == old(heap.data.buf) || fresh(heap.data.buf)
      invariant SearchCore(grid, start, goal, pool.nodes, multiset(heap.Elements()), table', closed)
      invariant table.Keys <= table'.Keys
      invariant cur < |pool.nodes| && CellOf(pool.nodes[cur]) == c
      invariant Covered(table', grid, c, i)
    {
      ghost var before := table';
      table' := Visit(grid, heap, pool, table', closed, cur, i, goal, start);
      CoveredStep(before, table', grid, c, i);
    }
    assert ClosedUnder(table'.Keys, closed - {c}, grid, Search);
    AllCovered(table', grid, c, closed);
  }

  /** A found path: the parent chain of `id` is a walk from the start to the goal. */
  ghost predicate IsPath(nodes: seq<Node>, id: NodeId, grid: Grid, start: Cell, goal: Cell)
  {
    && id < |nodes| && ChainWf(nodes)
    && IsWalk(grid, Search, Chain(nodes, id)) && Chain(nodes, id)[0] == start && Last(Chain(nodes, id)) == goal
  }

  /** The head of astar_search's loop body: take the node with the lowest f
      from the open list and close its cell. */
  method CloseNext(grid: Grid, heap: MinHeap, pool: NodePool, table: map<Cell, NodeId>, closed: set<Cell>,
                   ghost start: Cell, ghost goal: Cell)
    returns (cur: NodeId, closed': set<Cell>)
    requires heap.Valid() && IsHeap(heap.Elements(), pool.nodes) && heap.data.size > 0
    requires SearchCore(grid, start, goal, pool.nodes, multiset(heap.Elements()), table, closed)
    modifies heap.data, heap.data.buf, pool
    ensures heap.Valid() && IsHeap(heap.Elements(), pool.nodes)
    ensures heap.data.buf == old(heap.data.buf) || fresh(heap.data.buf)
    ensures cur < |pool.nodes| && InBounds(grid, pool.nodes[cur].x, pool.nodes[cur].y)
    ensures CellOf(pool.nodes[cur]) !in closed && closed' == closed + {CellOf(pool.nodes[cur])}
    ensures SearchCore(grid, start, goal, pool.nodes, multiset(heap.Elements()), table, closed')
  {
    ghost var nodes0 := pool.nodes;
    ghost var open0 := multiset(heap.Elements());
    var root := heap.ExtractMin(pool);
    cur := root.value;
    SlotsKeep(grid, start, goal, nodes0, pool.nodes, open0, table, closed);
    ExtractKeeps(grid, start, goal, pool.nodes, open0, multiset(heap.Elements()), table, closed, cur);
    closed' := closed + {CellOf(pool.nodes[cur])};
  }

  /** astar_search: a node at the goal whose parent chain is a walk from the
      start when the goal can be reached from the start avoiding obstacles and
      voids, and no node when it cannot. */
  method AStarSearch(arena: Arena, startX: nat, startY: nat, goalX: nat, goalY: nat)
    returns (path: Option<NodeId>, pool: NodePool)
    requires arena.Wf() && startX < arena.width && startY < arena.height
    ensures fresh(pool)
    ensures path.Some? <==> Connected(arena.View(), Search, Cell(startX, startY), Cell(goalX, goalY))
    ensures path.Some? ==> IsPath(pool.nodes, path.value, arena.View(), Cell(startX, startY), Cell(goalX, goalY))
  {
    var grid := arena.View();
    var start, goal := Cell(startX, startY), Cell(goalX, goalY);
    var heap := new MinHeap(64);
    pool := new NodePool();
    var table: map<Cell, NodeId> := map[];

    var startNode := CreateNode(startX, startY, 0, Heuristic(startX, startY, goalX, goalY), None);
    var startId := pool.Add(startNode);
    heap.Insert(pool, startId);
    table := table[start := startId];
    SeedKeeps(grid, start, goal, pool.nodes, heap.Elements(), table);

    path := SearchLoop(grid, heap, pool, table, start, goal);
    assert arena.View() == grid;
  }

  /** The seeded search: one node for the start, listed and tabled, with g = 0. */
  lemma SeedKeeps(grid: Grid, start: Cell, goal: Cell, nodes: seq<Node>, elems: seq<NodeId>, table: map<Cell, NodeId>)
    requires InBounds(grid, start.x, start.y)
    requires |nodes| == 1 && elems == [0] && table == map[start := 0]
    requires CellOf(nodes[0]) == start && nodes[0].g == 0 && nodes[0].parent.None?
    requires nodes[0].h == Heuristic(start.x, start.y, goal.x, goal.y) && nodes[0].f == nodes[0].h
    ensures SearchCore(grid, start, goal, nodes, multiset(elems), table, {})
  {
    assert LinkedAt(nodes, grid, start, {}, 0);
  }

  /** The main loop of astar_search, from the seeded open list to the goal's
      node or an empty open list. */
  method SearchLoop(grid: Grid, heap: MinHeap, pool: NodePool, table: map<Cell, NodeId>, start: Cell, goal: Cell)
    returns (path: Option<NodeId>)
    requires heap.Valid() && IsHeap(heap.Elements(), pool.nodes)
    requires SearchCore(grid, start, goal, pool.nodes, multiset(heap.Elements()), table, {})
    modifies heap.data, heap.data.buf, pool
    ensures path.Some? <==> Connected(grid, Search, start, goal)
    ensures path.Some? ==> IsPath(pool.nodes, path.value, grid, start, goal)
  {
    var table := table;
    var closed: set<Cell> := {};
    path := None;
    while heap.data.size > 0
      invariant heap.Valid() && IsHeap(heap.Elements(), pool.nodes)
      invariant heap.data.buf == old(heap.data.buf) || fresh(heap.data.buf)
      invariant SearchCore(grid, start, goal, pool.nodes, multiset(heap.Elements()), table, closed)
      invariant ClosedUnder(table.Keys, closed, grid, Search)
      invariant path.None? && goal !in closed
      decreases AllCells(grid.width, grid.height) - closed
    {
      var cur;
      cur, closed := CloseNext(grid, heap, pool, table, closed, start, goal);
      if pool.nodes[cur].x == goal.x && pool.nodes[cur].y == goal.y {
        path := Some(cur);
        break;
      }
      table := ExpandNeighbours(grid, heap, pool, table, closed, cur, goal, start);
    }
    if path.Some? {
      ChainIsWalk(pool.nodes, grid, start, closed, path.value);
      assert Connected(grid, Search, start, goal) by {
        assert IsWalk(grid, Search, Chain(pool.nodes, path.value));
      }
    } else {
      assert heap.Elements() == [];
      Exhausted(grid, start, goal, pool.nodes, table, closed);
    }
  }

  /** get_direction: the heading of a unit step (1 Right, 3 Left, 0 Up, 2 Down),
      or -1 as an unsigned int for any other shift. */
  function GetDirection(xShift: int, yShift: int): (d: nat)
    ensures d <= 3 <==> Abs(xShift) + Abs(yShift) == 1
    ensures d > 3 ==> d == UINT32_MAX
  {
    if xShift == 1 && yShift == 0 then 1
    else if xShift == -1 && yShift == 0 then 3
    else if xShift == 0 && yShift == -1 then 0
    else if xShift == 0 && yShift == 1 then 2
    else UINT32_MAX
  }

  /** The heading of a step is recovered from the step. */
  lemma DirectionRoundTrip(d: Byte)
    requires d <= 3
    ensures GetDirection(XShift(d), YShift(d)) == d as nat
  {
  }

  /** A unit shift is the step its heading makes. */
  lemma ShiftRoundTrip(xShift: int, yShift: int)
    requires Abs(xShift) + Abs(yShift) == 1
    ensures StepIn(Cell(0, 0), GetDirection(xShift, yShift) as Byte) == Cell(xShift, yShift)
  {
  }

  /** Storing an unsigned int into a uint8_t keeps its low byte. */
  function LowByte(n: nat): (b: Byte)
    ensures n < 256 ==> b as nat == n
  {
    (n % 256) as Byte
  }

  /** The heading of each step of a walk, as path_to_direction_list stores them. */
  function DirectionsOf(w: seq<Cell>): (ds: seq<Byte>)
    requires 0 < |w|
    ensures |ds| == |w| - 1
  {
    seq(|w| - 1, k requires 0 <= k < |w| - 1 => Heading(w[k], w[k + 1]))
  }

  /** The heading path_to_direction_list stores for a step from a to b. */
  function Heading(a: Cell, b: Cell): (d: Byte)
    ensures Adjacent(a, b) ==> d <= 3 && StepIn(a, d) == b
  {
    var d := GetDirection(b.x - a.x, b.y - a.y);
    if Adjacent(a, b) then ShiftRoundTrip(b.x - a.x, b.y - a.y); LowByte(d) else LowByte(d)
  }

  /** Every step of a walk has one of the four headings. */
  lemma WalkHeadings(g: Grid, rule: Rule, w: seq<Cell>)
    requires IsWalk(g, rule, w)
    ensures forall k :: 0 <= k < |w| - 1 ==> DirectionsOf(w)[k] <= 3
  {
    var ds := DirectionsOf(w);
    forall k | 0 <= k < |w| - 1
      ensures ds[k] <= 3
    {
      assert Adjacent(w[k], w[k + 1]);
    }
  }

  /** A walk without its first cell is still a walk. */
  lemma WalkTail(g: Grid, rule: Rule, w: seq<Cell>)
    requires IsWalk(g, rule, w) && 1 < |w|
    ensures IsWalk(g, rule, w[1..])
  {
    var w' := w[1..];
    forall i | 0 < i < |w'|
      ensures Open(g, w'[i], rule) && Adjacent(w'[i - 1], w'[i])
    {
      assert w'[i] == w[i + 1] && w'[i - 1] == w[i];
    }
    assert Open(g, w[1], rule);
  }

  /** Dropping the first cell drops the first heading. */
  lemma DirectionsTail(w: seq<Cell>)
    requires 1 < |w|
    ensures DirectionsOf(w)[1..] == DirectionsOf(w[1..])
  {
    var w' := w[1..];
    forall k | 0 <= k < |w'| - 1
      ensures DirectionsOf(w)[1..][k] == DirectionsOf(w')[k]
    {
      assert w'[k] == w[k + 1] && w'[k + 1] == w[k + 2];
    }
  }

  /** Following the headings of a walk from its first cell leads to its last cell. */
  lemma {:induction false} ReplayWalk(g: Grid, rule: Rule, w: seq<Cell>)
    requires IsWalk(g, rule, w)
    ensures forall k :: 0 <= k < |w| - 1 ==> DirectionsOf(w)[k] <= 3
    ensures Replay(w[0], DirectionsOf(w)) == Last(w)
    decreases |w|
  {
    WalkHeadings(g, rule, w);
    if 1 < |w| {
      WalkTail(g, rule, w);
      DirectionsTail(w);
      assert Adjacent(w[0], w[1]);
      ReplayWalk(g, rule, w[1..]);
    }
  }

  /** A node's chain is its parent's chain followed by the node's own cell. */
  lemma ChainStep(nodes: seq<Node>, id: NodeId)
    requires ChainWf(nodes) && id < |nodes| && nodes[id].parent.Some?
    ensures nodes[id].parent.value < |nodes|
    ensures Chain(nodes, nodes[id].parent.value) == Chain(nodes, id)[..|Chain(nodes, id)| - 1]
  {
    assert LinkWf(nodes, id);
  }

  /** A node without a parent is a chain of its own cell. */
  lemma ChainStart(nodes: seq<Node>, id: NodeId)
    requires ChainWf(nodes) && id < |nodes| && nodes[id].parent.None?
    ensures |Chain(nodes, id)| == 1
  {
    assert LinkWf(nodes, id);
  }

  /** Stepping back from the node at position i + 1 of a chain: its parent is at
      position i, and the heading between them is the chain's i-th heading. */
  lemma FillStep(nodes: seq<Node>, chain: seq<Cell>, cursor: NodeId, i: nat)
    requires ChainWf(nodes) && cursor < |nodes| && i + 2 <= |chain|
    requires Chain(nodes, cursor) == chain[..i + 2]
    ensures nodes[cursor].parent.Some? && nodes[cursor].parent.value < |nodes|
    ensures Chain(nodes, nodes[cursor].parent.value) == chain[..i + 1]
    ensures var p := nodes[cursor].parent.value;
            DirectionsOf(chain)[i] == LowByte(GetDirection(nodes[cursor].x - nodes[p].x, nodes[cursor].y - nodes[p].y))
  {
    assert LinkWf(nodes, cursor);
    ChainStep(nodes, cursor);
    var p := nodes[cursor].parent.value;
    assert chain[..i + 2][..i + 1] == chain[..i + 1];
    assert chain[i + 1] == Last(Chain(nodes, cursor)) == CellOf(nodes[cursor]);
    assert chain[i] == Last(Chain(nodes, p)) == CellOf(nodes[p]);
  }

  /** The counting loop of path_to_direction_list: the number of parent links from `id`. */
  method CountLinks(pool: NodePool, id: NodeId) returns (count: nat)
    requires id < |pool.nodes| && ChainWf(pool.nodes)
    ensures count == |Chain(pool.nodes, id)| - 1
  {
    var cursor: NodeId := id;
    count := 0;
    while pool.nodes[cursor].parent.Some?
      invariant cursor < |pool.nodes|
      invariant count + |Chain(pool.nodes, cursor)| == |Chain(pool.nodes, id)|
      decreases |Chain(pool.nodes, cursor)|
    {
      ChainStep(pool.nodes, cursor);
      count := count + 1;
      cursor := pool.nodes[cursor].parent.value;
    }
    ChainStart(pool.nodes, cursor);
  }

  /** The filling loop of path_to_direction_list: walks the parent links back
      from `id`, storing each step's heading from the last slot down to slot 0. */
  method FillDirections(pool: NodePool, id: NodeId, directions: array<Byte>)
    requires id < |pool.nodes| && ChainWf(pool.nodes)
    requires directions.Length == |Chain(pool.nodes, id)| - 1
    modifies directions
    ensures directions[..] == DirectionsOf(Chain(pool.nodes, id))
  {
    ghost var chain := Chain(pool.nodes, id);
    ghost var ds := DirectionsOf(chain);
    var cursor: NodeId := id;
    var i: int := directions.Length - 1;
    while i >= 0
      invariant -1 <= i < directions.Length
      invariant cursor < |pool.nodes| && Chain(pool.nodes, cursor) == chain[..i + 2]
      invariant directions[i + 1..] == ds[i + 1..]
    {
      FillStep(pool.nodes, chain, cursor, i);
      var parent := pool.nodes[cursor].parent.value;
      var xShift := pool.nodes[cursor].x - pool.nodes[parent].x;
      var yShift := pool.nodes[cursor].y - pool.nodes[parent].y;
      directions[i] := LowByte(GetDirection(xShift, yShift));
      cursor := parent;
      i := i - 1;
    }
  }

  /** path_to_direction_list: no list for no path; otherwise one heading per
      parent link, first step first. */
  method PathToDirectionList(pool: NodePool, path: Option<NodeId>) returns (directions: array?<Byte>, pathSize: nat)
    requires path.Some? ==> path.value < |pool.nodes| && ChainWf(pool.nodes)
    ensures path.None? ==> directions == null && pathSize == 0
    ensures path.Some? ==> && directions != null && fresh(directions)
                           && pathSize == directions.Length == |Chain(pool.nodes, path.value)| - 1
                           && directions[..] == DirectionsOf(Chain(pool.nodes, path.value))
  {
    if path.None? {
      return null, 0;
    }
    pathSize := CountLinks(pool, path.value);
    var list := new Byte[pathSize];
    FillDirections(pool, path.value, list);
    directions := list;
  }
}

=== FILE: queue.dfy ===
/**
 * A bounded FIFO queue of coordinate pairs kept in a ring buffer:
 * `front` is the slot of the oldest entry, `rear` the slot of the newest,
 * `size` the number of entries. The connectivity check uses it for its
 * breadth-first search.
 */
module Queues {
  import opened Basics

  datatype QueueNode = QueueNode(x: nat, y: nat)

  /** What dequeue reports for an empty queue: both coordinates UINT_MAX. */
  const SENTINEL: QueueNode := QueueNode(UINT32_MAX, UINT32_MAX)

  class Queue {
    const capacity: nat
    var size: nat
    var front: int
    var rear: int
    const nodes: array<QueueNode>

    /** The entries, oldest first. */
    ghost var Contents: seq<QueueNode>

    /** Position in the buffer of the i-th oldest entry. */
    function Slot(i: nat): nat
      reads this
      requires 0 <= front < capacity && i < capacity
    {
      if front + i < capacity then front + i else front + i - capacity
    }

    ghost predicate Valid()
      reads this, nodes
    {
      && nodes.Length == capacity
      && 0 < capacity
      && size <= capacity
      && 0 <= front < capacity
      && -1 <= rear < capacity
      && (rear + 1) % capacity == (front + size) % capacity
      && |Contents| == size
      && forall i :: 0 <= i < size ==> Contents[i] == nodes[Slot(i)]
    }

    /** create_queue for a nonzero capacity. */
    constructor (cap: nat)
      requires cap > 0
      ensures Valid() && fresh(nodes)
      ensures capacity == cap && Contents == []
      ensures size == 0 && front == 0 && rear == -1
    {
      capacity := cap;
      nodes := new QueueNode[cap](_ => QueueNode(0, 0));
      size, front, rear := 0, 0, -1;
      Contents := [];
    }

    /** enqueue: -1 and no change when the queue is full; otherwise 0, with
        the pair stored in the slot after `rear` and appended to the contents. */
    method Enqueue(x: nat, y: nat) returns (r: int)
      requires Valid()
      modifies this, nodes
      ensures Valid()
      ensures old(size) == capacity ==> r == -1 && unchanged(this, nodes)
      ensures old(size) < capacity ==>
                && r == 0
                && size == old(size) + 1
                && rear == (old(rear) + 1) % capacity
                && nodes[rear] == QueueNode(x, y)
                && front == old(front)
                && Contents == old(Contents) + [QueueNode(x, y)]
    {
      if size == capacity {
        return -1;
      }
      ModSmall(rear + 1, capacity);
      ModSmall(front + size, capacity);
      rear := (rear + 1) % capacity;
      assert rear == Slot(size);
      nodes[rear] := QueueNode(x, y);
      size := size + 1;
      Contents := Contents + [QueueNode(x, y)];
      ModSmall(rear + 1, capacity);
      ModSmall(front + size, capacity);
      r := 0;
    }

    /** dequeue: the sentinel and no change when the queue is empty; otherwise
        the oldest entry, which leaves the contents. */
    method Dequeue() returns (v: QueueNode)
      requires Valid()
      modifies this
      ensures Valid()
      ensures old(size) == 0 ==> v == SENTINEL && unchanged(this)
      ensures old(size) > 0 ==>
                && v == old(Contents)[0]
                && size == old(size) - 1
                && front == (old(front) + 1) % capacity
                && rear == old(rear)
                && Contents == old(Contents)[1..]
    {
      if size <= 0 {
        return SENTINEL;
      }
      v := nodes[front];
      assert front == Slot(0);
      ghost var oldFront := front;
      ModSmall(front + 1, capacity);
      ModSmall(front + size, capacity);
      front := (front + 1) % capacity;
      size := size - 1;
      Contents := Contents[1..];
      ModSmall(front + size, capacity);
      forall i | 0 <= i < size
        ensures Contents[i] == nodes[Slot(i)]
      {
        assert Slot(i) == if oldFront + i + 1 < capacity then oldFront + i + 1 else oldFront + i + 1 - capacity;
      }
    }
  }

  /** create_queue: no queue for capacity 0. */
  method CreateQueue(capacity: nat) returns (q: Queue?)
    ensures q == null <==> capacity == 0
    ensures q != null ==> fresh(q) && fresh(q.nodes) && q.Valid() && q.capacity == capacity && q.Contents == []
                          && q.size == 0 && q.front == 0 && q.rear == -1
  {
    if capacity == 0 {
      return null;
    }
    q := new Queue(capacity);
  }

  /** is_queue_empty: true for a missing queue or one with no entries. */
  predicate IsQueueEmpty(q: Queue?): (r: bool)
    reads q
    ensures q != null && |q.Contents| == q.size ==> (r <==> q.Contents == [])
    ensures q == null ==> r
  {
    q == null || q.size == 0
  }
}

=== FILE: robot.dfy ===
/**
 * The robot: a position, a heading (0 Up, 1 Right, 2 Down, 3 Left), a home
 * cell and a count of carried markers, acting on the arena it stands in.
 *
 * `RobotState` is the robot's fields as a value and the functions over it
 * say what each command does; `Robot` is the object the program updates in
 * place, and each of its methods is proved to do what the function says.
 */
module Robots {
  import opened Basics
  import opened Grids
  import opened Walks

  /** robot_t without its arena reference. The heading and the count are uint8_t. */
  datatype RobotState = RobotState(x: nat, y: nat, homeX: nat, homeY: nat, direction: Byte, markerCount: Byte)

  /** validate_robot, for a robot whose arena is allocated: a valid arena, a
      current tile that is not Void, and a heading in 0..3. A robot off the
      grid reads Void, so a valid robot stands on the grid. */
  predicate IsValidRobot(r: RobotState, g: Grid): (b: bool)
    ensures b ==> InBounds(g, r.x, r.y) && r.direction <= 3
  {
    IsValid(g) && Tile(g, r.x, r.y) != VOID && r.direction <= 3
  }

  /** create_robot: a robot at home, carrying nothing, when the arena is valid,
      the home tile is Empty and the heading is at most 3. */
  function NewRobot(g: Grid, homeX: nat, homeY: nat, direction: Byte): (r: Option<RobotState>)
    ensures r.Some? <==> IsValid(g) && Tile(g, homeX, homeY) == EMPTY && direction <= 3
    ensures r.Some? ==> && IsValidRobot(r.value, g)
                        && r.value.x == r.value.homeX == homeX && r.value.y == r.value.homeY == homeY
                        && r.value.direction == direction && r.value.markerCount == 0
  {
    if !IsValid(g) || Tile(g, homeX, homeY) != EMPTY || direction > 3 then None
    else Some(RobotState(homeX, homeY, homeX, homeY, direction, 0))
  }

  /** left: a quarter turn anticlockwise, for a valid robot; only the heading changes. */
  function Left(r: RobotState, g: Grid): (r': RobotState)
    ensures r' == r.(direction := r'.direction)
    ensures IsValidRobot(r', g) == IsValidRobot(r, g)
    ensures IsValidRobot(r, g) ==> r'.direction != r.direction
  {
    if IsValidRobot(r, g) then r.(direction := (r.direction + 3) % 4) else r
  }

  /** right: a quarter turn clockwise, for a valid robot; only the heading changes. */
  function Right(r: RobotState, g: Grid): (r': RobotState)
    ensures r' == r.(direction := r'.direction)
    ensures IsValidRobot(r', g) == IsValidRobot(r, g)
    ensures IsValidRobot(r, g) ==> r'.direction != r.direction
  {
    if IsValidRobot(r, g) then r.(direction := (r.direction + 1) % 4) else r
  }

  /** A left turn undoes a right turn and a right turn undoes a left turn. */
  lemma TurnsCancel(r: RobotState, g: Grid)
    ensures Right(Left(r, g), g) == r
    ensures Left(Right(r, g), g) == r
  {
  }

  /** Four right turns bring the robot back to its heading. */
  lemma {:induction false} FourRights(r: RobotState, g: Grid)
    ensures Right(Right(Right(Right(r, g), g), g), g) == r
  {
    if IsValidRobot(r, g) {
      var d := r.direction;
      assert Right(r, g).direction == (d + 1) % 4;
      assert Right(Right(r, g), g).direction == (d + 2) % 4;
      assert Right(Right(Right(r, g), g), g).direction == (d + 3) % 4;
    }
  }

  /** The cell in front of the robot: one orthogonal step along its heading
      (Up is the row above). Off the left or top edge it is a negative
      coordinate, which no arena contains, as with the unsigned wrap-around. */
  function Ahead(r: RobotState): (c: Cell)
    ensures r.direction <= 3 ==> Abs(c.x - r.x) + Abs(c.y - r.y) == 1
    ensures r.direction == UP ==> c == Cell(r.x, r.y - 1)
    ensures r.direction == RIGHT ==> c == Cell(r.x + 1, r.y)
    ensures r.direction == DOWN ==> c == Cell(r.x, r.y + 1)
    ensures r.direction == LEFT ==> c == Cell(r.x - 1, r.y)
  {
    StepIn(Cell(r.x, r.y), r.direction)
  }

  /** canMoveForward: the robot is valid and the cell ahead is on the grid and Empty or Marker. */
  predicate CanMoveForward(r: RobotState, g: Grid): (b: bool)
    ensures b <==> IsValidRobot(r, g) && Open(g, Ahead(r), Traversal)
    ensures b ==> Tile(g, Ahead(r).x, Ahead(r).y) != OBSTACLE && Tile(g, Ahead(r).x, Ahead(r).y) != VOID
  {
    IsValidRobot(r, g) && InBounds(g, Ahead(r).x, Ahead(r).y) &&
    (Tile(g, Ahead(r).x, Ahead(r).y) == EMPTY || Tile(g, Ahead(r).x, Ahead(r).y) == MARKER)
  }

  /** forward: the robot moves exactly one cell when it can move forward and
      otherwise stays; its heading, count and home never change, and a valid
      robot stays valid. */
  function Forward(r: RobotState, g: Grid): (r': RobotState)
    ensures r'.direction == r.direction && r'.markerCount == r.markerCount
    ensures r'.homeX == r.homeX && r'.homeY == r.homeY
    ensures r' != r <==> CanMoveForward(r, g)
    ensures r' != r ==> Abs(r'.x - r.x) + Abs(r'.y - r.y) == 1 && Cell(r'.x, r'.y) == Ahead(r)
    ensures IsValidRobot(r, g) ==> IsValidRobot(r', g)
  {
    if CanMoveForward(r, g) then r.(x := Ahead(r).x, y := Ahead(r).y) else r
  }

  /** atMarker: a valid robot standing on a Marker tile. */
  predicate AtMarker(r: RobotState, g: Grid): (b: bool)
    ensures b ==> IsValidRobot(r, g) && Tile(g, r.x, r.y) == MARKER
    ensures IsValidRobot(r, g) && Tile(g, r.x, r.y) == MARKER ==> b
  {
    IsValidRobot(r, g) && Tile(g, r.x, r.y) == MARKER
  }

  /** markerCount: what a valid robot carries; 0 for an invalid one. */
  function MarkerCount(r: RobotState, g: Grid): (n: Byte)
    ensures IsValidRobot(r, g) ==> n == r.markerCount
    ensures !IsValidRobot(r, g) ==> n == 0
  {
    if IsValidRobot(r, g) then r.markerCount else 0
  }

  /** pickUpMarker: on a Marker tile the count goes up by one (wrapping at
      256, as uint8_t does) and the tile becomes Empty; elsewhere nothing changes. */
  function PickUp(r: RobotState, g: Grid): (p: (RobotState, Grid))
    ensures p.0 == r.(markerCount := p.0.markerCount)
    ensures p.1.width == g.width && p.1.height == g.height
    ensures AtMarker(r, g) ==> p.0.markerCount as int == (r.markerCount as int + 1) % 256
    ensures AtMarker(r, g) ==> forall x, y :: Tile(p.1, x, y) == if x == r.x && y == r.y then EMPTY else Tile(g, x, y)
    ensures !AtMarker(r, g) ==> p == (r, g)
    ensures IsValidRobot(r, g) ==> IsValidRobot(p.0, p.1)
  {
    if AtMarker(r, g) then
      var g' := Update(g, r.x, r.y, EMPTY);
      assert forall x, y :: Tile(g', x, y) == if x == r.x && y == r.y then EMPTY else Tile(g, x, y) by {
        forall x, y
          ensures Tile(g', x, y) == if x == r.x && y == r.y then EMPTY else Tile(g, x, y)
        {
          UpdateThenTile(g, r.x, r.y, EMPTY, x, y);
        }
      }
      (r.(markerCount := ((r.markerCount as int + 1) % 256) as Byte), g')
    else
      (r, g)
  }

  /** dropMarker: for a valid robot carrying markers on an Empty tile: at home
      the count drops to 0 and the grid stays; elsewhere the count drops by one
      and the tile becomes a Marker. Otherwise nothing changes. */
  function Drop(r: RobotState, g: Grid): (p: (RobotState, Grid))
    ensures p.0 == r.(markerCount := p.0.markerCount)
    ensures p.1.width == g.width && p.1.height == g.height
    ensures p.0.markerCount <= r.markerCount
    ensures var dropping := IsValidRobot(r, g) && r.markerCount > 0 && Tile(g, r.x, r.y) == EMPTY;
            && (!dropping ==> p == (r, g))
            && (dropping && r.x == r.homeX && r.y == r.homeY ==> p == (r.(markerCount := 0), g))
            && (dropping && !(r.x == r.homeX && r.y == r.homeY) ==>
                  && p.0.markerCount == r.markerCount - 1
                  && forall x, y :: Tile(p.1, x, y) == if x == r.x && y == r.y then MARKER else Tile(g, x, y))
    ensures IsValidRobot(r, g) ==> IsValidRobot(p.0, p.1)
  {
    if IsValidRobot(r, g) && r.markerCount > 0 && Tile(g, r.x, r.y) == EMPTY then
      if r.x == r.homeX && r.y == r.homeY then
        (r.(markerCount := 0), g)
      else
        var g' := Update(g, r.x, r.y, MARKER);
        assert forall x, y :: Tile(g', x, y) == if x == r.x && y == r.y then MARKER else Tile(g, x, y) by {
          forall x, y
            ensures Tile(g', x, y) == if x == r.x && y == r.y then MARKER else Tile(g, x, y)
          {
            UpdateThenTile(g, r.x, r.y, MARKER, x, y);
          }
        }
        (r.(markerCount := r.markerCount - 1), g')
    else
      (r, g)
  }

  /** Away from home, picking up a marker and dropping it again restores both
      the robot and the grid (unless the count wrapped on the pick-up). */
  lemma {:induction false} PickUpThenDrop(r: RobotState, g: Grid)
    requires IsValidRobot(r, g) && Tile(g, r.x, r.y) == MARKER
    requires !(r.x == r.homeX && r.y == r.homeY) && r.markerCount < 255
    ensures Drop(PickUp(r, g).0, PickUp(r, g).1) == (r, g)
  {
    var p := PickUp(r, g);
    assert p.1 == Update(g, r.x, r.y, EMPTY);
    UpdateThenTile(g, r.x, r.y, EMPTY, r.x, r.y);
    assert Drop(p.0, p.1).1 == Update(Update(g, r.x, r.y, EMPTY), r.x, r.y, MARKER);
    UpdateRestores(g, r.x, r.y, EMPTY);
  }

  /** robot_t: the robot object, sharing its arena with the maze. */
  class Robot {
    const arena: Arena
    const homeX: nat
    const homeY: nat
    var x: nat
    var y: nat
    var direction: Byte
    var markerCount: Byte

    function State(): RobotState
      reads this
    {
      RobotState(x, y, homeX, homeY, direction, markerCount)
    }

    constructor (a: Arena, hx: nat, hy: nat, d: Byte)
      requires a.Wf() && NewRobot(a.View(), hx, hy, d).Some?
      ensures arena == a && State() == NewRobot(a.View(), hx, hy, d).value
    {
      arena := a;
      homeX, homeY := hx, hy;
      x, y := hx, hy;
      direction := d;
      markerCount := 0;
    }

    method TurnLeft()
      requires arena.Wf()
      modifies this
      ensures State() == Left(old(State()), arena.View())
    {
      if IsValidRobot(State(), arena.View()) {
        direction := (direction + 3) % 4;
      }
    }

    method TurnRight()
      requires arena.Wf()
      modifies this
      ensures State() == Right(old(State()), arena.View())
    {
      if IsValidRobot(State(), arena.View()) {
        direction := (direction + 1) % 4;
      }
    }

    method MoveForward()
      requires arena.Wf()
      modifies this
      ensures State() == Forward(old(State()), arena.View())
    {
      if CanMoveForward(State(), arena.View()) {
        var c := Ahead(State());
        x, y := c.x, c.y;
      }
    }

    method PickUpMarker()
      requires arena.Wf()
      modifies this, arena.grid
      ensures (State(), arena.View()) == PickUp(old(State()), old(arena.View()))
    {
      if IsValidRobot(State(), arena.View()) && AtMarker(State(), arena.View()) {
        markerCount := ((markerCount as int + 1) % 256) as Byte;
        arena.SetEmptyTile(x, y);
      }
    }

    method DropMarker()
      requires arena.Wf()
      modifies this, arena.grid
      ensures (State(), arena.View()) == Drop(old(State()), old(arena.View()))
    {
      if IsValidRobot(State(), arena.View()) && markerCount > 0 && arena.GetTile(x, y) == EMPTY {
        if x == homeX && y == homeY {
          markerCount := 0;
        } else {
          markerCount := markerCount - 1;
          arena.SetMarkerTile(x, y);
        }
      }
    }
  }

  /** create_robot: no robot for a missing or invalid arena, a home tile that
      is not Empty, or a heading above 3. */
  method CreateRobot(a: Arena?, hx: nat, hy: nat, d: Byte) returns (r: Robot?)
    requires a != null ==> a.Wf()
    ensures r == null <==> a == null || NewRobot(a.View(), hx, hy, d).None?
    ensures r != null ==> fresh(r) && r.arena == a && r.State() == NewRobot(a.View(), hx, hy, d).value
  {
    if a == null || !ValidateArena(a) || a.GetTile(hx, hy) != EMPTY || d > 3 {
      return null;
    }
    r := new Robot(a, hx, hy, d);
  }
}

=== FILE: settings.dfy ===
/**
 * Maze settings: the arena size, the home and start cells of the robot, its
 * initial heading, and three coordinate lists (markers, obstacles and removed
 * cells), each a count with an X array and a Y array that may be missing.
 *
 * The grid a maze is built with is defined here as a value: an all-Empty
 * arena on which the markers, then the obstacles, then the removed cells are
 * written in order.
 */
module MazeSettings {
  import opened Basics
  import opened Grids

  /** A count with its X and Y arrays; a missing array is None. */
  datatype Coords = Coords(count: Uint32, xs: Option<seq<nat>>, ys: Option<seq<nat>>)

  /** maze_settings_t without its drawing fields (padding and colours). */
  datatype Settings = Settings(
    width: nat, height: nat, pixelPerSide: nat,
    markers: Coords, obstacles: Coords, voids: Coords,
    homeX: nat, homeY: nat, startX: nat, startY: nat, direction: nat)

  /** Every present array holds at least `count` entries, so reading entry i < count is safe. */
  predicate Readable(c: Coords)
  {
    && (c.xs.Some? ==> c.count <= |c.xs.value|)
    && (c.ys.Some? ==> c.count <= |c.ys.value|)
  }

  predicate AllReadable(s: Settings)
  {
    Readable(s.markers) && Readable(s.obstacles) && Readable(s.voids)
  }

  predicate Present(c: Coords)
  {
    c.xs.Some? && c.ys.Some?
  }

  /** Entry i of a coordinate list. */
  function At(c: Coords, i: nat): Cell
    requires Readable(c) && Present(c) && i < c.count
  {
    Cell(c.xs.value[i], c.ys.value[i])
  }

  /** A cell an entry may name: on the arena, and neither home nor start. */
  predicate Placeable(s: Settings, p: Cell)
  {
    && 0 <= p.x < s.width && 0 <= p.y < s.height
    && !(p.x == s.homeX && p.y == s.homeY)
    && !(p.x == s.startX && p.y == s.startY)
  }

  /** A list passes validation: arrays present when the count is nonzero, and every entry placeable. */
  predicate CoordsOk(s: Settings, c: Coords)
    requires Readable(c)
  {
    && (c.count != 0 ==> Present(c))
    && forall i :: 0 <= i < c.count ==> Present(c) && Placeable(s, At(c, i))
  }

  /** What validate_maze_settings accepts. Home and start are not checked
      against the arena bounds. */
  predicate SettingsValid(s: Settings)
    requires AllReadable(s)
  {
    && s.width != 0 && s.height != 0 && s.pixelPerSide != 0 && s.direction <= 3
    && CoordsOk(s, s.markers) && CoordsOk(s, s.obstacles) && CoordsOk(s, s.voids)
  }

  /** One of the three loops of validate_maze_settings, with the missing-array check before it. */
  method ValidateCoords(s: Settings, c: Coords) returns (ok: bool)
    requires Readable(c)
    ensures ok <==> CoordsOk(s, c)
  {
    if c.count != 0 && !(c.xs.Some? && c.ys.Some?) {
      return false;
    }
    for i := 0 to c.count
      invariant forall j :: 0 <= j < i ==> Present(c) && Placeable(s, At(c, j))
    {
      var x, y := c.xs.value[i], c.ys.value[i];
      if || x >= s.width || y >= s.height
         || (x == s.homeX && y == s.homeY)
         || (x == s.startX && y == s.startY)
      {
        assert !Placeable(s, At(c, i));
        return false;
      }
      assert Placeable(s, At(c, i));
    }
    return true;
  }

  /** validate_maze_settings. */
  method ValidateMazeSettings(s: Settings) returns (ok: bool)
    requires AllReadable(s)
    ensures ok <==> SettingsValid(s)
  {
    if s.width == 0 || s.height == 0 || s.pixelPerSide == 0 || s.direction > 3 {
      return false;
    }
    ok := ValidateCoords(s, s.markers);
    if !ok {
      return;
    }
    ok := ValidateCoords(s, s.obstacles);
    if !ok {
      return;
    }
    ok := ValidateCoords(s, s.voids);
  }

  /** The cell (x, y) is among the first n entries of the list. */
  ghost predicate Occurs(c: Coords, n: nat, x: int, y: int)
    requires Readable(c) && n <= c.count && (n > 0 ==> Present(c))
  {
    exists i :: 0 <= i < n && At(c, i) == Cell(x, y)
  }

  /** The grid after writing tile t at the first n entries of the list, in order. */
  function Stamp(g: Grid, c: Coords, t: Byte, n: nat): (g': Grid)
    requires Readable(c) && n <= c.count && (n > 0 ==> Present(c))
    ensures g'.width == g.width && g'.height == g.height
    decreases n
  {
    if n == 0 then g else Update(Stamp(g, c, t, n - 1), At(c, n - 1).x, At(c, n - 1).y, t)
  }

  /** A stamped cell reads t; every other cell reads as before. */
  lemma {:induction false} StampTile(g: Grid, c: Coords, t: Byte, n: nat, x: int, y: int)
    requires Readable(c) && n <= c.count && (n > 0 ==> Present(c))
    ensures Tile(Stamp(g, c, t, n), x, y) ==
              if IsValid(g) && InBounds(g, x, y) && Occurs(c, n, x, y) then t else Tile(g, x, y)
    decreases n
  {
    if n > 0 {
      var p := At(c, n - 1);
      StampTile(g, c, t, n - 1, x, y);
      UpdateThenTile(Stamp(g, c, t, n - 1), p.x, p.y, t, x, y);
      if Occurs(c, n, x, y) && !Occurs(c, n - 1, x, y) {
        var i :| 0 <= i < n && At(c, i) == Cell(x, y);
        assert i == n - 1;
      }
      if x == p.x && y == p.y {
        assert Occurs(c, n, x, y);
      }
      if Occurs(c, n - 1, x, y) {
        var i :| 0 <= i < n - 1 && At(c, i) == Cell(x, y);
        assert Occurs(c, n, x, y);
      }
    }
  }

  /** The grid create_maze builds: markers first, then obstacles, then removed cells. */
  function MazeGrid(s: Settings): (g: Grid)
    requires AllReadable(s) && SettingsValid(s)
    ensures g.width == s.width && g.height == s.height
  {
    var g1 := Stamp(Blank(s.width, s.height), s.markers, MARKER, s.markers.count);
    var g2 := Stamp(g1, s.obstacles, OBSTACLE, s.obstacles.count);
    Stamp(g2, s.voids, VOID, s.voids.count)
  }

  /** The later kind wins where lists share a cell: a removed cell is Void, else
      an obstacle is Obstacle, else a marker is Marker, else the cell is Empty. */
  lemma MazeTile(s: Settings, x: int, y: int)
    requires AllReadable(s) && SettingsValid(s) && 0 <= x < s.width && 0 <= y < s.height
    ensures Tile(MazeGrid(s), x, y) ==
              if Occurs(s.voids, s.voids.count, x, y) then VOID
              else if Occurs(s.obstacles, s.obstacles.count, x, y) then OBSTACLE
              else if Occurs(s.markers, s.markers.count, x, y) then MARKER
              else EMPTY
  {
    var g0 := Blank(s.width, s.height);
    var g1 := Stamp(g0, s.markers, MARKER, s.markers.count);
    var g2 := Stamp(g1, s.obstacles, OBSTACLE, s.obstacles.count);
    StampTile(g0, s.markers, MARKER, s.markers.count, x, y);
    StampTile(g1, s.obstacles, OBSTACLE, s.obstacles.count, x, y);
    StampTile(g2, s.voids, VOID, s.voids.count, x, y);
  }

  /** No entry names the home cell, so it stays Empty when it is on the arena. */
  lemma HomeEmpty(s: Settings)
    requires AllReadable(s) && SettingsValid(s) && s.homeX < s.width && s.homeY < s.height
    ensures Tile(MazeGrid(s), s.homeX, s.homeY) == EMPTY
  {
    MazeTile(s, s.homeX, s.homeY);
    NotOccurs(s, s.markers, s.homeX, s.homeY);
    NotOccurs(s, s.obstacles, s.homeX, s.homeY);
    NotOccurs(s, s.voids, s.homeX, s.homeY);
  }

  /** No entry of a valid list names the home or the start cell. */
  lemma NotOccurs(s: Settings, c: Coords, x: int, y: int)
    requires Readable(c) && CoordsOk(s, c)
    requires (x == s.homeX && y == s.homeY) || (x == s.startX && y == s.startY)
    ensures c.count > 0 ==> !Occurs(c, c.count, x, y)
  {
    forall i | 0 <= i < c.count
      ensures At(c, i) != Cell(x, y)
    {
      assert Placeable(s, At(c, i));
    }
  }
}

=== FILE: steering.dfy ===
/**
 * Driving the robot along a list of headings: for each heading it turns the
 * shorter way until it faces it, steps forward, and picks up a marker if it
 * lands on one. The value-level definitions say what one entry and a whole
 * list do; the methods drive the `Robot` object and are proved to match.
 */
module Steering {
  import opened Basics
  import opened Grids
  import opened Walks
  import opened Robots
  import opened Pathfinder

  /** C's `%`: the remainder takes the sign of the dividend. */
  function CRem(a: int, n: int): int
    requires n != 0
  {
    if a >= 0 then a % Abs(n) else -((-a) % Abs(n))
  }

  /** C's `/`: the quotient is rounded toward zero. */
  function CDiv(a: int, n: int): int
    requires n != 0
  {
    if (a >= 0) == (n > 0) then Abs(a) / Abs(n) else -(Abs(a) / Abs(n))
  }

  /** modular_distance_diff: the signed number of steps from a to b on a
      cycle of n positions, taking the shorter way round (ties go forward). */
  function ModularDistanceDiff(a: int, b: int, n: int): (r: int)
    requires n != 0
    ensures 0 < n && 0 <= a < n && 0 <= b < n ==> (a + r) % n == b && -n < 2 * r <= n
  {
    var distance := CRem(b - a + n, n);
    var r := if distance > CDiv(n, 2) then distance - n else distance;
    if 0 < n && 0 <= a < n && 0 <= b < n then
      ModularDiffFacts(a, b, n, distance);
      r
    else
      r
  }

  lemma ModularDiffFacts(a: int, b: int, n: int, distance: int)
    requires 0 < n && 0 <= a < n && 0 <= b < n && distance == CRem(b - a + n, n)
    ensures var r := if distance > n / 2 then distance - n else distance;
            (a + r) % n == b && -n < 2 * r <= n
  {
    var k := b - a + n;
    ModSmall(k, n);
    assert distance == if k < n then k else k - n;
    ModSmall(b, n);
    ModSmall(b + n, n);
    if k < n {
      assert a + distance == b + n && a + distance - n == b;
    } else {
      assert a + distance == b;
      ModBelow(b, n);
    }
  }

  /** One lap below zero wraps back onto the cycle. */
  lemma ModBelow(b: int, n: int)
    requires 0 <= b < n
    ensures (b - n) % n == b
  {
    assert b - n == (-1) * n + b;
  }

  /** For headings, the difference is -1, 0, 1 or 2 and is 0 exactly when they agree. */
  lemma HeadingDiff(a: int, b: int)
    requires 0 <= a <= 3 && 0 <= b <= 3
    ensures ModularDistanceDiff(a, b, 4) in {-1, 0, 1, 2}
    ensures ModularDistanceDiff(a, b, 4) == 0 <==> a == b
  {
  }

  /** A right turn while the difference is positive, or a left turn while it
      is negative, brings the difference one step closer to 0. */
  lemma TurnCloser(a: int, b: int)
    requires 0 <= a <= 3 && 0 <= b <= 3
    ensures ModularDistanceDiff(a, b, 4) > 0 ==>
              Abs(ModularDistanceDiff((a + 1) % 4, b, 4)) == Abs(ModularDistanceDiff(a, b, 4)) - 1
    ensures ModularDistanceDiff(a, b, 4) < 0 ==>
              Abs(ModularDistanceDiff((a + 3) % 4, b, 4)) == Abs(ModularDistanceDiff(a, b, 4)) - 1
  {
  }

  /** manhattan_distance: the same measure the path search estimates with. */
  function ManhattanDistance(x1: int, y1: int, x2: int, y2: int): (d: nat)
    ensures d == Heuristic(x1, y1, x2, y2)
    ensures d == Heuristic(x2, y2, x1, y1)
    ensures d == 0 <==> x1 == x2 && y1 == y2
  {
    Abs(x1 - x2) + Abs(y1 - y2)
  }

  /** The turning loop of move_robot_in_directions: a valid robot ends facing d. */
  function Face(r: RobotState, g: Grid, d: Byte): RobotState
  {
    if IsValidRobot(r, g) && d <= 3 then r.(direction := d) else r
  }

  /** One entry of move_robot_in_directions: face the heading, step forward,
      and pick up a marker when standing on one. */
  function Step(p: (RobotState, Grid), d: Byte): (RobotState, Grid)
  {
    var r := Forward(Face(p.0, p.1, d), p.1);
    if AtMarker(r, p.1) then PickUp(r, p.1) else (r, p.1)
  }

  /** The robot and the grid after the entries of ds, in order. */
  function Follow(r: RobotState, g: Grid, ds: seq<Byte>): (RobotState, Grid)
    decreases |ds|
  {
    if ds == [] then (r, g) else Step(Follow(r, g, ds[..|ds| - 1]), ds[|ds| - 1])
  }

  /** The robot only ever clears markers: every tile of g' is the tile of g,
      or a Marker of g that became Empty. */
  ghost predicate Collected(g: Grid, g': Grid)
  {
    && g'.width == g.width && g'.height == g.height
    && forall x, y :: Tile(g', x, y) == Tile(g, x, y) || (Tile(g, x, y) == MARKER && Tile(g', x, y) == EMPTY)
  }

  lemma CollectedTrans(g: Grid, g': Grid, g'': Grid)
    requires Collected(g, g') && Collected(g', g'')
    ensures Collected(g, g'')
  {
    forall x, y
      ensures Tile(g'', x, y) == Tile(g, x, y) || (Tile(g, x, y) == MARKER && Tile(g'', x, y) == EMPTY)
    {
      assert Tile(g', x, y) == Tile(g, x, y) || (Tile(g, x, y) == MARKER && Tile(g', x, y) == EMPTY);
    }
  }

  /** Clearing markers opens and closes nothing for the robot or the search. */
  lemma CollectedOpen(g: Grid, g': Grid, c: Cell, rule: Rule)
    requires Collected(g, g')
    ensures Open(g', c, rule) <==> Open(g, c, rule)
  {
    assert Tile(g', c.x, c.y) == Tile(g, c.x, c.y) || (Tile(g, c.x, c.y) == MARKER && Tile(g', c.x, c.y) == EMPTY);
  }

  /** Clearing markers keeps the arena to the four tile kinds. */
  lemma CollectedKnown(g: Grid, g': Grid)
    requires Collected(g, g') && KnownTiles(g)
    ensures KnownTiles(g')
  {
    forall x, y | InBounds(g', x, y)
      ensures Tile(g', x, y) in {EMPTY, OBSTACLE, MARKER, VOID}
    {
      assert Tile(g', x, y) == Tile(g, x, y) || Tile(g', x, y) == EMPTY;
    }
  }

  /** One entry moves the robot into the next cell of a walk and leaves that cell without a marker. */
  lemma StepAlong(r: RobotState, g: Grid, a: Cell, b: Cell)
    requires IsValidRobot(r, g) && Cell(r.x, r.y) == a && Adjacent(a, b) && Open(g, b, Traversal)
    ensures Cell(Step((r, g), Heading(a, b)).0.x, Step((r, g), Heading(a, b)).0.y) == b
    ensures IsValidRobot(Step((r, g), Heading(a, b)).0, Step((r, g), Heading(a, b)).1)
    ensures Collected(g, Step((r, g), Heading(a, b)).1)
    ensures Tile(Step((r, g), Heading(a, b)).1, b.x, b.y) != MARKER
    ensures Step((r, g), Heading(a, b)).0.homeX == r.homeX && Step((r, g), Heading(a, b)).0.homeY == r.homeY
  {
    var d := Heading(a, b);
    var r1 := Face(r, g, d);
    assert Ahead(r1) == b;
    var r2 := Forward(r1, g);
    assert Cell(r2.x, r2.y) == b;
    if AtMarker(r2, g) {
      var p := PickUp(r2, g);
      forall x, y
        ensures Tile(p.1, x, y) == Tile(g, x, y) || (Tile(g, x, y) == MARKER && Tile(p.1, x, y) == EMPTY)
      {
      }
    }
  }

  /** A valid robot stays valid through any list of entries. */
  lemma {:induction false} FollowValid(r: RobotState, g: Grid, ds: seq<Byte>)
    requires IsValidRobot(r, g)
    ensures IsValidRobot(Follow(r, g, ds).0, Follow(r, g, ds).1)
    decreases |ds|
  {
    if ds != [] {
      var p := Follow(r, g, ds[..|ds| - 1]);
      FollowValid(r, g, ds[..|ds| - 1]);
      var r1 := Forward(Face(p.0, p.1, ds[|ds| - 1]), p.1);
      assert IsValidRobot(r1, p.1);
    }
  }

  /** After a non-empty list of headings a valid robot faces the last one. */
  lemma FollowFaces(r: RobotState, g: Grid, ds: seq<Byte>)
    requires IsValidRobot(r, g) && 0 < |ds| && ds[|ds| - 1] <= 3
    ensures Follow(r, g, ds).0.direction == ds[|ds| - 1]
  {
    var p := Follow(r, g, ds[..|ds| - 1]);
    FollowValid(r, g, ds[..|ds| - 1]);
    var r1 := Forward(Face(p.0, p.1, ds[|ds| - 1]), p.1);
    assert r1.direction == ds[|ds| - 1];
  }

  /** The robot reaches the end of a walk: it follows the headings of a
      Traversal walk that starts where it stands, arrives at the walk's last
      cell, stays valid, and only clears markers on the way, including the
      one on the last cell. */
  ghost predicate Arrives(r: RobotState, g: Grid, w: seq<Cell>, p: (RobotState, Grid))
    requires 0 < |w|
  {
    && Cell(p.0.x, p.0.y) == Last(w)
    && IsValidRobot(p.0, p.1)
    && Collected(g, p.1)
    && p.0.homeX == r.homeX && p.0.homeY == r.homeY
    && (1 < |w| ==> Tile(p.1, Last(w).x, Last(w).y) != MARKER)
  }

  lemma {:induction false} FollowWalk(r: RobotState, g: Grid, w: seq<Cell>)
    requires IsValidRobot(r, g) && IsWalk(g, Traversal, w) && w[0] == Cell(r.x, r.y)
    ensures Arrives(r, g, w, Follow(r, g, DirectionsOf(w)))
    decreases |w|
  {
    var ds := DirectionsOf(w);
    if |w| == 1 {
      assert ds == [];
    } else {
      var n := |w|;
      var w' := w[..n - 1];
      assert IsWalk(g, Traversal, w');
      FollowWalk(r, g, w');
      assert ds[..n - 2] == DirectionsOf(w');
      var p' := Follow(r, g, DirectionsOf(w'));
      assert Adjacent(w[n - 2], w[n - 1]);
      CollectedOpen(g, p'.1, w[n - 1], Traversal);
      StepAlong(p'.0, p'.1, w[n - 2], w[n - 1]);
      CollectedTrans(g, p'.1, Step(p', ds[n - 2]).1);
    }
  }

  /** The turning loop: turn right while the difference is positive and left
      while it is negative, at most twice, until the robot faces d. */
  method TurnTowards(robot: Robot, d: Byte) returns (ghost turns: nat)
    requires robot.arena.Wf() && IsValidRobot(robot.State(), robot.arena.View()) && d <= 3
    modifies robot
    ensures robot.State() == Face(old(robot.State()), robot.arena.View(), d)
    ensures turns <= 2
  {
    var diff := ModularDistanceDiff(robot.direction as int, d as int, 4);
    HeadingDiff(robot.direction as int, d as int);
    turns := 0;
    while diff != 0
      invariant robot.State() == old(robot.State()).(direction := robot.direction)
      invariant IsValidRobot(robot.State(), robot.arena.View())
      invariant diff == ModularDistanceDiff(robot.direction as int, d as int, 4)
      invariant turns + Abs(diff) <= 2
      decreases Abs(diff)
    {
      TurnCloser(robot.direction as int, d as int);
      if diff > 0 {
        robot.TurnRight();
      } else if diff < 0 {
        robot.TurnLeft();
      }
      turns := turns + 1;
      diff := ModularDistanceDiff(robot.direction as int, d as int, 4);
    }
    HeadingDiff(robot.direction as int, d as int);
  }

  /** move_robot_in_directions, for a list whose entries are headings and a
      robot that is valid when there is anything to do (otherwise the turning
      loop never ends): the robot and the arena end as `Follow` says. */
  method MoveRobotInDirections(robot: Robot, directions: array<Byte>, size: int)
    requires robot.arena.Wf() && size <= directions.Length && directions != robot.arena.grid
    requires 0 < size ==> IsValidRobot(robot.State(), robot.arena.View())
    requires forall i :: 0 <= i < size ==> directions[i] <= 3
    modifies robot, robot.arena.grid
    ensures (robot.State(), robot.arena.View()) ==
              Follow(old(robot.State()), old(robot.arena.View()), directions[..if size < 0 then 0 else size])
    ensures 0 < size ==> robot.direction == directions[size - 1]
  {
    if size == 0 {
      return;
    }
    ghost var r0, g0 := robot.State(), robot.arena.View();
    var i := 0;
    while i < size
      invariant 0 <= i <= directions.Length && (0 < size ==> i <= size) && (size < 0 ==> i == 0)
      invariant (robot.State(), robot.arena.View()) == Follow(r0, g0, directions[..i])
      invariant 0 < size ==> IsValidRobot(robot.State(), robot.arena.View())
    {
      ghost var before := (robot.State(), robot.arena.View());
      ghost var turns := TurnTowards(robot, directions[i]);
      robot.MoveForward();
      if AtMarker(robot.State(), robot.arena.View()) {
        robot.PickUpMarker();
      }
      assert (robot.State(), robot.arena.View()) == Step(before, directions[i]);
      assert directions[..i + 1][..i] == directions[..i];
      i := i + 1;
    }
    if 0 < size {
      FollowFaces(r0, g0, directions[..size]);
    }
  }
}

=== FILE: walks.dfy ===
/**
 * Walks over the arena: sequences of cells that move one orthogonal step at
 * a time, and the connectivity they define. Two kinds of cell may be
 * entered: the path search avoids Obstacle and Void tiles, while the robot
 * (and the connectivity check) moves only onto Empty and Marker tiles.
 *
 * Headings (0 Up, 1 Right, 2 Down, 3 Left) and the step each one makes are
 * defined here too, because both the robot and the path converter use them.
 */
module Walks {
  import opened Basics
  import opened Grids

  datatype Rule =
    | Search     // astar_search: anything but Obstacle and Void
    | Traversal  // the robot and bfs: Empty or Marker

  /** A cell a walk may enter under the rule. */
  predicate Open(g: Grid, c: Cell, rule: Rule)
  {
    && InBounds(g, c.x, c.y)
    && match rule
       case Search => Tile(g, c.x, c.y) != OBSTACLE && Tile(g, c.x, c.y) != VOID
       case Traversal => Tile(g, c.x, c.y) == EMPTY || Tile(g, c.x, c.y) == MARKER
  }

  /** The arena holds only the four tile kinds the program writes. */
  ghost predicate KnownTiles(g: Grid)
  {
    forall x, y :: InBounds(g, x, y) ==> Tile(g, x, y) in {EMPTY, OBSTACLE, MARKER, VOID}
  }

  /** On an arena of the four tile kinds the two rules agree. */
  lemma RulesAgree(g: Grid, c: Cell)
    requires KnownTiles(g)
    ensures Open(g, c, Search) <==> Open(g, c, Traversal)
  {
    if InBounds(g, c.x, c.y) {
      assert Tile(g, c.x, c.y) in {EMPTY, OBSTACLE, MARKER, VOID};
    }
  }

  /** On such an arena a walk for the search is a walk for the robot. */
  lemma WalkRulesAgree(g: Grid, w: seq<Cell>)
    requires KnownTiles(g) && IsWalk(g, Search, w)
    ensures IsWalk(g, Traversal, w)
  {
    forall i | 0 < i < |w|
      ensures Open(g, w[i], Traversal)
    {
      RulesAgree(g, w[i]);
    }
  }

  /** On such an arena a connection for the robot is one for the search. */
  lemma ConnectedRulesAgree(g: Grid, a: Cell, b: Cell)
    requires KnownTiles(g) && Connected(g, Traversal, a, b)
    ensures Connected(g, Search, a, b)
  {
    var w :| IsWalk(g, Traversal, w) && w[0] == a && Last(w) == b;
    forall i | 0 < i < |w|
      ensures Open(g, w[i], Search)
    {
      RulesAgree(g, w[i]);
    }
    assert IsWalk(g, Search, w);
  }

  predicate Adjacent(a: Cell, b: Cell)
  {
    Abs(a.x - b.x) + Abs(a.y - b.y) == 1
  }

  /** The four cells next to a cell. */
  lemma AdjacentCases(a: Cell, b: Cell)
    requires Adjacent(a, b)
    ensures || b == Cell(a.x - 1, a.y) || b == Cell(a.x + 1, a.y)
            || b == Cell(a.x, a.y - 1) || b == Cell(a.x, a.y + 1)
  {
  }

  /** A walk starts on the grid and moves one orthogonal step at a time into open cells. */
  predicate IsWalk(g: Grid, rule: Rule, w: seq<Cell>)
  {
    && 0 < |w|
    && InBounds(g, w[0].x, w[0].y)
    && forall i :: 0 < i < |w| ==> Open(g, w[i], rule) && Adjacent(w[i - 1], w[i])
  }

  function Last(w: seq<Cell>): Cell
    requires 0 < |w|
  {
    w[|w| - 1]
  }

  /** b can be reached from a. */
  ghost predicate Connected(g: Grid, rule: Rule, a: Cell, b: Cell)
  {
    exists w :: IsWalk(g, rule, w) && w[0] == a && Last(w) == b
  }

  lemma ConnectedRefl(g: Grid, rule: Rule, a: Cell)
    requires InBounds(g, a.x, a.y)
    ensures Connected(g, rule, a, a)
  {
    assert IsWalk(g, rule, [a]);
  }

  /** One more step into an open neighbour extends a connection. */
  lemma ConnectedStep(g: Grid, rule: Rule, a: Cell, b: Cell, c: Cell)
    requires Connected(g, rule, a, b) && Adjacent(b, c) && Open(g, c, rule)
    ensures Connected(g, rule, a, c)
  {
    var w :| IsWalk(g, rule, w) && w[0] == a && Last(w) == b;
    var w' := w + [c];
    assert IsWalk(g, rule, w') && w'[0] == a && Last(w') == c;
  }

  /** Walks join end to start. */
  lemma {:induction false} ConnectedTrans(g: Grid, rule: Rule, a: Cell, b: Cell, c: Cell)
    requires Connected(g, rule, a, b) && Connected(g, rule, b, c)
    ensures Connected(g, rule, a, c)
  {
    var u :| IsWalk(g, rule, u) && u[0] == a && Last(u) == b;
    var v :| IsWalk(g, rule, v) && v[0] == b && Last(v) == c;
    var w := u + v[1..];
    forall i | 0 < i < |w|
      ensures Open(g, w[i], rule) && Adjacent(w[i - 1], w[i])
    {
      if i >= |u| {
        assert w[i] == v[i - |u| + 1];
        assert w[i - 1] == v[i - |u|];
      }
    }
    assert IsWalk(g, rule, w) && w[0] == a && Last(w) == c;
  }

  /** A walk between two open cells can be walked backwards. */
  lemma {:induction false} ConnectedSymmetric(g: Grid, rule: Rule, a: Cell, b: Cell)
    requires Connected(g, rule, a, b) && Open(g, a, rule)
    ensures Connected(g, rule, b, a)
  {
    var w :| IsWalk(g, rule, w) && w[0] == a && Last(w) == b;
    var n := |w|;
    var r := seq(n, i requires 0 <= i < n => w[n - 1 - i]);
    forall i | 0 < i < n
      ensures Open(g, r[i], rule) && Adjacent(r[i - 1], r[i])
    {
      assert r[i] == w[n - 1 - i] && r[i - 1] == w[n - 1 - i + 1];
    }
    assert IsWalk(g, rule, r) && r[0] == b && Last(r) == a;
  }

  /** Every open neighbour of a cell of P is in S. */
  ghost predicate ClosedUnder(S: set<Cell>, P: set<Cell>, g: Grid, rule: Rule)
  {
    forall c, n :: c in P && Adjacent(c, n) && Open(g, n, rule) ==> n in S
  }

  /** A walk that starts in a set closed under open neighbours never leaves it. */
  lemma {:induction false} WalkStaysIn(S: set<Cell>, g: Grid, rule: Rule, w: seq<Cell>)
    requires ClosedUnder(S, S, g, rule) && IsWalk(g, rule, w) && w[0] in S
    ensures Last(w) in S
    decreases |w|
  {
    if 1 < |w| {
      var w' := w[..|w| - 1];
      assert IsWalk(g, rule, w');
      WalkStaysIn(S, g, rule, w');
      assert Adjacent(w[|w| - 2], Last(w));
    }
  }

  lemma ConnectedStaysIn(S: set<Cell>, g: Grid, rule: Rule, a: Cell, b: Cell)
    requires ClosedUnder(S, S, g, rule) && a in S && Connected(g, rule, a, b)
    ensures b in S
  {
    var w :| IsWalk(g, rule, w) && w[0] == a && Last(w) == b;
    WalkStaysIn(S, g, rule, w);
  }

  const UP: Byte := 0
  const RIGHT: Byte := 1
  const DOWN: Byte := 2
  const LEFT: Byte := 3

  /** The column change of a step along heading d: +1 for Right, -1 for Left. */
  function XShift(d: Byte): int
  {
    (if d == RIGHT then 1 else 0) - (if d == LEFT then 1 else 0)
  }

  /** The row change of a step along heading d: +1 for Down, -1 for Up. */
  function YShift(d: Byte): int
  {
    (if d == DOWN then 1 else 0) - (if d == UP then 1 else 0)
  }

  /** The cell one step from c along heading d; Up is the row above. */
  function StepIn(c: Cell, d: Byte): (c': Cell)
    ensures d <= 3 ==> Adjacent(c, c')
    ensures d == UP ==> c' == Cell(c.x, c.y - 1)
    ensures d == RIGHT ==> c' == Cell(c.x + 1, c.y)
    ensures d == DOWN ==> c' == Cell(c.x, c.y + 1)
    ensures d == LEFT ==> c' == Cell(c.x - 1, c.y)
  {
    Cell(c.x + XShift(d), c.y + YShift(d))
  }

  /** Where a list of headings leads from c. */
  function Replay(c: Cell, ds: seq<Byte>): Cell
    decreases |ds|
  {
    if ds == [] then c else Replay(StepIn(c, ds[0]), ds[1..])
  }

  /** A set of cells of the grid has at most width * height members. */
  function AllCells(w: nat, h: nat): (s: set<Cell>)
    ensures forall c :: c in s <==> 0 <= c.x < w && 0 <= c.y < h
  {
    set x: int, y: int | 0 <= x < w && 0 <= y < h :: Cell(x, y)
  }

  function Row(w: nat, y: int): (s: set<Cell>)
    ensures forall c :: c in s <==> 0 <= c.x < w && c.y == y
    ensures |s| == w
  {
    if w == 0 then {} else
      var s := Row(w - 1, y) + {Cell(w - 1, y)};
      assert Cell(w - 1, y) !in Row(w - 1, y);
      s
  }

  lemma {:induction false} AllCellsSize(w: nat, h: nat)
    ensures |AllCells(w, h)| == w * h
  {
    if h > 0 {
      var upper, row := AllCells(w, h - 1), Row(w, h - 1);
      AllCellsSize(w, h - 1);
      forall c ensures c in AllCells(w, h) <==> c in upper + row {
      }
      assert AllCells(w, h) == upper + row;
      forall c | c in upper ensures c !in row {
      }
      assert upper * row == {};
      assert |upper + row| == |upper| + |row|;
      assert w * h == w * (h - 1) + w;
    }
  }

  lemma SubsetSize(a: set<Cell>, b: set<Cell>)
    requires a <= b
    ensures |a| <= |b|
  {
    assert b == a + (b - a);
  }
}
